=== FILE: README.md ===
# pprune-calc in Dafny

pprune-calc reconstructs two aircraft ground runs from video measured by hand: the Airbus A340 at Campinas (SBKP) and the Antonov AN-24 at Nizhneangarsk. Each run yields ground speed, distance, acceleration, aspect and pitch, plus the position of the camera. Every quantity is computed three times, once per *error direction*: MIN, MID or MAX. The worst-case error in time (five frames) and in value is pushed the way that widens the bound.

This project models the computational core of that code as pure Dafny functions over exact reals and proves properties of it:

- **A340 analysis** (modules `VideoUtils`, `VideoData`, `VideoAnalysis`, `Aspect`, `Pitch`, `PlotCommon`):
  - knot conversions, `n` choose `k`, table interpolation and the cubic / quartic polynomials with their integrals and derivatives;
  - the validation branches of the aspect triangulation and the transit x-axis intercept;
  - `ErrorDirection` and `apply_min_mid_max_error`;
  - video times, ffmpeg frame names and transits;
  - the observer-position estimate from pairs of wing-tip bearings: pair selection, baseline filter, per-column sort and statistics;
  - the fitted-table sampling loop;
  - the aspect and pitch tables and their fitted lines;
  - the gnuplot merge of several time-indexed arrays onto one time base;
  - the ground-speed fit cache and the full-transit crossing estimate;
  - the coefficients of the equations of motion.
- **AN-24 analysis** (modules `Polynomial`, `MapFuncs`, `Tiles`, `VideoA`, `VideoAB`):
  - the general polynomial with its derivative, integral and text form;
  - moving points between overlapping map tiles and the tile tie points;
  - frame and time conversions and the distance tolerance;
  - slab-transit speeds, and distance, speed and acceleration chosen between the tile and slab fits;
  - the constant-acceleration solutions;
  - the ties between the two videos.
- **Shared**:
  - `Structs` is the mid / plus / minus record;
  - `Outcomes` holds `Result` and the Python exception kinds raised;
  - `Seqs` holds sums, means, variance, min / max, sorting and the pairs of `itertools.combinations`;
  - `Decimal` holds decimal digit strings, `int()` and slicing.

Python exceptions are modelled as `Err(kind)` results. Library numerics are parameters of the functions that use them: sine, cosine, square root, `curve_fit` results and line intersection. Module-level tables such as tie points, slab transits and events are parameters or constants. The cached fits of `get_gs_fit` are an explicit map passed in and returned.

## Model

| member | source | states |
|---|---|---|
| VideoUtils.MpsToKnots | A340-SBKP/analysis/video_utils.py:10-12 | the knots value times the length of a nautical mile (6080 ft of 0.3048 m) is the distance covered in an hour at `v` m/s |
| VideoUtils.KnotsToMps | A340-SBKP/analysis/video_utils.py:15-17 | the m/s value covers in an hour exactly `k` nautical miles of 6080 ft of 0.3048 m |
| VideoUtils.KnotsRoundTrip | A340-SBKP/analysis/test_video_utils.py:31-38 | the two conversions are exact inverses of each other in both orders |
| VideoUtils.NumKOfN | A340-SBKP/analysis/video_utils.py:20-26 | 0 when `k > n`, 1 when `k == n`, and an error (ValueError of `math.factorial`) exactly when `k < n` and `k` is negative |
| VideoUtils.NumKOfNIsChoose | A340-SBKP/analysis/video_utils.py:20-26 | for natural arguments the factorial quotient equals the number of `k`-subsets of an `n`-set given independently by Pascal's rule |
| VideoUtils.FactorialChoose | A340-SBKP/analysis/video_utils.py:26 | `n! == C(n, k) k! (n-k)!`, so the integer division in the source is exact |
| VideoUtils.ChooseAbsorb | A340-SBKP/analysis/video_utils.py:26 | the absorption identity `k C(n, k) == n C(n-1, k-1)` of the subset count |
| VideoUtils.ChoosePairs | A340-SBKP/analysis/video_utils.py:26 | the number of unordered pairs of `n` items is `n (n-1) / 2` |
| VideoUtils.NumKOfNExamples | A340-SBKP/analysis/test_video_utils.py:41-54 | the tabulated cases (1,1), (2,2), (10,10), (10,11) and (3,2) give 1, 1, 1, 0 and 3 |
| VideoUtils.NumKOfNPairs | A340-SBKP/analysis/test_video_utils.py:50 | two out of `n` is `n (n-1) / 2` for every `n > 2`, which is 496 for 32 |
| VideoUtils.NumKOfNFive | A340-SBKP/analysis/test_video_utils.py:49 | five out of `n` is `n (n-1) (n-2) (n-3) (n-4) / 120` for every `n > 5`, which is 2598960 for 52 |
| VideoUtils.BisectLeft | A340-SBKP/analysis/video_utils.py:80 | the insertion point lies between 0 and the length |
| VideoUtils.BisectLeftSpec | A340-SBKP/analysis/video_utils.py:80 | on a non-decreasing sequence every element before the insertion point is below `x` and every element from it on is at least `x` |
| VideoUtils.BisectLeftAt | A340-SBKP/analysis/video_utils.py:80 | on a strictly increasing sequence the insertion point is the unique index between the last element below `x` and the first not below it |
| VideoUtils.Slope | A340-SBKP/analysis/video_utils.py:85-93 | the slope times the run of the segment is its rise |
| VideoUtils.Fraction | A340-SBKP/analysis/video_utils.py:95-96 | the fraction times the segment width is the distance of `x` from the segment start |
| VideoUtils.Interpolate | A340-SBKP/analysis/video_utils.py:76-99 | ValueError when the lengths differ; a value only for a non-empty table |
| VideoUtils.InterpolateHit | A340-SBKP/analysis/video_utils.py:87-88 | an abscissa of a strictly increasing table returns its ordinate exactly |
| VideoUtils.InterpolateInterior | A340-SBKP/analysis/video_utils.py:95-99 | strictly between neighbours `k-1` and `k` the result is `ys[k-1]` plus the fraction of the way times the rise of that segment |
| VideoUtils.InterpolateBelow | A340-SBKP/analysis/video_utils.py:89-94 | below the first abscissa the first segment is extended with its slope |
| VideoUtils.InterpolateAbove | A340-SBKP/analysis/video_utils.py:81-86 | above the last abscissa the last segment is extended with its slope |
| VideoUtils.InterpolateTooFew | A340-SBKP/analysis/video_utils.py:81-91 | with fewer than two points any `x` that is not a table abscissa raises ValueError |
| VideoUtils.SlopeOfLine | A340-SBKP/analysis/video_utils.py:85-93 | the slope of any segment of the line `m x + c` is `m` |
| VideoUtils.InterpolateLine | A340-SBKP/analysis/test_video_utils.py:57-75 | points of a line `m x + c` on strictly increasing abscissae are interpolated and extrapolated onto that line for every `x` |
| VideoUtils.InterpolateExample | A340-SBKP/analysis/test_video_utils.py:57-75 | the table `y = 2 x` on `x = 4, 8, 12, 16` gives 0 at 0, 12 at 6 and 40 at 20 |
| VideoUtils.Poly3 | A340-SBKP/analysis/video_utils.py:102-104 | the Horner form equals the power sum `a + b x + c x^2 + d x^3` |
| VideoUtils.Poly3IntegralFromZero | A340-SBKP/analysis/video_utils.py:107-111 | equals the power sum of the integrated coefficients `0, a, b/2, c/3, d/4` |
| VideoUtils.Poly3Integral | A340-SBKP/analysis/video_utils.py:114-120 | the definite integral is the difference of the integrals from zero at its two bounds |
| VideoUtils.Poly3Differential | A340-SBKP/analysis/video_utils.py:123-127 | equals the power sum of the differentiated coefficients `b, 2c, 3d` |
| VideoUtils.Poly3IntegralAdditive | A340-SBKP/analysis/video_utils.py:114-120 | the integral over an empty interval is 0, swapping bounds negates it, and adjacent intervals add up |
| VideoUtils.Poly4 | A340-SBKP/analysis/video_utils.py:130-131 | the Horner form equals the power sum of the five coefficients |
| VideoUtils.Poly4IntegralFromZero | A340-SBKP/analysis/video_utils.py:134-135 | equals the power sum of the integrated coefficients |
| VideoUtils.Poly4Integral | A340-SBKP/analysis/video_utils.py:138-143 | the definite integral is the difference of the integrals from zero |
| VideoUtils.Poly4Differential | A340-SBKP/analysis/video_utils.py:146-147 | equals the power sum of the differentiated coefficients |
| VideoUtils.IntegralDifferentiatesBack | A340-SBKP/analysis/video_utils.py:107-147 | differentiating the integrated coefficients of the cubic and of the quartic gives back the original coefficients |
| VideoUtils.Mod360 | A340-SBKP/analysis/video_utils.py:50-51 | Python's float `% 360` lands in `[0, 360)` and leaves bearings already there unchanged |
| VideoUtils.Mod360Turn | A340-SBKP/analysis/video_utils.py:50-51 | bearings a whole turn apart normalise alike |
| VideoUtils.TriangleAsa | A340-SBKP/analysis/video_utils.py:29-44 | a result exactly when both angles and the side are positive and the third angle's sine is non-zero; ValueError for a non-positive input; the three angles make a straight angle (180 degrees here, `math.pi` radians in the source) and the sides obey the law of sines |
| VideoUtils.AspectIntersection | A340-SBKP/analysis/video_utils.py:47-73 | after normalising bearings and putting the nearer sighting first, a result only when the distances differ and the bearings are both in `(0, 180)` ascending or both in `(180, 360)` descending; ValueError otherwise |
| VideoUtils.AspectIntersectionSymmetric | A340-SBKP/analysis/video_utils.py:52-55 | the two sightings may be given in either order |
| VideoUtils.AspectIntersectionTurn | A340-SBKP/analysis/video_utils.py:50-51 | adding a whole turn to either bearing changes nothing |
| VideoUtils.TransitXAxisIntercept | A340-SBKP/analysis/video_utils.py:245-249 | fails with ZeroDivisionError exactly when the transit line is parallel to the x axis |
| VideoUtils.TransitXAxisInterceptCollinear | A340-SBKP/analysis/video_utils.py:245-249 | the result is `x` exactly when `(x, 0)` is collinear with the object and the observer |
| VideoUtils.TransitXAxisInterceptExamples | A340-SBKP/analysis/test_video_utils.py:228-242 | (2, 1) and (6, -1) seen from (8, -2) both cross the axis at 4 |
| VideoData.FromValue | A340-SBKP/analysis/video_data.py:56-59 | `ErrorDirection(v)` succeeds exactly for a member or one of the values -1, 0, 1, and returns the member whose value equals `v` (or `v` itself) |
| VideoData.OperatorsAreConstant | A340-SBKP/analysis/video_data.py:61-78 | as written, `-d` is MIN, `+d` and `abs(d)` are MAX and `~d` is MID whatever `d` is |
| VideoData.Flip | A340-SBKP/analysis/video_data.py:73-78 | the evidently intended inversion negates the direction's value |
| VideoData.FlipInvolution | A340-SBKP/analysis/video_data.py:73-78 | flipping twice is the identity, only MID is fixed, and MIN and MAX swap |
| VideoData.OperatorsDoNotFlip | A340-SBKP/analysis/video_data.py:61-78 | `-MIN`, `-MID`, `~MIN` and `~MAX` as written all differ from the flipped direction |
| VideoData.ApplyMinMidMaxError | A340-SBKP/analysis/video_data.py:93-111 | MID is `func(t)`; MIN or MAX with a negative error fails the assertion; otherwise a result exactly when `func` is defined five frames ahead and now and, unless the value ahead already moves in the wanted direction, five frames behind; the result is the value ahead when it moves in the wanted direction and the value behind otherwise, pushed by the error; any other error is one `func` raised |
| VideoData.ApplyMinMidMaxOrdered | A340-SBKP/analysis/video_data.py:93-111 | for a strictly monotone total function and a non-negative error, MIN is more than `err` below MID and MAX more than `err` above it |
| VideoData.ApplyMinMidMaxFlatRight | A340-SBKP/analysis/video_data.py:102-106 | for a function that is monotone but flat after `t`, MAX can lie below MID |
| VideoData.Perturb | A340-SBKP/analysis/aspect.py:43-58 | a row is moved by the direction's sign times five frames in time and times the error in value |
| VideoData.PerturbOrdered | A340-SBKP/analysis/aspect.py:43-58 | with a non-negative error MIN, MID and MAX rows are ordered in time strictly and in value (strictly for a positive error) |
| VideoData.MakeVideoTime | A340-SBKP/analysis/video_data.py:117-126 | a time exactly for three arguments with minutes and seconds in `[0, 60)` and frame in `[0, 30)`, ValueError otherwise; a valid time is in `[0, 3661)` seconds |
| VideoData.VideoTimeOrder | A340-SBKP/analysis/video_data.py:128-137 | `<` and `==` compare only `.time`: exactly one of less, equal, greater holds, and both are transitive |
| VideoData.LtIsLexicographic | A340-SBKP/analysis/video_data.py:128-137 | for valid times with whole minutes and seconds, `<` on times is the lexicographic order of (minutes, seconds, frame) |
| VideoData.TimeVideoMaxAsInt | A340-SBKP/analysis/video_data.py:147-149 | one second after the end of the video at 00:35:20 truncates to 36 |
| VideoData.VideoFrameToTime | A340-SBKP/analysis/video_data.py:178-184 | a valid time exactly for frames in `[0, 108000)`, ValueError otherwise, and the time is the frame number over 30 |
| VideoData.VideoFrameToTimeOrder | A340-SBKP/analysis/video_data.py:178-184 | later frames give later times |
| VideoData.VideoFrameToTimeExamples | A340-SBKP/analysis/test_video_data.py:7-16 | frames 0, 30 and 1800 give 00:00:00, 00:01:00 and 01:00:00 |
| VideoData.VideoTimeToFfmpegTime | A340-SBKP/analysis/video_data.py:187-190 | a result exactly when the ffmpeg frame index, two ahead of the video frame, is inside the hour, and then that index over 30; ValueError otherwise |
| VideoData.VideoTimeToFfmpegName | A340-SBKP/analysis/video_data.py:193-195 | the name is `image`, then digits whose value is the ffmpeg frame index (at least six of them), then `.png` |
| VideoData.FfmpegTimeToVideoTime | A340-SBKP/analysis/video_data.py:198-201 | a result exactly when the frame two earlier, truncated toward zero, is inside the hour, and then that frame over 30; ValueError otherwise |
| VideoData.FfmpegTimeBeforeStart | A340-SBKP/analysis/video_data.py:198-201 | an ffmpeg time within the first frame, such as 00:00:00, converts back to ValueError |
| VideoData.FfmpegTimePastHour | A340-SBKP/analysis/video_data.py:187-190 | a video time within the last two frames of the hour, such as 59:59:29, converts to ValueError |
| VideoData.FfmpegNameToVideoTime | A340-SBKP/analysis/video_data.py:204-207 | a successful parse reads the six characters after `image` as an integer and is the valid video time two frames before it |
| VideoData.FfmpegTimeRoundTrip | A340-SBKP/analysis/test_video_data.py:18-38 | a whole-frame time goes to ffmpeg time and back to an equal time |
| VideoData.FfmpegNameRoundTrip | A340-SBKP/analysis/test_video_data.py:41-63 | a whole-frame time goes to an image name and back to an equal time |
| VideoData.FfmpegNameExample | A340-SBKP/analysis/test_video_data.py:44 | 00:08:14 is `image000256.png` |
| VideoData.TransitMidPoint | A340-SBKP/analysis/video_data.py:397-407 | the transit time is half the duration from either end, so it lies between them when the duration is not negative |
| VideoData.TransitIsSimultaneous | A340-SBKP/analysis/video_data.py:939-944 | true exactly when the label is one side of some simultaneous pair |
| VideoAnalysis.GroundSpeedIntegral | A340-SBKP/analysis/video_analysis.py:113-114 | the distance between two times is the difference of the integrals from zero of the ground-speed fit |
| VideoAnalysis.GroundSpeedIntegralAdditive | A340-SBKP/analysis/video_analysis.py:113-114 | no distance over an empty interval, and distances over consecutive intervals add up |
| VideoAnalysis.WingTipRows | A340-SBKP/analysis/video_analysis.py:355-381 | one row per wing-tip sighting in order: its time, the distance travelled from time 0, the angle moved by the error in the given direction, and the error |
| VideoAnalysis.WingTipRowsDirections | A340-SBKP/analysis/video_analysis.py:372-377 | MIN, MID and MAX rows agree in time, distance and error; MID keeps the angle, and with a non-negative error the bearings are ordered |
| VideoAnalysis.FitRow | A340-SBKP/analysis/video_analysis.py:230-233 | a fitted row carries its time, the ground-speed fit integrated from zero to that time, the aspect fit's bearing at that time and the constant aspect error |
| VideoAnalysis.FitRowDistances | A340-SBKP/analysis/video_analysis.py:230-233 | the distance is zero at time zero, and two rows' distances differ by the ground speed integrated between their times |
| VideoAnalysis.SampleStep | A340-SBKP/analysis/video_analysis.py:229-234 | one round of the sampling loop keeps the loop's invariant and stays within the number of steps that fit under the limit |
| VideoAnalysis.Sample | A340-SBKP/analysis/video_analysis.py:227-235 | rows at `0, dt, 2 dt, ...` as long as the time is at most 36 s, at least one, and the next step would pass 36 s |
| VideoAnalysis.TimeDistanceBearingFromFits | A340-SBKP/analysis/video_analysis.py:219-235 | row `k` is the fitted row at time `k dt`, every time is at most 36 s and the next step would pass it |
| VideoAnalysis.DropFirst | A340-SBKP/analysis/video_analysis.py:173 | `array[n:]` is a suffix with `len - n` rows for `n >= 0` (none when `n` is too large) and the last `-n` rows for negative `n` |
| VideoAnalysis.InWindow | A340-SBKP/analysis/video_analysis.py:176-183 | the rows kept are exactly those with `t0 <= t < t1`, each with its full multiplicity and no other row at all |
| VideoAnalysis.InWindowAppend | A340-SBKP/analysis/video_analysis.py:176-183 | the selection keeps the rows' order: selecting from two runs of rows gives the two selections one after the other |
| VideoAnalysis.Selected | A340-SBKP/analysis/video_analysis.py:173-183 | the first rows are dropped; the time window applies only when `t0 < t1`, and then keeps every remaining row inside it with its multiplicity and nothing else |
| VideoAnalysis.Abs | A340-SBKP/analysis/video_analysis.py:189 | Python `abs`: non-negative and `x` or `-x` |
| VideoAnalysis.Separated | A340-SBKP/analysis/video_analysis.py:186-197 | the pairs kept are exactly those whose distances differ by strictly more than the baseline |
| VideoAnalysis.Intersections | A340-SBKP/analysis/video_analysis.py:190-197 | one position per pair in order, failing exactly when some pair's intersection fails |
| VideoAnalysis.SortColumns | A340-SBKP/analysis/video_analysis.py:199-200 | `sort(axis=0)` keeps the length and each column's multiset and makes each column ascending on its own |
| VideoAnalysis.SortColumnsRepairs | A340-SBKP/analysis/video_analysis.py:199-200 | sorting the columns separately re-pairs points: `(a, b), (b, a)` becomes `(a, a), (b, b)` |
| VideoAnalysis.ObserverPositionCombinations | A340-SBKP/analysis/video_analysis.py:148-201 | the count is `n (n - 1) / 2` for the `n` selected rows, whatever the baseline, and bounds the number of positions |
| VideoAnalysis.ObserverPositionCombinationsFromFits | A340-SBKP/analysis/video_analysis.py:238-267 | the count is `n (n - 1) / 2` for the `n` fitted rows and bounds the number of positions, which reach it for a negative baseline; a result exactly when every pair `i < j` whose distances differ by more than the baseline has an `aspect_intersection`, and then every such pair's position is among the positions and every position is such a pair's |
| VideoAnalysis.SeparatedOf | A340-SBKP/analysis/video_analysis.py:251-254 | the chosen pairs are exactly the pairs `i < j` whose distances differ by more than the baseline, and all pairs when the baseline is negative |
| VideoAnalysis.MeetsOfChosenOk | A340-SBKP/analysis/video_analysis.py:251-262 | triangulating exactly the separated pairs succeeds exactly when each separated pair has an `aspect_intersection` |
| VideoAnalysis.MeetsOfChosenAll | A340-SBKP/analysis/video_analysis.py:251-262 | every separated pair's position is among the triangulated positions |
| VideoAnalysis.MeetsOfChosenOnly | A340-SBKP/analysis/video_analysis.py:251-262 | every triangulated position is some separated pair's position |
| VideoAnalysis.SeparatedPairs | A340-SBKP/analysis/video_analysis.py:186-189 | a pair contributes exactly when it is `i < j` and their distances differ by more than the baseline |
| VideoAnalysis.NegativeBaselineKeepsAll | A340-SBKP/analysis/video_analysis.py:189 | with a negative baseline every pair is kept |
| VideoAnalysis.MeanStd | A340-SBKP/analysis/video_analysis.py:214-216 | per column the mean of the column, which lies between the column's minimum and maximum, and the square root of the population variance; TypeError exactly when there are no positions |
| VideoAnalysis.MeanStdIgnoresSort | A340-SBKP/analysis/video_analysis.py:199-215 | sorting the columns does not change the statistics |
| VideoAnalysis.ObserverPositionMeanStd | A340-SBKP/analysis/video_analysis.py:204-216 | statistics exactly when the MID combinations succeed with at least one position, and then each column's mean and the square root of its population variance over those positions; TypeError when they succeed with none |
| VideoAnalysis.TransitXAxisDistances | A340-SBKP/analysis/video_analysis.py:392-411 | one entry per event in order, with its time, its label and the x-axis intercept of the line from its landmark through the observer; a result exactly when every label has a position and every intercept is defined, so an error whenever some label has no position |
| Aspect.MeasuredAspect | A340-SBKP/analysis/video_data.py:222-231 | an aspect measured by eye keeps its time and angle and has the fixed five-degree error |
| Aspect.AspectFromFit | A340-SBKP/analysis/aspect.py:22-24 | the fitted cubic at `t` is the power sum of its four coefficients |
| Aspect.Aspects | A340-SBKP/analysis/aspect.py:36-59 | one row per observation in order, each the observation perturbed in the given direction by its own error |
| Aspect.AspectsDirections | A340-SBKP/analysis/aspect.py:43-58 | MID is the observation; MIN and MAX are five frames and one error earlier/lower and later/higher, so with a non-negative error the angles are ordered |
| Aspect.AspectsKeepOrder | A340-SBKP/analysis/aspect.py:43-58 | the perturbation keeps the order of the observations' times |
| Aspect.FittedLine | A340-SBKP/analysis/aspect.py:27-33 | one row per whole second from `start` to `stop` inclusive (none when `stop < start`), each the cubic at that second |
| Aspect.TableSpan | A340-SBKP/analysis/aspect.py:77-78 | IndexError exactly for an empty table; otherwise the first time truncated and the last time rounded to the nearest second |
| Aspect.AspectFittedLine | A340-SBKP/analysis/aspect.py:75-79 | the fitted line over the table's span; IndexError exactly for an empty table |
| Aspect.AspectFittedLineCovers | A340-SBKP/analysis/aspect.py:75-79 | for valid ascending times the line is not empty, starts at the first observation's whole second and ends at the last observation's rounded second |
| Pitch.PitchAt | A340-SBKP/analysis/pitch.py:10-15 | a pitch is defined only for a non-empty table |
| Pitch.PitchAtTooFew | A340-SBKP/analysis/pitch.py:10-15 | with fewer than two observations, any time that is not observed gives ValueError |
| Pitch.PitchAtObservation | A340-SBKP/analysis/pitch.py:10-15 | at an observation's time the observed pitch comes back exactly |
| Pitch.Pitch | A340-SBKP/analysis/pitch.py:18-22 | MID is the interpolated pitch; MAX (MIN) is a result exactly when the pitch is defined five frames ahead, now and, unless the pitch ahead is higher (lower) than now, five frames behind; it is that pitch ahead or behind plus (minus) one degree, and its errors are the interpolation's |
| Pitch.PitchOnRisingLine | A340-SBKP/analysis/pitch.py:18-22 | when the observations lie on a rising line every direction is defined, and MIN is more than a degree below MID and MAX more than a degree above |
| Pitch.PitchOnLine | A340-SBKP/analysis/pitch.py:10-15 | observations on a straight line interpolate to that line everywhere |
| Pitch.LineIncreasing | A340-SBKP/analysis/pitch.py:18-22 | a line of positive slope is strictly increasing |
| Pitch.Pitches | A340-SBKP/analysis/pitch.py:25-46 | one row per observation in order, each perturbed by five frames and one degree in the given direction |
| Pitch.PitchesOrdered | A340-SBKP/analysis/pitch.py:30-45 | MID is the observation, the times are strictly ordered MIN < MID < MAX, and the angles are one degree apart each way |
| Pitch.PitchFittedLine | A340-SBKP/analysis/pitch.py:61-70 | the pitch cubic at every whole second of the ASPECT table's span; IndexError exactly when the aspect table is empty |
| PlotCommon.AllTimes | A340-SBKP/analysis/plot_common.py:16-20 | a time is collected exactly when it is in column 0 of some array |
| PlotCommon.AllTimesCons | A340-SBKP/analysis/plot_common.py:17-20 | the first array's times followed by the rest's are the times of all the arrays |
| PlotCommon.Dedupe | A340-SBKP/analysis/plot_common.py:20-21 | removing repeats from an ascending sequence gives a strictly ascending one with the same values and the same first value |
| PlotCommon.Timebase | A340-SBKP/analysis/plot_common.py:16-21 | the time base is strictly ascending and holds exactly the times that occur in some array |
| PlotCommon.Blocks | A340-SBKP/analysis/plot_common.py:22-37 | one block per time of the time base; the walk consumes at most one row per time |
| PlotCommon.GnuplotWriteArrays | A340-SBKP/analysis/plot_common.py:13-39 | ValueError exactly when some argument is not 2-D; otherwise one line per time of the time base, in order, each with one block per array taken from that array's walk |
| PlotCommon.OnBaseStep | A340-SBKP/analysis/plot_common.py:23-33 | moving to the next time keeps an array's walk on the rest of the time base |
| PlotCommon.BlocksConsumeEachRow | A340-SBKP/analysis/plot_common.py:28-33 | along the time base the walk consumes every row |
| PlotCommon.BlocksWriteEachRow | A340-SBKP/analysis/plot_common.py:29-33 | each remaining row is written on the line of its own time |
| PlotCommon.BlocksFillGaps | A340-SBKP/analysis/plot_common.py:34-37 | a time at which no remaining row lies gets `NaN`s |
| PlotCommon.DuplicateTimeStalls | A340-SBKP/analysis/plot_common.py:15-33 | an array with a repeated time never writes its second row at that time |
| PlotCommon.GnuplotWriteArraysPlacesRows | A340-SBKP/analysis/plot_common.py:13-39 | for arrays whose times strictly ascend, every row appears in its array's block on the line of its time |
| PlotCommon.GnuplotWriteArraysFillsGaps | A340-SBKP/analysis/plot_common.py:34-37 | an array with no row at a line's time shows `NaN`s on that line |
| PlotCommon.TableOnBase | A340-SBKP/analysis/plot_common.py:15-23 | an array whose times strictly ascend walks the time base from its first row |
| PlotCommon.GroundSpeedOffset | A340-SBKP/analysis/plot_constants.py:24-28 | the MIN, MID and MAX offsets are -10, 0 and +10 knots |
| PlotCommon.GetGsFit | A340-SBKP/analysis/plot_common.py:45-61 | the fit handed out is the one stored under the direction; an existing entry leaves the cache alone, and no other entry changes |
| PlotCommon.GetGsFitCaches | A340-SBKP/analysis/plot_common.py:45-61 | a sound cache stays sound, hands out the fit with the direction's offset, and a second call returns the same fit and cache |
| PlotCommon.GsFitsCorrected | A340-SBKP/analysis/plot_common.py:223-236 | three fits, the `i`-th with the ground speed raised by `5 i` knots |
| PlotCommon.ObserverPositionFromFullTransits | A340-SBKP/analysis/plot_common.py:208-220 | ZeroDivisionError exactly with fewer than two lines; otherwise the sum of the x crossings over their count, half their max minus min, and the same for y, with each mean between the least and greatest crossing, so non-negative half ranges and every crossing within twice the half range of the mean |
| PlotCommon.CrossingXs | A340-SBKP/analysis/plot_common.py:209-218 | one x coordinate per pair of lines, in combination order, each the crossing of that pair, and every pair's crossing among them |
| PlotCommon.CrossingYs | A340-SBKP/analysis/plot_common.py:209-218 | the y coordinates of the same crossings in the same order |
| PlotCommon.ConcurrentTransits | A340-SBKP/analysis/plot_common.py:208-220 | when all transit lines meet in one point, the result is that point with zero spread |
| PlotCommon.CrossingsNearMean | A340-SBKP/analysis/plot_common.py:211-220 | every crossing of two lines lies within twice the half range of the mean, in x and in y |
| PlotCommon.EquationsOfMotion | A340-SBKP/analysis/plot_common.py:258-303 | the speed coefficients, their derivative and their integral, with the constant term making the distance the runway length at the end of the asphalt |
| PlotCommon.DistanceAtEndOfAsphalt | A340-SBKP/analysis/plot_common.py:274-296 | setting the integral's constant term to the runway length less the distance to the end of the asphalt puts the aircraft at the runway's end at that time |
| Outcomes.Divide | AN-24_Nizhneangarsk/map_funcs.py:168-172 | Python's float division: a quotient exactly when the divisor is non-zero, and the quotient times the divisor is the dividend |
| Decimal.Digits | A340-SBKP/analysis/video_data.py:195 | the decimal text of a natural number is non-empty and all digits |
| Decimal.ZeroPad | A340-SBKP/analysis/video_data.py:195 | `'{:06d}'`-style padding is all digits |
| Decimal.ParseInt | A340-SBKP/analysis/video_data.py:206 | `int(s)` of a non-empty digit string is the value of its digits; of an empty string an error |
| Decimal.DigitsValueOfDigits | A340-SBKP/analysis/video_data.py:195-206 | reading back the decimal digits of `n` gives `n` |
| Decimal.LeadingZeros | A340-SBKP/analysis/video_data.py:206 | leading zeros do not change the value of a digit string |
| Decimal.DigitsLength | A340-SBKP/analysis/video_data.py:195 | a number below `10^k` has at most `k` digits |
| Decimal.ZeroPadRoundTrip | A340-SBKP/analysis/video_data.py:195-206 | parsing the zero-padded text of `n` gives `n`, and a number below `10^W` pads to exactly `W` characters |
| Decimal.Truncate | A340-SBKP/analysis/video_data.py:189-200 | `int(x)` of a float truncates toward zero: the largest whole number not above a non-negative `x`, the smallest not below a negative one |
| Decimal.TruncateWhole | A340-SBKP/analysis/video_data.py:189-200 | truncation leaves whole numbers unchanged |
| Decimal.Slice | A340-SBKP/analysis/video_data.py:206 | Python's `s[a:b]` is no longer than `s` and is the ordinary slice when the bounds are in range |
| Structs.MidPlusMinus.Plus | common/structs.py:25-27 | the mid value plus the plus part is the maximum |
| Structs.MidPlusMinus.Minus | common/structs.py:29-31 | the mid value plus the (signed) minus part is the minimum |
| Structs.MidPlusMinus.Tolerance | common/structs.py:33-35 | twice the tolerance is the plus part less the minus part |
| Structs.OrderedSigns | common/structs.py:19-35 | for `min <= mid <= max` the plus part is not negative, the minus part not positive, and the tolerance not negative and no larger than the bigger part |
| Structs.Str | common/structs.py:37-38 | the text is the formatted mid, ` +`, the formatted plus part, `/-` and the formatted (signed) minus part, each at its position |
| Structs.StrDoubleMinus | common/structs.py:37-38 | a minus part that formats with a leading `-` is printed after `/-`, giving `/--` |
| Structs.StrCorrected | common/structs.py:37-38 | the evidently intended text: the formatted mid, ` +`, the formatted plus part, `/-` and the formatted magnitude of the minus part, each at its position |
| Structs.StrCorrectedSingleMinus | common/structs.py:37-38 | for an ordered triple the corrected text has a single `-` after the `/` |
| Polynomial.PowerSumCons | AN-24_Nizhneangarsk/common/polynomial.py:4-12 | the Horner step: the power sum is the constant term plus `x` times the power sum of the remaining coefficients |
| Polynomial.DiffCoeffs | AN-24_Nizhneangarsk/common/polynomial.py:15-24 | the derivative's coefficients: `(i+1) c[i+1]` at power `i`, none for 0 or 1 coefficients |
| Polynomial.IntCoeffs | AN-24_Nizhneangarsk/common/polynomial.py:27-33 | the integral's coefficients: a zero constant term and `c[i] / (i+1)` at power `i+1` |
| Polynomial.DiffOfIntCoeffs | AN-24_Nizhneangarsk/common/polynomial.py:15-33 | differentiating the integral's coefficients gives back the original coefficients |
| Polynomial.DiffIgnoresConstant | AN-24_Nizhneangarsk/common/polynomial.py:15-24 | the derivative does not depend on the constant term |
| Polynomial.Evaluate | AN-24_Nizhneangarsk/common/polynomial.py:4-12 | the Horner loop from the last coefficient computes `sum c[i] x^i`, 0 for no coefficients |
| Polynomial.Differential | AN-24_Nizhneangarsk/common/polynomial.py:15-24 | the loop computes the power sum of the derivative's coefficients `sum i c[i] x^(i-1)` |
| Polynomial.Integral | AN-24_Nizhneangarsk/common/polynomial.py:27-33 | the loop computes the power sum of the integral's coefficients `sum c[i] x^(i+1) / (i+1)` |
| Polynomial.PowerSumAtZero | AN-24_Nizhneangarsk/common/polynomial.py:4-12 | every polynomial is its constant term at zero, and 0 without coefficients |
| Polynomial.IntegralAndDifferentialEdgeCases | AN-24_Nizhneangarsk/common/polynomial.py:15-33 | the integral from zero to zero is 0, and the derivative of two coefficients is the second one |
| Polynomial.Polynomial3 | AN-24_Nizhneangarsk/common/polynomial.py:36-38 | the four-coefficient Horner evaluation is `a + b x + c x^2 + d x^3` |
| Polynomial.Polynomial3Integral | AN-24_Nizhneangarsk/common/polynomial.py:41-45 | with a single upper bound, the integral from zero is `a x + b x^2/2 + c x^3/3 + d x^4/4` |
| Polynomial.Polynomial3Differential | AN-24_Nizhneangarsk/common/polynomial.py:48-52 | the derivative is `b + 2 c x + 3 d x^2` |
| Polynomial.Polynomial4 | AN-24_Nizhneangarsk/common/polynomial.py:55-56 | the five-coefficient evaluation is `a + b x + c x^2 + d x^3 + e x^4` |
| Polynomial.Polynomial4Integral | AN-24_Nizhneangarsk/common/polynomial.py:59-60 | the integral from zero has the coefficients `0, a, b/2, c/3, d/4, e/5`, and is 0 at 0 |
| Polynomial.Polynomial4Differential | AN-24_Nizhneangarsk/common/polynomial.py:63-64 | the derivative is `b + 2 c x + 3 d x^2 + 4 e x^3` |
| Polynomial.PolynomialString | AN-24_Nizhneangarsk/common/polynomial.py:67-81 | without coefficients the text is just the header `name(x) =` |
| Polynomial.JoinAppend | AN-24_Nizhneangarsk/common/polynomial.py:80-81 | joining one more part appends a space and that part |
| Polynomial.PolynomialStringSnoc | AN-24_Nizhneangarsk/common/polynomial.py:71-81 | one more coefficient appends a space and its term: the bare value for power 0, `+ v * x` for power 1, `+ v * x**i` above |
| Polynomial.PolynomialStringQuadratic | AN-24_Nizhneangarsk/common/polynomial.py:67-81 | three coefficients render as `name(x) = A + B * x + C * x**2` |
| MapFuncs.Chain | AN-24_Nizhneangarsk/map_funcs.py:22-27 | the summed offsets from tile `a` up to tile `b` exist exactly when every consecutive pair between them has an offset; KeyError otherwise |
| MapFuncs.Shift | AN-24_Nizhneangarsk/map_funcs.py:20-34 | the displacement between two tiles in either direction exists exactly when the tiles between them are linked; KeyError otherwise |
| MapFuncs.PointTileToTile | AN-24_Nizhneangarsk/map_funcs.py:15-37 | the same tile returns the point unchanged; otherwise a position exactly when the tiles between are linked, KeyError otherwise |
| MapFuncs.PointTileToTileLoop | AN-24_Nizhneangarsk/map_funcs.py:15-37 | the two accumulation loops compute the position given by the summed-offset definition, including its KeyError |
| MapFuncs.ChainSplit | AN-24_Nizhneangarsk/map_funcs.py:22-27 | the chain over `[a, c]` exists exactly when both halves at `b` do, and is their sum |
| MapFuncs.ShiftAdditive | AN-24_Nizhneangarsk/map_funcs.py:15-37 | displacements add up along any three linked tiles, whatever their order |
| MapFuncs.ShiftAntisymmetric | AN-24_Nizhneangarsk/map_funcs.py:20-34 | the displacement back exists when the one forward does, and is its negation |
| MapFuncs.PointTileToTileRoundTrip | AN-24_Nizhneangarsk/map_funcs.py:15-37 | moving a point to another tile and back gives the point back |
| MapFuncs.PointTileToTileComposes | AN-24_Nizhneangarsk/map_funcs.py:15-37 | moving from `a` to `b` then to `c` is moving from `a` to `c` |
| MapFuncs.DistanceTileToTile | AN-24_Nizhneangarsk/map_funcs.py:130-160 | defined exactly when the point can be moved, and then the displacement from the image of `pa` on tile `b` to `pb`, which is zero exactly when `pb` is that image |
| MapFuncs.MidPoint | AN-24_Nizhneangarsk/map_funcs.py:102-104 | the mid point is equally far from both points in each coordinate |
| MapFuncs.MidPointSymmetric | AN-24_Nizhneangarsk/map_funcs.py:102-104 | the mid point does not depend on the order, and of a point with itself is that point |
| MapFuncs.MetresPerSecondToKnots | AN-24_Nizhneangarsk/map_funcs.py:163-165 | the knots value times 1852 m is the distance covered in an hour |
| MapFuncs.KnotConversionsDiffer | AN-24_Nizhneangarsk/map_funcs.py:163-165 | for a positive speed the 1852 m conversion gives more knots than the 6080 ft one of the A340 analysis |
| MapFuncs.FrameToTime | AN-24_Nizhneangarsk/map_funcs.py:168-169 | a time exactly for a non-zero rate (ZeroDivisionError otherwise), with frame 1 at time 0 |
| MapFuncs.FramesToDtime | AN-24_Nizhneangarsk/map_funcs.py:172-173 | a duration exactly for a non-zero rate, equal to the frame difference over the rate |
| MapFuncs.FramesToDtimeIsTimeDifference | AN-24_Nizhneangarsk/map_funcs.py:168-173 | the interval between two frames is the difference of their times |
| MapFuncs.TimeToFrame | AN-24_Nizhneangarsk/map_funcs.py:176-177 | one more than the time in frames rounded half up (for times not below half a frame before 0) |
| MapFuncs.FrameTimeRoundTrip | AN-24_Nizhneangarsk/map_funcs.py:168-177 | whole frames from 1 survive the trip to a time and back |
| MapFuncs.FrameZeroDoesNotRoundTrip | AN-24_Nizhneangarsk/map_funcs.py:168-177 | frame 0 comes back as frame 1 |
| MapFuncs.DistanceTolerance | AN-24_Nizhneangarsk/map_funcs.py:180-186 | never below 10 m, exactly 10 m from the threshold on, and before it 10 m plus 0.036 m per metre short of the threshold, which is 100 m at 2500 m before it |
| MapFuncs.DistanceToleranceNonIncreasing | AN-24_Nizhneangarsk/map_funcs.py:180-186 | the tolerance never grows as the distance grows |
| Tiles.TileTiePointsKeys | AN-24_Nizhneangarsk/data/tiles.py:19-35 | the tie points link exactly the consecutive tiles `(k, k + 1)` for `k` from 1 to 6 |
| Tiles.InitTileOffsets | AN-24_Nizhneangarsk/data/tiles.py:37-44 | one offset per tie pair, the first pixel less the second in each coordinate |
| Tiles.TiePointMovesToPartner | AN-24_Nizhneangarsk/data/tiles.py:37-44 | a tie point moved to the next tile lands on its partner, and the partner moved back lands on it |
| Tiles.TileOffsetsConnected | AN-24_Nizhneangarsk/data/tiles.py:19-47 | any point can be moved between any two of the tiles 1 to 7 |
| Tiles.ThresholdOnEachTile | AN-24_Nizhneangarsk/data/tiles.py:50-55 | an entry for each of tiles 1 to 7, the given threshold on tile 5, and on every tile the image of that threshold |
| Tiles.ThresholdsAgree | AN-24_Nizhneangarsk/data/tiles.py:53-55 | the thresholds on any two tiles are images of each other |
| Tiles.ThresholdOnTile4 | AN-24_Nizhneangarsk/data/tiles.py:50-55 | on tile 4 the threshold is at (876, 1049) |
| VideoA.LastTileFrame | AN-24_Nizhneangarsk/data/video_a.py:39-59 | the largest frame with a tile position is 940, and it bounds them all |
| VideoA.LastMeasuredFrame | AN-24_Nizhneangarsk/data/video_a.py:95 | the largest start frame plus its frame count |
| VideoA.LastMeasuredFrameIs1373 | AN-24_Nizhneangarsk/data/video_a.py:66-95 | for the recorded transits the last measured frame is 1370 + 3 |
| VideoA.SlabRow | AN-24_Nizhneangarsk/data/video_a.py:102-110 | ZeroDivisionError exactly for a transit of no frames; otherwise the time is that of the transit's middle frame, the speed times the duration is the slab distance, and the upper and lower speeds lie a tenth of a slab per duration either side |
| VideoA.SlabRowSpeeds | AN-24_Nizhneangarsk/data/video_a.py:103-110 | the speed and its bounds are the distance and its error over the duration, strictly ordered for a positive duration |
| VideoA.SlabRows | AN-24_Nizhneangarsk/data/video_a.py:101-110 | one row per frame in order, each the row of its transit, failing exactly when some transit takes no frames |
| VideoA.InitSlabSpeeds | AN-24_Nizhneangarsk/data/video_a.py:99-111 | one row per slab transit in strictly ascending frame order, each the row of its transit; ZeroDivisionError exactly when a transit takes no frames |
| VideoA.SlabRowsOfSortedFrames | AN-24_Nizhneangarsk/data/video_a.py:101 | the rows of the sorted start frames fail exactly when a transit takes no frames and carry the frames in order |
| VideoA.SlabSpeedsBracketed | AN-24_Nizhneangarsk/data/video_a.py:103-110 | when every transit takes frames, every speed lies strictly between its lower and upper bound |
| VideoA.RecordedTransitsPositive | AN-24_Nizhneangarsk/data/video_a.py:66-94 | every recorded transit takes at least one frame |
| VideoA.Time | AN-24_Nizhneangarsk/data/video_a.py:13-18 | the time in thirtieths of a second is the frame less one |
| VideoA.SlabDistance | AN-24_Nizhneangarsk/data/video_a.py:292-302 | the slab distance is zero at the threshold time |
| VideoA.SlabDistanceIsQuartic | AN-24_Nizhneangarsk/data/video_a.py:292-302 | the slab distance is a quartic whose constant term makes it vanish at the threshold |
| VideoA.SlabDistanceDifferentiates | AN-24_Nizhneangarsk/data/video_a.py:292-302 | differentiating the slab distance gives back the slab speed fit |
| VideoA.Choose | AN-24_Nizhneangarsk/data/video_a.py:286-312 | up to the threshold frame the tile value, after the last tile frame the slab value, and in between the point midway between them |
| VideoA.ComputeDistance | AN-24_Nizhneangarsk/data/video_a.py:281-312 | all three components: up to the threshold the tile fit's distances, after the last tile frame the slab speeds integrated from the threshold, in between the average of the two |
| VideoA.ComputeSpeed | AN-24_Nizhneangarsk/data/video_a.py:315-340 | all three components: up to the threshold the derivatives of the tile fits, after the last tile frame the slab speed fits, in between the average of the two |
| VideoA.DistanceAtThreshold | AN-24_Nizhneangarsk/data/video_a.py:286-302 | at the threshold frame the distance comes from the tiles, and the slab distance it hands over to is zero there |
| VideoA.ComputeAcceleration | AN-24_Nizhneangarsk/data/video_a.py:343-353 | each component is the speed change from the frame before to the frame after over two thirtieths of a second |
| VideoA.CentralDifference | AN-24_Nizhneangarsk/data/video_a.py:351 | the difference quotient over two frames at 30 frames per second |
| VideoA.CentralDifferenceExact | AN-24_Nizhneangarsk/data/video_a.py:343-353 | past the tile frames, for a slab speed fit without a cubic term the acceleration is exactly the derivative of the fit |
| VideoA.QuadraticDistance | AN-24_Nizhneangarsk/data/video_a.py:366-367 | the position under constant acceleration is the power sum `d0 + v0 t + a t^2 / 2` |
| VideoA.TerminalSpeedAndMeanAcceleration | AN-24_Nizhneangarsk/data/video_a.py:356-363 | ZeroDivisionError exactly for a zero duration, ValueError exactly when the terminal speed would be negative; otherwise the mean of the two speeds covers the distance in the duration and the acceleration takes the initial speed to the terminal one |
| VideoA.TerminalSpeedCoversDistance | AN-24_Nizhneangarsk/data/video_a.py:356-367 | starting at the initial position and speed with the returned acceleration, the position after the duration is the terminal position |
| VideoA.QuadraticDistanceSolution | AN-24_Nizhneangarsk/data/video_a.py:370-397 | ValueError exactly for a negative discriminant, ZeroDivisionError for zero acceleration; the two results are `2 sqrt(disc) / a` apart and, with an exact root, both negated are times at which the position is `d` |
| VideoA.ExactRoots | AN-24_Nizhneangarsk/data/video_a.py:393-397 | with an exact square root both negated roots reach position `d`, which is why the caller negates the second root |
| VideoAB.FrameTime | AN-24_Nizhneangarsk/data/video_a.py:16-18 | a frame's time is the defined `frame_to_time` of that frame at the video's rate |
| VideoAB.Tie | AN-24_Nizhneangarsk/data/video_ab.py:30-34 | the tie of one video A frame exists exactly when both frames name events (KeyError otherwise) and pairs each frame's time with its comment |
| VideoAB.TiesOf | AN-24_Nizhneangarsk/data/video_ab.py:29-35 | the ties of a list of frames, one per frame in order, exist exactly when every frame resolves; KeyError otherwise |
| VideoAB.CreateTimeTies | AN-24_Nizhneangarsk/data/video_ab.py:27-35 | one tie per dictionary entry exactly when every frame of both videos names an event; KeyError otherwise |
| VideoAB.TiesResolvable | AN-24_Nizhneangarsk/data/video_ab.py:29-33 | resolving the sorted keys one by one succeeds exactly when the whole dictionary resolves |
| VideoAB.CreateTimeTiesRows | AN-24_Nizhneangarsk/data/video_ab.py:29-34 | row `i` is the tie of the `i`-th smallest video A frame |
| VideoAB.CreateTimeTiesAscending | AN-24_Nizhneangarsk/data/video_ab.py:29 | the ties come in strictly ascending order of video A time |
| VideoAB.FrameTimeIncreasing | AN-24_Nizhneangarsk/map_funcs.py:168-169 | a later frame has a later time |
| VideoAB.TimeDifferences | AN-24_Nizhneangarsk/data/video_ab.py:38-42 | one difference per tie, and adding the video B time gives back the video A time |
| VideoAB.TimeDifferencesOfTies | AN-24_Nizhneangarsk/data/video_ab.py:38-42 | difference `i` is the video A time of the `i`-th smallest tied frame less the video B time of its partner |
| VideoAB.TimeDifferenceMidMaxMin | AN-24_Nizhneangarsk/data/video_ab.py:45-49 | the mean of the differences and an ordered triple whose max and min are differences bounding all of them; ZeroDivisionError exactly when there are no ties |
| VideoAB.TimeDifferenceReordered | AN-24_Nizhneangarsk/data/video_ab.py:45-49 | reordering the differences does not change the summary |

## Left out

- Floating point: all arithmetic is on exact reals. IEEE rounding is not modelled, for example in `int(vt.time * 30 + 2)` or the accumulated `t += time_interval`.
- Library numerics are parameters: sine, cosine, square root, `scipy.optimize.curve_fit`, `np.roots`, and the fitted coefficient vectors. Trigonometric geometry is left out because it has no exact real model. This covers the numeric results of `triangle_ASA` and `aspect_intersection` (only their validation branches are modelled), the haversine and lat/long projections, `map_funcs.distance`/`bearing`/`translate_rotate`/`bearing_min_max`, the wing-tip angle and error, and the camera angle of view.
- Text output is left out: gnuplot directives and data files, markdown tables, the `print_*` functions and number formatting. Where text is modelled, formatting is a `real -> string` parameter. The merged gnuplot output is modelled as lines of cells, with `NaN` as a cell.
- Subprocesses, files and timeouts (`write_dat_plt_call`, `plot_all`) and all plot scripts other than `plot_common.py` are left out. They hold no logic beyond calling the core.
- `AN-24_Nizhneangarsk/main.py` and `AN-24_Nizhneangarsk/map_data.py` repeat `video_a.py` and `tiles.py`, which are modelled once. `data/video_b.py`, `data/google_earth.py` and `VH_NOO` are left out because they are built on arctangent bearings and datetimes. Video B enters only through its frame rate of 25 and its event table.
- The hand-entered measurement tables are parameters, apart from the few constants that properties rely on: tile tie points, slab transits, thresholds and the end of the video.
- `google_earth_url_to_lat_long` is left out because it is regular-expression parsing of decimal text.
- Video time construction: only the number of arguments and the ranges are checked. Python's type checks on the arguments are not modelled.
- `VideoData.ApplyMinMidMaxOrdered`: MIN <= MID <= MAX is proved for strictly monotone functions only. For merely non-decreasing functions it fails, as `ApplyMinMidMaxFlatRight` shows, because the code compares `func(t + dt)` only with `func(t)`.
- `VideoAnalysis.Sample`: requires a positive time interval. With a zero or negative interval the source loop never ends.
- `VideoAnalysis.TimeDistanceBearingFromFits`: requires a positive time interval, for the same reason as `Sample`.
- `VideoAnalysis.ObserverPositionCombinations`: its own contract states only the pair count and the bound on the number of positions. Which positions come out is stated by `Selected`, `SeparatedPairs`, `Intersections` and `SortColumns`, which it composes.
- `VideoAnalysis.TransitXAxisDistances`: a label without a position is stated to give an error but not which error. An earlier event's intercept can fail first with ZeroDivisionError.
- `VideoAnalysis.MeanStd`: the empty case is modelled as the TypeError of unpacking numpy's single NaN mean. numpy's warnings are not modelled.
- `VideoUtils.TriangleAsa`: angles are in degrees, with a straight angle of 180, where the source takes radians and uses `math.pi`. The returned third angle is therefore in degrees, and `sin` is a sine of degrees.
- `VideoUtils.AspectIntersection`: the bearings stay in degrees, where the source converts them with `math.radians` before `triangle_ASA`, `sin` and `cos`. The parameters `sin` and `cos` are therefore functions of degrees.
- `Decimal.ParseInt`: only an optional sign followed by digits is accepted. Surrounding whitespace and `_` digit separators, which Python's `int` accepts, give ValueError here.
- `VideoUtils.NumKOfNPairs`: the test value 496 for `(32, 2)` is stated through the general closed form rather than as a literal instance.
- `VideoUtils.NumKOfNFive`: the test value 2598960 for `(52, 5)` is stated through the general closed form rather than as a literal instance.
- `tiles.py` `RUNWAY_LENGTH_HEADING` and `video_a.create_distance_array_of_tile_data` are left out. They are trigonometric, or they only tabulate modelled functions for plotting.
- `compute_impacts` and the other report functions of `video_a.py` are left out because they only print.

## Findings

| source | as written | input that shows it | evidently intended | confidence | as-written member | corrected member |
|---|---|---|---|---|---|---|
| A340-SBKP/analysis/video_data.py:61-78 | `__neg__` always returns MIN, `__pos__`/`__abs__` always return MAX, and `__invert__` compares `self.value` with an enum member, so it always returns MID | `-ErrorDirection.MIN` gives MIN, and `~ErrorDirection.MAX` gives MID | negation and inversion swap MIN and MAX and keep MID | not executed | VideoData.OperatorsDoNotFlip | VideoData.Flip |
| common/structs.py:37-38 | `__str__` formats the already signed `minus` after a literal `-` | `MidPlusMinus(1, 2, 0)` prints `... /--1.000000` | the magnitude of `minus` after the `-` | not executed | Structs.StrDoubleMinus | Structs.StrCorrected |

=== FILE: aspect.dfy ===
/** The aspect of the aircraft seen from the observer (`aspect.py`): the
    observed table perturbed per error direction, and the fitted cubic
    sampled at whole seconds. The cubic's coefficients come from a
    least-squares fit and are inputs here. */
module Aspect {
  import opened Outcomes
  import Decimal
  import Polynomial
  import VideoUtils
  import opened VideoData

  /** One aspect observation: when, the angle in degrees and its +/-
      error. (`AircraftAspect` has a fixed error of five degrees; the
      wing-tip variant derives both angle and error from pixel sizes.) */
  datatype Observation = Observation(vt: VideoTime, angle: real, error: real)

  const ErrorAspect: real := 5.0

  /** An `AircraftAspect` as measured by eye. */
  function MeasuredAspect(vt: VideoTime, angle: real): (o: Observation)
    ensures o.vt == vt && o.angle == angle && o.error == ErrorAspect
  {
    Observation(vt, angle, ErrorAspect)
  }

  /** The coefficients of a fitted cubic `a + b t + c t^2 + d t^3`. */
  datatype Cubic = Cubic(a: real, b: real, c: real, d: real)

  /** `aspect_from_fit(t, fit)`: the fitted cubic at `t`. */
  function AspectFromFit(t: real, fit: Cubic): (r: real)
    ensures r == Polynomial.PowerSum([fit.a, fit.b, fit.c, fit.d], t)
  {
    VideoUtils.Poly3(t, fit.a, fit.b, fit.c, fit.d)
  }

  /** `_aspects(input_data, min_mid_max)`: one (time, angle) row per
      observation, in order, perturbed in the given direction. */
  function Aspects(obs: seq<Observation>, d: ErrorDirection): (rows: seq<(real, real)>)
    ensures |rows| == |obs|
    ensures forall i :: 0 <= i < |obs| ==>
              rows[i] == Perturb(obs[i].vt.Time(), obs[i].angle, obs[i].error, d)
  {
    if obs == [] then []
    else [Perturb(obs[0].vt.Time(), obs[0].angle, obs[0].error, d)] + Aspects(obs[1..], d)
  }

  /** Row by row: MID is the observation itself; MIN and MAX are five
      frames earlier or later and one error lower or higher, so with
      non-negative errors MIN <= MID <= MAX in both columns. */
  lemma AspectsDirections(obs: seq<Observation>, i: nat)
    requires i < |obs|
    ensures Aspects(obs, MID)[i] == (obs[i].vt.Time(), obs[i].angle)
    ensures Aspects(obs, MIN)[i] == (obs[i].vt.Time() - ErrorTimestamp, obs[i].angle - obs[i].error)
    ensures Aspects(obs, MAX)[i] == (obs[i].vt.Time() + ErrorTimestamp, obs[i].angle + obs[i].error)
    ensures obs[i].error >= 0.0 ==>
              Aspects(obs, MIN)[i].1 <= Aspects(obs, MID)[i].1 <= Aspects(obs, MAX)[i].1
  {
    var o := obs[i];
    assert Aspects(obs, MID)[i] == Perturb(o.vt.Time(), o.angle, o.error, MID);
    assert Aspects(obs, MIN)[i] == Perturb(o.vt.Time(), o.angle, o.error, MIN);
    assert Aspects(obs, MAX)[i] == Perturb(o.vt.Time(), o.angle, o.error, MAX);
  }

  /** The perturbation shifts every time by the same amount, so it keeps
      the order of the observations' times. */
  lemma AspectsKeepOrder(obs: seq<Observation>, d: ErrorDirection, i: nat, j: nat)
    requires i < j < |obs| && obs[i].vt.Time() < obs[j].vt.Time()
    ensures Aspects(obs, d)[i].0 < Aspects(obs, d)[j].0
  {
  }

  /** `_aspect_fitted_line(fit, start, stop)`: the cubic at every whole
      second from `start` to `stop` inclusive (no rows when `stop <
      start`). */
  function FittedLine(fit: Cubic, start: int, stop: int): (rows: seq<(int, real)>)
    ensures |rows| == if stop < start then 0 else stop - start + 1
    ensures forall i :: 0 <= i < |rows| ==> rows[i].0 == start + i && rows[i].1 == AspectFromFit((start + i) as real, fit)
    decreases stop - start
  {
    if stop < start then []
    else [(start, AspectFromFit(start as real, fit))] + FittedLine(fit, start + 1, stop)
  }

  /** The whole seconds spanned by a table: from the first time truncated
      to the last time rounded. An empty table has no first element:
      IndexError. */
  function TableSpan(obs: seq<Observation>): (r: Result<(int, int)>)
    ensures r.Err? <==> obs == []
    ensures r.Ok? && obs[0].vt.Time() >= 0.0 ==>
              r.value.0 as real <= obs[0].vt.Time() < r.value.0 as real + 1.0
    ensures r.Ok? && obs[|obs| - 1].vt.Time() >= 0.0 ==>
              r.value.1 as real - 0.5 <= obs[|obs| - 1].vt.Time() < r.value.1 as real + 0.5
  {
    if obs == [] then Err(IndexError)
    else Ok((Decimal.Truncate(obs[0].vt.Time()), Decimal.Truncate(0.5 + obs[|obs| - 1].vt.Time())))
  }

  /** `aspect_fitted_line()`: the fitted line of the MID fit over the
      span of the observed table. */
  function AspectFittedLine(obs: seq<Observation>, fit: Cubic): (r: Result<seq<(int, real)>>)
    ensures r.Err? <==> obs == []
    ensures r.Ok? ==> r.value == FittedLine(fit, TableSpan(obs).value.0, TableSpan(obs).value.1)
  {
    var span :- TableSpan(obs);
    Ok(FittedLine(fit, span.0, span.1))
  }

  /** For a table whose times are valid video times in increasing order,
      the fitted line starts at the first observation's whole second and
      covers every whole second up to the rounded last time. */
  lemma AspectFittedLineCovers(obs: seq<Observation>, fit: Cubic)
    requires |obs| > 0 && forall i :: 0 <= i < |obs| ==> ValidVideoTime(obs[i].vt)
    requires obs[0].vt.Time() <= obs[|obs| - 1].vt.Time()
    ensures AspectFittedLine(obs, fit).Ok?
    ensures var rows := AspectFittedLine(obs, fit).value;
            |rows| >= 1 && rows[0].0 as real <= obs[0].vt.Time() < rows[0].0 as real + 1.0 &&
            rows[|rows| - 1].0 as real - 0.5 <= obs[|obs| - 1].vt.Time() < rows[|rows| - 1].0 as real + 0.5
  {
    assert ValidVideoTime(obs[0].vt) && ValidVideoTime(obs[|obs| - 1].vt);
    var span := TableSpan(obs).value;
    assert span.0 <= span.1;
  }
}

=== FILE: decimal.dfy ===
/** Decimal digit strings: Python's `'{:d}'` and `'{:06d}'` formatting of
    non-negative integers and `int()` parsing of digit strings. */
module Decimal {
  import opened Outcomes

  predicate IsDigit(c: char)
  {
    '0' <= c <= '9'
  }

  predicate AllDigits(s: string)
  {
    forall i :: 0 <= i < |s| ==> IsDigit(s[i])
  }

  function DigitChar(d: nat): (c: char)
    requires d < 10
    ensures IsDigit(c)
  {
    ('0' as int + d) as char
  }

  function DigitValue(c: char): (d: nat)
    requires IsDigit(c)
    ensures d < 10
  {
    c as int - '0' as int
  }

  function Pow10(k: nat): (p: nat)
    ensures p >= 1
  {
    if k == 0 then 1 else 10 * Pow10(k - 1)
  }

  /** `'{:d}'.format(n)`: the decimal digits of `n`, without leading zeros. */
  function Digits(n: nat): (s: string)
    ensures |s| > 0
    ensures AllDigits(s)
  {
    if n < 10 then [DigitChar(n)] else Digits(n / 10) + [DigitChar(n % 10)]
  }

  function Zeros(k: nat): (s: string)
    ensures |s| == k
    ensures AllDigits(s)
  {
    seq(k, _ => '0')
  }

  /** `'{:0Wd}'.format(n)`: the digits of `n` left-padded with zeros to at
      least `width` characters (never truncated). */
  function ZeroPad(n: nat, width: nat): (s: string)
    ensures AllDigits(s)
  {
    var d := Digits(n);
    if |d| >= width then d else Zeros(width - |d|) + d
  }

  /** The value of a string of decimal digits, most significant first. */
  function DigitsValue(s: string): nat
    requires AllDigits(s)
  {
    if |s| == 0 then 0 else DigitsValue(s[..|s| - 1]) * 10 + DigitValue(s[|s| - 1])
  }

  /** Python `int(s)` on strings made of an optional sign followed by
      decimal digits. Every other string is a ValueError here, including
      the surrounding whitespace and `_` digit separators Python accepts. */
  function ParseInt(s: string): (r: Result<int>)
    ensures AllDigits(s) && |s| > 0 ==> r == Ok(DigitsValue(s))
    ensures |s| == 0 ==> r.Err?
  {
    if |s| > 0 && (s[0] == '+' || s[0] == '-') then
      var body := s[1..];
      if |body| > 0 && AllDigits(body) then
        Ok(if s[0] == '-' then -(DigitsValue(body) as int) else DigitsValue(body))
      else Err(ValueError)
    else if |s| > 0 && AllDigits(s) then Ok(DigitsValue(s))
    else Err(ValueError)
  }

  /** Reading back the digits of `n` gives `n`. */
  lemma {:induction false} DigitsValueOfDigits(n: nat)
    ensures DigitsValue(Digits(n)) == n
  {
    if n >= 10 {
      var s := Digits(n);
      assert s[..|s| - 1] == Digits(n / 10);
      DigitsValueOfDigits(n / 10);
    }
  }

  /** Leading zeros do not change the value of a digit string. */
  lemma {:induction false} LeadingZeros(k: nat, s: string)
    requires AllDigits(s)
    ensures DigitsValue(Zeros(k) + s) == DigitsValue(s)
    decreases |s| + k
  {
    if |s| == 0 {
      assert Zeros(k) + s == Zeros(k);
      if k > 0 {
        assert Zeros(k)[..k - 1] == Zeros(k - 1) == Zeros(k - 1) + s;
        LeadingZeros(k - 1, s);
      }
    } else {
      var t := Zeros(k) + s;
      assert t[..|t| - 1] == Zeros(k) + s[..|s| - 1];
      LeadingZeros(k, s[..|s| - 1]);
    }
  }

  /** A number below `10^k` (with `k >= 1`) has at most `k` digits. */
  lemma {:induction false} DigitsLength(n: nat, k: nat)
    requires k >= 1 && n < Pow10(k)
    ensures |Digits(n)| <= k
  {
    if n >= 10 {
      assert Pow10(1) == 10;
      DigitsLength(n / 10, k - 1);
    }
  }

  /** Zero padding round trip: `int('{:0Wd}'.format(n)) == n`, and a
      number below `10^W` is padded to exactly `W` characters. */
  lemma ZeroPadRoundTrip(n: nat, width: nat)
    ensures ParseInt(ZeroPad(n, width)) == Ok(n)
    ensures width >= 1 && n < Pow10(width) ==> |ZeroPad(n, width)| == width
  {
    var d := Digits(n);
    DigitsValueOfDigits(n);
    if |d| < width {
      LeadingZeros(width - |d|, d);
    }
    if width >= 1 && n < Pow10(width) {
      DigitsLength(n, width);
    }
  }

  /** Python `int(x)` of a float: truncation toward zero. */
  function Truncate(x: real): (n: int)
    ensures x >= 0.0 ==> n as real <= x < n as real + 1.0
    ensures x < 0.0 ==> n as real - 1.0 < x <= n as real
  {
    if x >= 0.0 then x.Floor else -((-x).Floor)
  }

  /** Truncation leaves whole numbers unchanged. */
  lemma TruncateWhole(n: int)
    ensures Truncate(n as real) == n
  {
  }

  /** Python's `s[a:b]` for non-negative bounds: out-of-range bounds are
      clamped to the string's length. */
  function Slice(s: string, a: nat, b: nat): (t: string)
    ensures |t| <= |s|
    ensures b <= |s| && a <= b ==> t == s[a..b]
  {
    var hi := if b < |s| then b else |s|;
    var lo := if a < hi then a else hi;
    s[lo..hi]
  }
}

=== FILE: map_funcs.dfy ===
/** Map-tile arithmetic of the AN-24 analysis (`map_funcs.py`): carrying a
    pixel position from one overlapping Google Earth tile to another by
    summing the offsets between consecutive tiles, the frame/time helpers,
    the distance tolerance, the mid point and the knot conversion. The
    trigonometric helpers (distance, bearing, rotation) are left out. */
module MapFuncs {
  import opened Outcomes
  import Decimal
  import VideoUtils

  /** A pixel position on a tile. */
  datatype Point = Point(x: real, y: real)

  /** A pixel displacement. */
  datatype Distance = Distance(x: real, y: real)
  {
    function Plus(d: Distance): Distance
    {
      Distance(x + d.x, y + d.y)
    }

    function Negate(): Distance
    {
      Distance(-x, -y)
    }
  }

  const Zero: Distance := Distance(0.0, 0.0)

  /** The offsets between consecutive tiles, keyed `(k, k + 1)`. */
  type Offsets = map<(int, int), Distance>

  /** Tiles `k` and `k + 1` have a recorded offset. */
  predicate Linked(offs: Offsets, k: int)
  {
    (k, k + 1) in offs
  }

  /** Every consecutive pair of tiles from `lo` up to `hi` is linked. */
  ghost predicate Connected(offs: Offsets, lo: int, hi: int)
  {
    forall k :: lo <= k < hi ==> Linked(offs, k)
  }

  /** The sum of the offsets `(a, a + 1)`, ..., `(b - 1, b)`, or KeyError
      when one of them is missing. */
  function Chain(offs: Offsets, a: int, b: int): (r: Result<Distance>)
    requires a <= b
    ensures r.Ok? <==> Connected(offs, a, b)
    ensures r.Err? ==> r.error == KeyError
    decreases b - a
  {
    if a == b then Ok(Zero)
    else if (a, a + 1) !in offs then
      assert !Linked(offs, a);
      Err(KeyError)
    else
      var rest :- Chain(offs, a + 1, b);
      Ok(offs[(a, a + 1)].Plus(rest))
  }

  /** The displacement from tile `a` to tile `b` that `point_tile_to_tile`
      subtracts: the forward sum of offsets when `b` is above `a`, the
      negated sum from `b` up to `a` otherwise. */
  function Shift(offs: Offsets, a: int, b: int): (r: Result<Distance>)
    ensures r.Ok? <==> Connected(offs, Lo(a, b), Hi(a, b))
    ensures r.Err? ==> r.error == KeyError
  {
    if a <= b then Chain(offs, a, b)
    else
      var d :- Chain(offs, b, a);
      Ok(d.Negate())
  }

  function Lo(a: int, b: int): int { if a <= b then a else b }

  function Hi(a: int, b: int): int { if a <= b then b else a }

  /** The position that `p`, given on tile `a`, has on tile `b`. */
  function PointTileToTile(a: int, p: Point, b: int, offs: Offsets): (r: Result<Point>)
    ensures a == b ==> r == Ok(p)
    ensures r.Ok? <==> Connected(offs, Lo(a, b), Hi(a, b))
    ensures r.Err? ==> r.error == KeyError
  {
    if a == b then Ok(p)
    else
      var d :- Shift(offs, a, b);
      Ok(Point(p.x - d.x, p.y - d.y))
  }

  /** Adds `d` to a successful displacement. */
  function AddTo(d: Distance, r: Result<Distance>): Result<Distance>
  {
    if r.Ok? then Ok(d.Plus(r.value)) else r
  }

  /** `point_tile_to_tile(tile_a, pt_a, tile_b, tile_offsets)` as written:
      two while loops that accumulate the offsets one tile at a time. */
  method PointTileToTileLoop(a: int, p: Point, b: int, offs: Offsets) returns (r: Result<Point>)
    ensures r == PointTileToTile(a, p, b, offs)
  {
    if a == b {
      return Ok(p);
    }
    var dx, dy := 0.0, 0.0;
    if b > a {
      var ta := a;
      while ta != b
        invariant a <= ta <= b
        invariant Chain(offs, a, b) == AddTo(Distance(dx, dy), Chain(offs, ta, b))
        decreases b - ta
      {
        if (ta, ta + 1) !in offs {
          return Err(KeyError);
        }
        var d := offs[(ta, ta + 1)];
        dx, dy := dx + d.x, dy + d.y;
        ta := ta + 1;
      }
    } else {
      var tb := b;
      while tb != a
        invariant b <= tb <= a
        invariant AddTo(Distance(-dx, -dy), Chain(offs, tb, a)) == Chain(offs, b, a)
        decreases a - tb
      {
        if (tb, tb + 1) !in offs {
          return Err(KeyError);
        }
        var d := offs[(tb, tb + 1)];
        dx, dy := dx - d.x, dy - d.y;
        tb := tb + 1;
      }
    }
    return Ok(Point(p.x - dx, p.y - dy));
  }

  /** The chain over `[a, c]` is the chain over `[a, b]` followed by the
      chain over `[b, c]`. */
  lemma {:induction false} ChainSplit(offs: Offsets, a: int, b: int, c: int)
    requires a <= b <= c
    ensures Chain(offs, a, c).Ok? <==> Chain(offs, a, b).Ok? && Chain(offs, b, c).Ok?
    ensures Chain(offs, a, c).Ok? ==> Chain(offs, a, c).value == Chain(offs, a, b).value.Plus(Chain(offs, b, c).value)
    decreases b - a
  {
    if a < b && (a, a + 1) in offs {
      ChainSplit(offs, a + 1, b, c);
    }
  }

  /** The signed displacements add up along any three tiles that are
      reachable. */
  lemma ShiftAdditive(offs: Offsets, a: int, b: int, c: int)
    requires Shift(offs, a, b).Ok? && Shift(offs, b, c).Ok?
    ensures Shift(offs, a, c).Ok?
    ensures Shift(offs, a, c).value == Shift(offs, a, b).value.Plus(Shift(offs, b, c).value)
  {
    if a <= b <= c {
      ChainSplit(offs, a, b, c);
    } else if a <= c <= b {
      ChainSplit(offs, a, c, b);
    } else if b <= a <= c {
      ChainSplit(offs, b, a, c);
    } else if b <= c <= a {
      ChainSplit(offs, b, c, a);
    } else if c <= a <= b {
      ChainSplit(offs, c, a, b);
    } else {
      ChainSplit(offs, c, b, a);
    }
  }

  /** The displacement back is the negated displacement forward. */
  lemma ShiftAntisymmetric(offs: Offsets, a: int, b: int)
    ensures Shift(offs, b, a).Ok? == Shift(offs, a, b).Ok?
    ensures Shift(offs, a, b).Ok? ==> Shift(offs, b, a).value == Shift(offs, a, b).value.Negate()
  {
    if a == b {
      assert Shift(offs, a, b) == Ok(Zero);
    }
  }

  /** Moving a point to another tile and back gives the point back. */
  lemma PointTileToTileRoundTrip(a: int, p: Point, b: int, offs: Offsets)
    requires PointTileToTile(a, p, b, offs).Ok?
    ensures PointTileToTile(b, PointTileToTile(a, p, b, offs).value, a, offs) == Ok(p)
  {
    ShiftAntisymmetric(offs, a, b);
  }

  /** Moving from `a` to `b` and then to `c` is moving from `a` to `c`. */
  lemma PointTileToTileComposes(a: int, p: Point, b: int, c: int, offs: Offsets)
    requires PointTileToTile(a, p, b, offs).Ok?
    requires PointTileToTile(b, PointTileToTile(a, p, b, offs).value, c, offs).Ok?
    ensures PointTileToTile(a, p, c, offs) == PointTileToTile(b, PointTileToTile(a, p, b, offs).value, c, offs)
  {
    var q := PointTileToTile(a, p, b, offs).value;
    if a == b || b == c {
    } else if a == c {
      PointTileToTileRoundTrip(a, p, b, offs);
    } else {
      ShiftAdditive(offs, a, b, c);
    }
  }

  /** `distance_tile_to_tile(tile_a, pt_a, tile_b, pt_b, tile_offsets)`:
      the displacement from `pt_a`, carried to tile `b`, to `pt_b`. */
  function DistanceTileToTile(a: int, pa: Point, b: int, pb: Point, offs: Offsets): (r: Result<Distance>)
    ensures r.Ok? <==> PointTileToTile(a, pa, b, offs).Ok?
    ensures r.Ok? ==> (r.value == Zero <==> PointTileToTile(a, pa, b, offs) == Ok(pb))
    ensures r.Ok? ==> var q := PointTileToTile(a, pa, b, offs).value;
                      r.value == Distance(pb.x - q.x, pb.y - q.y)
  {
    var q :- PointTileToTile(a, pa, b, offs);
    Ok(Distance(pb.x - q.x, pb.y - q.y))
  }

  /** `mid_point(a, b)`: equally far from both points in each coordinate,
      whichever comes first. */
  function MidPoint(a: Point, b: Point): (m: Point)
    ensures m.x - a.x == b.x - m.x && m.y - a.y == b.y - m.y
  {
    Point((a.x + b.x) / 2.0, (a.y + b.y) / 2.0)
  }

  lemma MidPointSymmetric(a: Point, b: Point)
    ensures MidPoint(a, b) == MidPoint(b, a)
    ensures MidPoint(a, a) == a
  {
  }

  /** `metres_per_second_to_knots(m_s)`: a nautical mile of 1852 metres. */
  function MetresPerSecondToKnots(v: real): (k: real)
    ensures k * 1852.0 == v * 3600.0
  {
    v * 3600.0 / 1852.0
  }

  /** The international nautical mile (1852 m) is shorter than the 6080
      foot mile used in the A340 analysis, so the same positive speed is
      more knots here. */
  lemma KnotConversionsDiffer(v: real)
    requires v > 0.0
    ensures MetresPerSecondToKnots(v) > VideoUtils.MpsToKnots(v)
  {
    var k1 := MetresPerSecondToKnots(v);
    var k2 := VideoUtils.MpsToKnots(v);
    assert k2 * 1853.184 == 3600.0 * v;
    assert k1 * 1852.0 == k2 * 1853.184;
    assert k2 > 0.0;
  }

  /** `frame_to_time(frame, frame_rate)`: frame 1 is time 0. */
  function FrameToTime(frame: real, rate: int): (r: Result<real>)
    ensures r.Ok? <==> rate != 0
    ensures r.Err? ==> r.error == ZeroDivisionError
    ensures r.Ok? ==> r.value * rate as real == frame - 1.0
  {
    Divide(frame - 1.0, rate as real)
  }

  /** `frames_to_dtime(frame_a, frame_b, frame_rate)`. */
  function FramesToDtime(fa: real, fb: real, rate: int): (r: Result<real>)
    ensures r.Ok? <==> rate != 0
    ensures r.Err? ==> r.error == ZeroDivisionError
    ensures r.Ok? ==> r.value * rate as real == fb - fa
  {
    Divide(fb - fa, rate as real)
  }

  /** The interval between two frames is the difference of their times. */
  lemma FramesToDtimeIsTimeDifference(fa: real, fb: real, rate: int)
    requires rate != 0
    ensures FramesToDtime(fa, fb, rate).value == FrameToTime(fb, rate).value - FrameToTime(fa, rate).value
  {
    var r := rate as real;
    var ta := FrameToTime(fa, rate).value;
    var tb := FrameToTime(fb, rate).value;
    var dt := FramesToDtime(fa, fb, rate).value;
    assert (tb - ta) * r == fb - fa;
    DivideUnique(dt, tb - ta, r);
  }

  lemma DivideUnique(x: real, y: real, r: real)
    requires r != 0.0 && x * r == y * r
    ensures x == y
  {
    assert (x - y) * r == 0.0;
  }

  /** `time_to_frame(time, frame_rate)`: `1 + int(0.5 + time * frame_rate)`,
      where `int` truncates toward zero. */
  function TimeToFrame(time: real, rate: int): (f: int)
    ensures time * rate as real >= -0.5 ==> f as real - 1.0 <= time * rate as real + 0.5 < f as real
  {
    1 + Decimal.Truncate(0.5 + time * rate as real)
  }

  /** Whole frames from 1 survive the trip through time and back. */
  lemma FrameTimeRoundTrip(f: int, rate: int)
    requires f >= 1 && rate != 0
    ensures TimeToFrame(FrameToTime(f as real, rate).value, rate) == f
  {
    var t := FrameToTime(f as real, rate).value;
    assert t * rate as real == f as real - 1.0;
  }

  /** Frame 0 does not: its time `-1 / rate` rounds to frame 1. */
  lemma FrameZeroDoesNotRoundTrip()
    ensures TimeToFrame(FrameToTime(0.0, 30).value, 30) == 1
  {
    assert FrameToTime(0.0, 30).value == -1.0 / 30.0;
  }

  /** `distance_tolerance(distance)`: 10 metres from the threshold onwards,
      rising linearly to 100 metres 2500 metres before it. */
  function DistanceTolerance(d: real): (tol: real)
    ensures tol >= 10.0
    ensures d >= 0.0 ==> tol == 10.0
    ensures d < 0.0 ==> tol == 10.0 - 0.036 * d
    ensures d == -2500.0 ==> tol == 100.0
  {
    var ret := 10.0;
    if d < 0.0 then ret + d * (100.0 - ret) / -2500.0 else ret
  }

  /** The tolerance never grows as the aircraft gets further along. */
  lemma DistanceToleranceNonIncreasing(d0: real, d1: real)
    requires d0 <= d1
    ensures DistanceTolerance(d1) <= DistanceTolerance(d0)
  {
  }
}

=== FILE: outcomes.dfy ===
/** The Python exceptions raised by the analysis code, as values.

    Every operation that can raise returns a `Result`; `:-` propagates the
    first failure exactly as an uncaught exception propagates to the caller.
 */
module Outcomes {

  /** The exception classes the modelled code raises. */
  datatype Error =
    | ValueError
    | KeyError
    | IndexError
    | ZeroDivisionError
    | AssertionError
    | TypeError

  /** A value, or the exception that was raised instead of returning one. */
  datatype Result<+T> = Ok(value: T) | Err(error: Error) {

    predicate IsFailure() {
      Err?
    }

    function PropagateFailure<U>(): Result<U>
      requires Err?
    {
      Err(error)
    }

    function Extract(): T
      requires Ok?
    {
      value
    }
  }

  /** Python's true division `a / b` on floats: raises on a zero divisor. */
  function Divide(a: real, b: real): (r: Result<real>)
    ensures r.Ok? <==> b != 0.0
    ensures r.Ok? ==> r.value * b == a
  {
    if b == 0.0 then Err(ZeroDivisionError) else Ok(a / b)
  }
}

=== FILE: pitch.dfy ===
/** The apparent pitch of the aircraft (`pitch.py`): the observed pitch
    table interpolated in time, perturbed per error direction, and the
    fitted cubic sampled over the aspect table's span. */
module Pitch {
  import opened Outcomes
  import VideoUtils
  import opened VideoData
  import Aspect

  /** `AircraftPitch`: when, and the pitch angle in degrees. */
  datatype Observation = Observation(vt: VideoTime, angle: real)

  /** `ERROR_PITCH`: the +/- error of a pitch reading in degrees. */
  const ErrorPitch: real := 1.0

  function Times(table: seq<Observation>): (xs: seq<real>)
    ensures |xs| == |table| && forall i :: 0 <= i < |table| ==> xs[i] == table[i].vt.Time()
  {
    seq(|table|, i requires 0 <= i < |table| => table[i].vt.Time())
  }

  function Angles(table: seq<Observation>): (ys: seq<real>)
    ensures |ys| == |table| && forall i :: 0 <= i < |table| ==> ys[i] == table[i].angle
  {
    seq(|table|, i requires 0 <= i < |table| => table[i].angle)
  }

  /** `_pitch(t)`: the pitch table interpolated (or extrapolated) at `t`. */
  function PitchAt(table: seq<Observation>, t: real): (r: Result<real>)
    ensures r.Ok? ==> |table| > 0
  {
    VideoUtils.Interpolate(Times(table), Angles(table), t)
  }

  /** A table of fewer than two observations cannot be extrapolated: away
      from its one time, ValueError. */
  lemma PitchAtTooFew(table: seq<Observation>, t: real)
    requires |table| < 2 && forall i :: 0 <= i < |table| ==> table[i].vt.Time() != t
    ensures PitchAt(table, t) == Err(ValueError)
  {
    VideoUtils.InterpolateTooFew(Times(table), Angles(table), t);
  }

  /** At the time of an observation (in a table with strictly increasing
      times) the observed pitch is returned exactly. */
  lemma PitchAtObservation(table: seq<Observation>, k: nat)
    requires VideoUtils.StrictlyIncreasing(Times(table)) && k < |table|
    ensures PitchAt(table, table[k].vt.Time()) == Ok(table[k].angle)
  {
    VideoUtils.InterpolateHit(Times(table), Angles(table), k, table[k].vt.Time());
  }

  /** `pitch(t, min_mid_max)`: the interpolated pitch, worst-cased by five
      frames of time and one degree of angle. */
  function Pitch(table: seq<Observation>, t: real, d: ErrorDirection): (r: Result<real>)
    ensures d == MID ==> r == PitchAt(table, t)
    ensures d != MID ==>
              (r.Ok? <==> PitchAt(table, t + ErrorTimestamp).Ok? && PitchAt(table, t).Ok? &&
                          (AheadMoves(PitchAt(table, t + ErrorTimestamp).value, PitchAt(table, t).value, d) ||
                           PitchAt(table, t - ErrorTimestamp).Ok?))
    ensures r.Ok? && d != MID ==>
              PitchAt(table, t + ErrorTimestamp).Ok? && PitchAt(table, t).Ok? &&
              var from := if AheadMoves(PitchAt(table, t + ErrorTimestamp).value, PitchAt(table, t).value, d)
                          then t + ErrorTimestamp else t - ErrorTimestamp;
              PitchAt(table, from).Ok? && r.value == PitchAt(table, from).value + d.Value() as real * ErrorPitch
    ensures r.Err? && d != MID ==>
              r == PitchAt(table, t + ErrorTimestamp) || r == PitchAt(table, t) || r == PitchAt(table, t - ErrorTimestamp)
  {
    ApplyMinMidMaxError(PitchOf(table), t, d, ErrorPitch)
  }

  /** The pitch table as a function of time. */
  function PitchOf(table: seq<Observation>): real -> Result<real>
  {
    u => PitchAt(table, u)
  }

  /** When the observed pitches lie on a rising straight line, every
      direction is defined and MIN lies more than a degree below MID, MAX
      more than a degree above. */
  lemma PitchOnRisingLine(table: seq<Observation>, m: real, c: real, t: real)
    requires VideoUtils.StrictlyIncreasing(Times(table)) && |table| >= 2 && m > 0.0
    requires forall i :: 0 <= i < |table| ==> table[i].angle == m * table[i].vt.Time() + c
    ensures Pitch(table, t, MIN).Ok? && Pitch(table, t, MID).Ok? && Pitch(table, t, MAX).Ok?
    ensures Pitch(table, t, MIN).value < Pitch(table, t, MID).value - ErrorPitch
    ensures Pitch(table, t, MID).value + ErrorPitch < Pitch(table, t, MAX).value
  {
    var f := PitchOf(table);
    assert StrictlyMonotone(f) by {
      forall x
        ensures f(x).Ok?
      {
        PitchOnLine(table, m, c, x);
      }
      forall x, y | x < y
        ensures f(x).value < f(y).value
      {
        PitchOnLine(table, m, c, x);
        PitchOnLine(table, m, c, y);
        LineIncreasing(m, c, x, y);
      }
    }
    ApplyMinMidMaxOrdered(f, t, ErrorPitch);
  }

  /** Observations on a straight line interpolate to that line. */
  lemma PitchOnLine(table: seq<Observation>, m: real, c: real, x: real)
    requires VideoUtils.StrictlyIncreasing(Times(table)) && |table| >= 2
    requires forall i :: 0 <= i < |table| ==> table[i].angle == m * table[i].vt.Time() + c
    ensures PitchOf(table)(x) == Ok(Line(m, c, x))
  {
    VideoUtils.InterpolateLine(Times(table), Angles(table), m, c, x);
  }

  /** The straight line of slope `m` and intercept `c` at `x`. */
  function Line(m: real, c: real, x: real): real
  {
    m * x + c
  }

  lemma LineIncreasing(m: real, c: real, x: real, y: real)
    requires m > 0.0 && x < y
    ensures Line(m, c, x) < Line(m, c, y)
  {
    assert m * y - m * x == m * (y - x);
  }

  /** `pitches(min_mid_max)`: one (time, angle) row per observation,
      perturbed by five frames and one degree in the given direction. */
  function Pitches(table: seq<Observation>, d: ErrorDirection): (rows: seq<(real, real)>)
    ensures |rows| == |table|
    ensures forall i :: 0 <= i < |table| ==>
              rows[i] == Perturb(table[i].vt.Time(), table[i].angle, ErrorPitch, d)
  {
    seq(|table|, i requires 0 <= i < |table| => Perturb(table[i].vt.Time(), table[i].angle, ErrorPitch, d))
  }

  /** Row by row the three directions are strictly ordered in both time
      and angle, the angle by exactly one degree each way. */
  lemma PitchesOrdered(table: seq<Observation>, i: nat)
    requires i < |table|
    ensures Pitches(table, MID)[i] == (table[i].vt.Time(), table[i].angle)
    ensures Pitches(table, MIN)[i].0 < Pitches(table, MID)[i].0 < Pitches(table, MAX)[i].0
    ensures Pitches(table, MIN)[i].1 == Pitches(table, MID)[i].1 - 1.0
    ensures Pitches(table, MAX)[i].1 == Pitches(table, MID)[i].1 + 1.0
  {
    var o := table[i];
    PerturbOrdered(o.vt.Time(), o.angle, ErrorPitch);
  }

  /** `pitch_fitted_line()`: the fitted pitch cubic at whole seconds over
      the span of the ASPECT table, whatever times the pitch table holds. */
  function PitchFittedLine(aspects: seq<Aspect.Observation>, fit: Aspect.Cubic): (r: Result<seq<(int, real)>>)
    ensures r.Err? <==> aspects == []
    ensures r.Ok? ==> r.value == Aspect.FittedLine(fit, Aspect.TableSpan(aspects).value.0, Aspect.TableSpan(aspects).value.1)
    ensures r.Ok? ==> forall i :: 0 <= i < |r.value| ==> r.value[i].1 == Aspect.AspectFromFit(r.value[i].0 as real, fit)
  {
    var span :- Aspect.TableSpan(aspects);
    Ok(Aspect.FittedLine(fit, span.0, span.1))
  }
}

=== FILE: plot_common.dfy ===
/** Shared plotting logic (`plot_common.py`): merging several (time,
    values...) arrays onto one time base for gnuplot, the cache of
    ground-speed fits per error direction, the mean crossing of the full
    transit lines, the ground-speed fits offset by whole knots, and the
    coefficients of the equations of motion. Curve fitting and line
    intersection are parameters; text formatting is left out. */
module PlotCommon {
  import opened Outcomes
  import Seqs
  import Polynomial
  import VideoUtils
  import opened VideoData
  import Aspect
  import VideoAnalysis

  // ---------------------------------------------------------------------
  // Merging arrays for gnuplot

  /** A cell of the output: a value, or gnuplot's `NaN` placeholder. */
  datatype Cell = Value(v: real) | NaN

  /** A row of an input array: column 0 (the time) and columns 1... */
  datatype TRow = TRow(t: real, cols: seq<real>)

  /** An input array: its number of dimensions, the number of columns
      after the time column, and its rows. */
  datatype Table = Table(ndim: int, width: nat, rows: seq<TRow>)

  /** An output line: its time and one block of cells per input array. */
  datatype Line = Line(t: real, blocks: seq<seq<Cell>>)

  function Values(cols: seq<real>): (cells: seq<Cell>)
    ensures |cells| == |cols| && forall j :: 0 <= j < |cols| ==> cells[j] == Value(cols[j])
  {
    seq(|cols|, j requires 0 <= j < |cols| => Value(cols[j]))
  }

  function NaNs(width: nat): (cells: seq<Cell>)
    ensures |cells| == width && forall j :: 0 <= j < width ==> cells[j] == NaN
  {
    seq(width, j => NaN)
  }

  /** Every time in column 0 of every array, in argument order. */
  function AllTimes(tables: seq<Table>): (ts: seq<real>)
    ensures forall x :: x in ts <==> exists a, i :: 0 <= a < |tables| && 0 <= i < |tables[a].rows| && tables[a].rows[i].t == x
  {
    if tables == [] then []
    else
      var own := seq(|tables[0].rows|, i requires 0 <= i < |tables[0].rows| => tables[0].rows[i].t);
      var rest := AllTimes(tables[1..]);
      AllTimesCons(tables, own, rest);
      own + rest
  }

  /** The times of the first array followed by those of the others are
      the times of all of them. */
  lemma AllTimesCons(tables: seq<Table>, own: seq<real>, rest: seq<real>)
    requires |tables| > 0
    requires own == seq(|tables[0].rows|, i requires 0 <= i < |tables[0].rows| => tables[0].rows[i].t)
    requires forall x :: x in rest <==> exists a, i :: 0 <= a < |tables[1..]| && 0 <= i < |tables[1..][a].rows| && tables[1..][a].rows[i].t == x
    ensures forall x :: x in own + rest <==> exists a, i :: 0 <= a < |tables| && 0 <= i < |tables[a].rows| && tables[a].rows[i].t == x
  {
    forall x | x in own + rest
      ensures exists a, i :: 0 <= a < |tables| && 0 <= i < |tables[a].rows| && tables[a].rows[i].t == x
    {
      if x in own {
        var i :| 0 <= i < |own| && own[i] == x;
        assert tables[0].rows[i].t == x;
      } else {
        var a, i :| 0 <= a < |tables[1..]| && 0 <= i < |tables[1..][a].rows| && tables[1..][a].rows[i].t == x;
        assert tables[a + 1].rows[i].t == x;
      }
    }
    forall x | exists a, i :: 0 <= a < |tables| && 0 <= i < |tables[a].rows| && tables[a].rows[i].t == x
      ensures x in own + rest
    {
      var a, i :| 0 <= a < |tables| && 0 <= i < |tables[a].rows| && tables[a].rows[i].t == x;
      if a == 0 {
        assert own[i] == x;
      } else {
        assert tables[1..][a - 1].rows[i].t == x;
        assert x in rest;
      }
    }
  }

  /** Drops repeats from an ascending sequence, keeping its values. */
  function Dedupe(s: seq<real>): (r: seq<real>)
    requires forall i, j :: 0 <= i < j < |s| ==> s[i] <= s[j]
    ensures forall i, j :: 0 <= i < j < |r| ==> r[i] < r[j]
    ensures forall x :: x in r <==> x in s
    ensures |s| > 0 ==> |r| > 0 && r[0] == s[0]
  {
    if |s| <= 1 then s
    else
      var rest := Dedupe(s[1..]);
      assert forall x :: x in s <==> x == s[0] || x in s[1..];
      assert rest[0] == s[1] && s[0] <= s[1];
      if s[0] == s[1] then rest else [s[0]] + rest
  }

  /** `sorted(set(...))` of all the times: strictly ascending, and holding
      exactly the times that occur in some array. */
  function Timebase(tables: seq<Table>): (tb: seq<real>)
    ensures forall i, j :: 0 <= i < j < |tb| ==> tb[i] < tb[j]
    ensures forall x :: x in tb <==> exists a, i :: 0 <= a < |tables| && 0 <= i < |tables[a].rows| && tables[a].rows[i].t == x
  {
    var all := AllTimes(tables);
    var sorted := Seqs.SortReals(all);
    assert forall x :: x in sorted <==> x in multiset(sorted);
    assert forall x :: x in all <==> x in multiset(all);
    Dedupe(sorted)
  }

  /** One array's blocks along the time base: starting at row `i`, each
      time takes the next unconsumed row when its time matches (and moves
      past it) and writes `NaN`s otherwise. Also returns the index of the
      first row never consumed. */
  function Blocks(rows: seq<TRow>, width: nat, tb: seq<real>, i: nat): (r: (seq<seq<Cell>>, nat))
    ensures |r.0| == |tb|
    ensures i <= r.1 <= i + |tb|
    decreases |tb|
  {
    if tb == [] then ([], i)
    else
      var hit := i < |rows| && rows[i].t == tb[0];
      var cells := if hit then Values(rows[i].cols) else NaNs(width);
      var rest := Blocks(rows, width, tb[1..], if hit then i + 1 else i);
      ([cells] + rest.0, rest.1)
  }

  /** Every argument is a 2-D array. */
  predicate AllTwoD(tables: seq<Table>)
  {
    forall a :: 0 <= a < |tables| ==> tables[a].ndim == 2
  }

  /** `gnuplot_write_arrays(stream, *args)`: every argument must be a 2-D
      array (ValueError otherwise); then one line per time of the time
      base, in order, each holding one block per array taken from that
      array's walk along the time base. */
  function GnuplotWriteArrays(tables: seq<Table>): (r: Result<seq<Line>>)
    ensures r.Err? <==> !AllTwoD(tables)
    ensures r.Err? ==> r.error == ValueError
    ensures r.Ok? ==> |r.value| == |Timebase(tables)|
    ensures r.Ok? ==> forall k :: 0 <= k < |r.value| ==>
              r.value[k].t == Timebase(tables)[k] && |r.value[k].blocks| == |tables|
    ensures r.Ok? ==> forall k, a :: 0 <= k < |r.value| && 0 <= a < |tables| ==>
              r.value[k].blocks[a] == Blocks(tables[a].rows, tables[a].width, Timebase(tables), 0).0[k]
  {
    if !AllTwoD(tables) then Err(ValueError)
    else
      var tb := Timebase(tables);
      var blocks := seq(|tables|, a requires 0 <= a < |tables| => Blocks(tables[a].rows, tables[a].width, tb, 0).0);
      Ok(seq(|tb|, k requires 0 <= k < |tb| => Line(tb[k], seq(|tables|, a requires 0 <= a < |tables| => blocks[a][k]))))
  }

  ghost predicate Ascending(rows: seq<TRow>)
  {
    forall i, j :: 0 <= i < j < |rows| ==> rows[i].t < rows[j].t
  }

  /** The walk of one array is on the time base from row `i`: the rows'
      times strictly ascend, every remaining row's time is on the time
      base, and the next row is not before the time base's start. */
  ghost predicate OnBase(rows: seq<TRow>, tb: seq<real>, i: nat)
  {
    Ascending(rows) && i <= |rows| &&
    (forall k, l :: 0 <= k < l < |tb| ==> tb[k] < tb[l]) &&
    (forall j :: i <= j < |rows| ==> rows[j].t in tb) &&
    (i < |rows| ==> |tb| > 0 && tb[0] <= rows[i].t)
  }

  /** The row index after the first time of the time base. */
  function Next(rows: seq<TRow>, tb: seq<real>, i: nat): nat
    requires |tb| > 0
  {
    if i < |rows| && rows[i].t == tb[0] then i + 1 else i
  }

  /** Stepping past the first time keeps the walk on the rest of the time
      base. */
  lemma OnBaseStep(rows: seq<TRow>, tb: seq<real>, i: nat)
    requires OnBase(rows, tb, i) && |tb| > 0
    ensures OnBase(rows, tb[1..], Next(rows, tb, i))
  {
    var next := Next(rows, tb, i);
    forall j | next <= j < |rows|
      ensures rows[j].t in tb[1..]
    {
      assert rows[j].t in tb;
      var k :| 0 <= k < |tb| && tb[k] == rows[j].t;
      assert rows[i].t <= rows[j].t;
      assert k != 0;
      assert tb[1..][k - 1] == rows[j].t;
    }
    if next < |rows| {
      assert rows[next].t in tb[1..];
      var k :| 0 <= k < |tb[1..]| && tb[1..][k] == rows[next].t;
      assert tb[1..][0] <= tb[1..][k];
    }
  }

  /** The walk consumes every row. */
  lemma {:induction false} BlocksConsumeEachRow(rows: seq<TRow>, width: nat, tb: seq<real>, i: nat)
    requires OnBase(rows, tb, i)
    ensures Blocks(rows, width, tb, i).1 == |rows|
    decreases |tb|
  {
    if tb != [] {
      OnBaseStep(rows, tb, i);
      BlocksConsumeEachRow(rows, width, tb[1..], Next(rows, tb, i));
    }
  }

  /** Each remaining row is written on the line of its time. */
  lemma {:induction false} BlocksWriteEachRow(rows: seq<TRow>, width: nat, tb: seq<real>, i: nat, k: nat, j: nat)
    requires OnBase(rows, tb, i)
    requires k < |tb| && i <= j < |rows| && rows[j].t == tb[k]
    ensures Blocks(rows, width, tb, i).0[k] == Values(rows[j].cols)
    decreases |tb|
  {
    var next := Next(rows, tb, i);
    var rest := Blocks(rows, width, tb[1..], next);
    assert Blocks(rows, width, tb, i).0 == [if next == i + 1 then Values(rows[i].cols) else NaNs(width)] + rest.0;
    assert rows[i].t <= rows[j].t;
    if k == 0 {
      assert j == i;
    } else {
      assert tb[0] < tb[k];
      assert j >= next;
      assert tb[1..][k - 1] == tb[k];
      OnBaseStep(rows, tb, i);
      BlocksWriteEachRow(rows, width, tb[1..], next, k - 1, j);
    }
  }

  /** A time at which no remaining row lies gets `NaN`s. */
  lemma {:induction false} BlocksFillGaps(rows: seq<TRow>, width: nat, tb: seq<real>, i: nat, k: nat)
    requires OnBase(rows, tb, i)
    requires k < |tb| && forall j :: i <= j < |rows| ==> rows[j].t != tb[k]
    ensures Blocks(rows, width, tb, i).0[k] == NaNs(width)
    decreases |tb|
  {
    var next := Next(rows, tb, i);
    var rest := Blocks(rows, width, tb[1..], next);
    assert Blocks(rows, width, tb, i).0 == [if next == i + 1 then Values(rows[i].cols) else NaNs(width)] + rest.0;
    if k > 0 {
      assert tb[1..][k - 1] == tb[k];
      OnBaseStep(rows, tb, i);
      BlocksFillGaps(rows, width, tb[1..], next, k - 1);
    }
  }

  /** A repeated time stalls its array: with rows at times 1 and 1 and a
      time base [1], the second row is never written. */
  lemma DuplicateTimeStalls()
    ensures var rows := [TRow(1.0, [2.0]), TRow(1.0, [3.0])];
            Blocks(rows, 1, [1.0], 0) == ([[Value(2.0)]], 1)
  {
    var rows := [TRow(1.0, [2.0]), TRow(1.0, [3.0])];
    assert Values([2.0]) == [Value(2.0)];
    assert [1.0][1..] == [];
    assert Blocks(rows, 1, [], 1) == ([], 1);
    assert rows[0].t == 1.0 && rows[0].cols == [2.0];
    assert Blocks(rows, 1, [1.0], 0) == ([Values([2.0])] + [], 1);
    assert [Values([2.0])] + [] == [[Value(2.0)]];
  }

  /** For arrays whose times strictly ascend, every row of every array
      appears once, in that array's block on the line of its time. */
  lemma GnuplotWriteArraysPlacesRows(tables: seq<Table>, a: nat, j: nat)
    requires AllTwoD(tables) && forall b :: 0 <= b < |tables| ==> Ascending(tables[b].rows)
    requires a < |tables| && j < |tables[a].rows|
    ensures GnuplotWriteArrays(tables).Ok?
    ensures var lines := GnuplotWriteArrays(tables).value;
            exists k :: 0 <= k < |lines| && lines[k].t == tables[a].rows[j].t && lines[k].blocks[a] == Values(tables[a].rows[j].cols)
  {
    var tb := Timebase(tables);
    var t := tables[a];
    TableOnBase(tables, a);
    var lines := GnuplotWriteArrays(tables).value;
    assert t.rows[j].t in tb;
    var k :| 0 <= k < |tb| && tb[k] == t.rows[j].t;
    BlocksWriteEachRow(t.rows, t.width, tb, 0, k, j);
    assert lines[k].t == tb[k] && lines[k].blocks[a] == Blocks(t.rows, t.width, tb, 0).0[k];
  }

  /** An array with no row at a line's time has `NaN`s there. */
  lemma GnuplotWriteArraysFillsGaps(tables: seq<Table>, a: nat, k: nat)
    requires AllTwoD(tables) && forall b :: 0 <= b < |tables| ==> Ascending(tables[b].rows)
    requires a < |tables|
    ensures GnuplotWriteArrays(tables).Ok?
    ensures var lines := GnuplotWriteArrays(tables).value;
            k < |lines| && (forall j :: 0 <= j < |tables[a].rows| ==> tables[a].rows[j].t != lines[k].t) ==>
              lines[k].blocks[a] == NaNs(tables[a].width)
  {
    var tb := Timebase(tables);
    var t := tables[a];
    var lines := GnuplotWriteArrays(tables).value;
    if k < |lines| && (forall j :: 0 <= j < |t.rows| ==> t.rows[j].t != lines[k].t) {
      TableOnBase(tables, a);
      assert lines[k].t == tb[k] && lines[k].blocks[a] == Blocks(t.rows, t.width, tb, 0).0[k];
      BlocksFillGaps(t.rows, t.width, tb, 0, k);
    }
  }

  /** Each array with ascending times walks the time base from its first
      row. */
  lemma TableOnBase(tables: seq<Table>, a: nat)
    requires a < |tables| && Ascending(tables[a].rows)
    ensures OnBase(tables[a].rows, Timebase(tables), 0)
  {
    var tb := Timebase(tables);
    var rows := tables[a].rows;
    forall j | 0 <= j < |rows|
      ensures rows[j].t in tb
    {
      assert tables[a].rows[j].t == rows[j].t;
    }
    if |rows| > 0 {
      var k :| 0 <= k < |tb| && tb[k] == rows[0].t;
    }
  }

  // ---------------------------------------------------------------------
  // Ground-speed fits

  /** `GROUND_SPEED_OFFSETS`: -10 knots, none, +10 knots, in m/s. */
  function GroundSpeedOffset(d: ErrorDirection): (off: real)
    ensures VideoUtils.MpsToKnots(off) == 10.0 * d.Value() as real
  {
    match d
    case MIN =>
      VideoUtils.KnotsRoundTrip(-10.0);
      VideoUtils.KnotsToMps(-10.0)
    case MID =>
      assert VideoUtils.MpsToKnots(0.0) == 0.0;
      0.0
    case MAX =>
      VideoUtils.KnotsRoundTrip(10.0);
      VideoUtils.KnotsToMps(10.0)
  }

  /** The module-level cache of fits, keyed by error direction. */
  type FitCache = map<ErrorDirection, Aspect.Cubic>

  /** Every cached fit is the fit with its direction's offset. */
  ghost predicate CacheSound(cache: FitCache, fitWithOffset: real -> Aspect.Cubic)
  {
    forall d :: d in cache ==> cache[d] == fitWithOffset(GroundSpeedOffset(d))
  }

  /** `get_gs_fit(err)`: the cached fit, computing and storing it with
      `ground_speed_curve_fit_with_offset` on first use. */
  function GetGsFit(cache: FitCache, d: ErrorDirection, fitWithOffset: real -> Aspect.Cubic): (r: (Aspect.Cubic, FitCache))
    ensures d in r.1 && r.0 == r.1[d]
    ensures d in cache ==> r.1 == cache
    ensures r.1.Keys == cache.Keys + {d}
    ensures forall e :: e in cache ==> e in r.1 && r.1[e] == cache[e]
  {
    if d in cache then (cache[d], cache)
    else
      var fit := fitWithOffset(GroundSpeedOffset(d));
      (fit, cache[d := fit])
  }

  /** A sound cache stays sound and always hands out the fit with the
      direction's offset; asking twice gives the same fit and leaves the
      cache as the first call left it. */
  lemma GetGsFitCaches(cache: FitCache, d: ErrorDirection, fitWithOffset: real -> Aspect.Cubic)
    requires CacheSound(cache, fitWithOffset)
    ensures var (fit, cache1) := GetGsFit(cache, d, fitWithOffset);
            fit == fitWithOffset(GroundSpeedOffset(d)) && CacheSound(cache1, fitWithOffset) &&
            GetGsFit(cache1, d, fitWithOffset) == (fit, cache1)
  {
  }

  /** `get_gs_fits_corrected()`: fits with the ground speed raised by 0, 5
      and 10 knots (a 5 knot correction, plus or minus 5 knots). */
  function GsFitsCorrected(fitWithOffset: real -> Aspect.Cubic): (fits: seq<Aspect.Cubic>)
    ensures |fits| == 3
    ensures forall i :: 0 <= i < 3 ==> exists off :: fits[i] == fitWithOffset(off) && VideoUtils.MpsToKnots(off) == 5.0 * i as real
  {
    VideoUtils.KnotsRoundTrip(0.0);
    VideoUtils.KnotsRoundTrip(5.0);
    VideoUtils.KnotsRoundTrip(10.0);
    var offs := [VideoUtils.KnotsToMps(5.0 + -5.0), VideoUtils.KnotsToMps(5.0 + 0.0), VideoUtils.KnotsToMps(5.0 + 5.0)];
    [fitWithOffset(offs[0]), fitWithOffset(offs[1]), fitWithOffset(offs[2])]
  }

  // ---------------------------------------------------------------------
  // Full transits

  /** A transit line through two landmarks. */
  datatype TransitLine = TransitLine(from: (real, real), to: (real, real))

  /** The crossing of the lines of pair `p`. */
  function Crossing(lines: seq<TransitLine>, intersect: (TransitLine, TransitLine) -> (real, real), p: (nat, nat)): (real, real)
    requires p.0 < |lines| && p.1 < |lines|
  {
    intersect(lines[p.0], lines[p.1])
  }

  /** The x coordinates of the crossings of every pair of transit lines,
      pairs taken in `itertools.combinations` order; every pair's crossing
      is among them. */
  function CrossingXs(lines: seq<TransitLine>, intersect: (TransitLine, TransitLine) -> (real, real)): (xs: seq<real>)
    ensures |xs| == |Seqs.Pairs(|lines|)|
    ensures forall k :: 0 <= k < |xs| ==>
              Seqs.Pairs(|lines|)[k].0 < Seqs.Pairs(|lines|)[k].1 < |lines| &&
              xs[k] == intersect(lines[Seqs.Pairs(|lines|)[k].0], lines[Seqs.Pairs(|lines|)[k].1]).0
    ensures forall i, j :: 0 <= i < j < |lines| ==> intersect(lines[i], lines[j]).0 in xs
  {
    var pairs := Seqs.Pairs(|lines|);
    Seqs.PairsSpec(|lines|);
    assert forall k :: 0 <= k < |pairs| ==> pairs[k] in pairs;
    var xs := seq(|pairs|, k requires 0 <= k < |pairs| => Crossing(lines, intersect, pairs[k]).0);
    assert forall i, j :: 0 <= i < j < |lines| ==> intersect(lines[i], lines[j]).0 in xs by {
      forall i, j | 0 <= i < j < |lines|
        ensures intersect(lines[i], lines[j]).0 in xs
      {
        assert (i, j) in pairs;
        var k :| 0 <= k < |pairs| && pairs[k] == (i, j);
        assert xs[k] == intersect(lines[i], lines[j]).0;
      }
    }
    xs
  }

  /** The y coordinates of the same crossings, in the same order. */
  function CrossingYs(lines: seq<TransitLine>, intersect: (TransitLine, TransitLine) -> (real, real)): (ys: seq<real>)
    ensures |ys| == |Seqs.Pairs(|lines|)|
    ensures forall k :: 0 <= k < |ys| ==>
              Seqs.Pairs(|lines|)[k].0 < Seqs.Pairs(|lines|)[k].1 < |lines| &&
              ys[k] == intersect(lines[Seqs.Pairs(|lines|)[k].0], lines[Seqs.Pairs(|lines|)[k].1]).1
    ensures forall i, j :: 0 <= i < j < |lines| ==> intersect(lines[i], lines[j]).1 in ys
  {
    var pairs := Seqs.Pairs(|lines|);
    Seqs.PairsSpec(|lines|);
    assert forall k :: 0 <= k < |pairs| ==> pairs[k] in pairs;
    var ys := seq(|pairs|, k requires 0 <= k < |pairs| => Crossing(lines, intersect, pairs[k]).1);
    assert forall i, j :: 0 <= i < j < |lines| ==> intersect(lines[i], lines[j]).1 in ys by {
      forall i, j | 0 <= i < j < |lines|
        ensures intersect(lines[i], lines[j]).1 in ys
      {
        assert (i, j) in pairs;
        var k :| 0 <= k < |pairs| && pairs[k] == (i, j);
        assert ys[k] == intersect(lines[i], lines[j]).1;
      }
    }
    ys
  }

  /** `observer_position_from_full_transits()`: the crossings of every
      pair of transit lines (by `intersect`), summarised as (mean x, half
      the x range, mean y, half the y range). With fewer than two lines
      there is no crossing and the mean divides by zero. */
  function ObserverPositionFromFullTransits(lines: seq<TransitLine>, intersect: (TransitLine, TransitLine) -> (real, real))
    : (r: Result<(real, real, real, real)>)
    ensures r.Err? <==> |lines| < 2
    ensures r.Err? ==> r.error == ZeroDivisionError
    ensures r.Ok? ==>
              var xs, ys := CrossingXs(lines, intersect), CrossingYs(lines, intersect);
              |xs| > 0 && |ys| > 0 &&
              r.value.0 == Seqs.Sum(xs) / |xs| as real && r.value.1 == (Seqs.Max(xs) - Seqs.Min(xs)) / 2.0 &&
              r.value.2 == Seqs.Sum(ys) / |ys| as real && r.value.3 == (Seqs.Max(ys) - Seqs.Min(ys)) / 2.0 &&
              Seqs.Min(xs) <= r.value.0 <= Seqs.Max(xs) && Seqs.Min(ys) <= r.value.2 <= Seqs.Max(ys)
    ensures r.Ok? ==> r.value.1 >= 0.0 && r.value.3 >= 0.0
    ensures r.Ok? ==> forall i, j :: 0 <= i < j < |lines| ==>
              var c := intersect(lines[i], lines[j]);
              -2.0 * r.value.1 <= c.0 - r.value.0 <= 2.0 * r.value.1 &&
              -2.0 * r.value.3 <= c.1 - r.value.2 <= 2.0 * r.value.3
  {
    var pairs := Seqs.Pairs(|lines|);
    Seqs.PairsSpec(|lines|);
    if |pairs| == 0 then
      assert |lines| < 2;
      Err(ZeroDivisionError)
    else
      assert |lines| >= 2 by {
        assert pairs[0] in pairs;
      }
      var xs := CrossingXs(lines, intersect);
      var ys := CrossingYs(lines, intersect);
      CrossingsNearMean(lines, intersect, pairs, xs, ys);
      Ok((Seqs.Mean(xs), Seqs.HalfRange(xs), Seqs.Mean(ys), Seqs.HalfRange(ys)))
  }

  /** When every pair of transit lines crosses at the same point, that
      point is the observer position, with no spread. */
  lemma ConcurrentTransits(lines: seq<TransitLine>, intersect: (TransitLine, TransitLine) -> (real, real), c: (real, real))
    requires |lines| >= 2
    requires forall i, j :: 0 <= i < j < |lines| ==> intersect(lines[i], lines[j]) == c
    ensures ObserverPositionFromFullTransits(lines, intersect) == Ok((c.0, 0.0, c.1, 0.0))
  {
    var xs := CrossingXs(lines, intersect);
    var ys := CrossingYs(lines, intersect);
    assert intersect(lines[0], lines[1]).0 in xs;
    ConstantSummary(xs, c.0);
    ConstantSummary(ys, c.1);
  }

  lemma ConstantSummary(s: seq<real>, v: real)
    requires |s| > 0 && forall k :: 0 <= k < |s| ==> s[k] == v
    ensures Seqs.Mean(s) == v && Seqs.HalfRange(s) == 0.0
  {
    Seqs.VarianceOfConstant(s);
    assert Seqs.Min(s) in s && Seqs.Max(s) in s;
  }

  /** Every crossing lies within twice the half range of the mean. */
  lemma CrossingsNearMean(lines: seq<TransitLine>, intersect: (TransitLine, TransitLine) -> (real, real),
                          pairs: seq<(nat, nat)>, xs: seq<real>, ys: seq<real>)
    requires forall p :: p in pairs <==> p.0 < p.1 < |lines|
    requires |pairs| > 0 && |xs| == |pairs| && |ys| == |pairs|
    requires forall k :: 0 <= k < |pairs| ==> xs[k] == Crossing(lines, intersect, pairs[k]).0 && ys[k] == Crossing(lines, intersect, pairs[k]).1
    ensures forall i, j :: 0 <= i < j < |lines| ==>
              var c := intersect(lines[i], lines[j]);
              -2.0 * Seqs.HalfRange(xs) <= c.0 - Seqs.Mean(xs) <= 2.0 * Seqs.HalfRange(xs) &&
              -2.0 * Seqs.HalfRange(ys) <= c.1 - Seqs.Mean(ys) <= 2.0 * Seqs.HalfRange(ys)
  {
    forall i, j | 0 <= i < j < |lines|
      ensures var c := intersect(lines[i], lines[j]);
              -2.0 * Seqs.HalfRange(xs) <= c.0 - Seqs.Mean(xs) <= 2.0 * Seqs.HalfRange(xs) &&
              -2.0 * Seqs.HalfRange(ys) <= c.1 - Seqs.Mean(ys) <= 2.0 * Seqs.HalfRange(ys)
    {
      assert (i, j) in pairs;
      var k :| 0 <= k < |pairs| && pairs[k] == (i, j);
      var lo :| 0 <= lo < |xs| && xs[lo] == Seqs.Min(xs);
      var hi :| 0 <= hi < |xs| && xs[hi] == Seqs.Max(xs);
      assert xs[hi] - xs[lo] <= 2.0 * Seqs.HalfRange(xs);
      var lo' :| 0 <= lo' < |ys| && ys[lo'] == Seqs.Min(ys);
      var hi' :| 0 <= hi' < |ys| && ys[hi'] == Seqs.Max(ys);
      assert ys[hi'] - ys[lo'] <= 2.0 * Seqs.HalfRange(ys);
    }
  }

  // ---------------------------------------------------------------------
  // Equations of motion

  /** `RUNWAY_LEN_M`. */
  const RunwayLength: real := 3240.0

  /** `TIME_VIDEO_END_ASPHALT`: 27 seconds and 24 frames. */
  const TimeVideoEndAsphalt: VideoTime := VideoTime(0.0, 27.0, 24.0)

  /** The coefficients of `markdown_table_equations_of_motion`: the
      ground-speed fit, its derivative (acceleration) and its integral
      (distance) offset so that the distance is the runway length at the
      end of the asphalt. */
  function EquationsOfMotion(gs: Aspect.Cubic): (r: (seq<real>, seq<real>, seq<real>))
    ensures var c := [gs.a, gs.b, gs.c, gs.d];
            r.0 == c && r.1 == Polynomial.DiffCoeffs(c) &&
            |r.2| == 5 && r.2[1..] == Polynomial.IntCoeffs(c)[1..]
    ensures Polynomial.PowerSum(r.2, TimeVideoEndAsphalt.Time()) == RunwayLength
  {
    var c := [gs.a, gs.b, gs.c, gs.d];
    var offset := RunwayLength - VideoAnalysis.GroundSpeedIntegral(0.0, TimeVideoEndAsphalt.Time(), gs);
    var accel := seq(3, i requires 0 <= i < 3 => (i + 1) as real * c[i + 1]);
    var dist := [offset] + seq(4, i requires 0 <= i < 4 => c[i] / (i + 1) as real);
    var ic := Polynomial.IntCoeffs(c);
    assert accel == Polynomial.DiffCoeffs(c);
    assert dist[1..] == ic[1..];
    DistanceAtEndOfAsphalt(c, offset, dist, ic);
    (c, accel, dist)
  }

  /** Replacing the constant term of the integral coefficients by
      `RunwayLength - integral(0, T)` makes the distance `RunwayLength` at
      `T`. */
  lemma DistanceAtEndOfAsphalt(c: seq<real>, offset: real, dist: seq<real>, ic: seq<real>)
    requires |c| == 4 && ic == Polynomial.IntCoeffs(c) && |dist| == 5 && dist[1..] == ic[1..]
    requires offset == RunwayLength - (VideoUtils.Poly3IntegralFromZero(TimeVideoEndAsphalt.Time(), c[0], c[1], c[2], c[3])
                                       - VideoUtils.Poly3IntegralFromZero(0.0, c[0], c[1], c[2], c[3]))
    requires dist[0] == offset
    ensures Polynomial.PowerSum(dist, TimeVideoEndAsphalt.Time()) == RunwayLength
  {
    var t := TimeVideoEndAsphalt.Time();
    assert c == [c[0], c[1], c[2], c[3]];
    Polynomial.PowerSumAtZero(ic);
    assert VideoUtils.Poly3IntegralFromZero(0.0, c[0], c[1], c[2], c[3]) == 0.0;
    assert ic[0] == 0.0;
    Polynomial.PowerSumCons(dist, t);
    Polynomial.PowerSumCons(ic, t);
    assert dist[1..] == ic[1..];
  }
}

=== FILE: polynomial.dfy ===
/** The coefficient-sequence polynomial helpers of the AN-24 analysis
    (`common/polynomial.py`): evaluation, derivative and integral from
    zero, each a Horner-style loop over the coefficients from the highest
    power down, and the textual form of a polynomial. Coefficient `i` of a
    sequence `c` multiplies `x^i`. */
module Polynomial {
  import Decimal

  /** `x^n`. */
  function Pow(x: real, n: nat): real
  {
    if n == 0 then 1.0 else x * Pow(x, n - 1)
  }

  /** The reference meaning of a coefficient sequence: the sum of
      `c[i] * x^i`, built up term by term from the lowest power. */
  function PowerSum(c: seq<real>, x: real): real
  {
    if |c| == 0 then 0.0 else PowerSum(c[..|c| - 1], x) + c[|c| - 1] * Pow(x, |c| - 1)
  }

  lemma Distribute(a: real, x: real, b: real, k: real, p: real)
    ensures a + x * b + k * (x * p) == a + x * (b + k * p)
  {
  }

  /** The Horner step: the sum for `c` is the constant term plus `x` times
      the sum for the remaining coefficients. */
  lemma {:induction false} PowerSumCons(c: seq<real>, x: real)
    requires |c| > 0
    ensures PowerSum(c, x) == c[0] + x * PowerSum(c[1..], x)
  {
    if |c| > 1 {
      var init, d := c[..|c| - 1], c[1..];
      assert init[1..] == d[..|d| - 1];
      assert d[|d| - 1] == c[|c| - 1];
      PowerSumCons(init, x);
      var b, k, p := PowerSum(init[1..], x), c[|c| - 1], Pow(x, |c| - 2);
      assert PowerSum(init, x) == c[0] + x * b;
      assert Pow(x, |c| - 1) == x * p;
      assert PowerSum(d, x) == b + k * p;
      Distribute(c[0], x, b, k, p);
    } else {
      assert c[..|c| - 1] == [];
      assert c[1..] == [];
    }
  }

  /** The coefficients of the derivative: `i * c[i]` moved down to power
      `i - 1`; empty for fewer than two coefficients. */
  function DiffCoeffs(c: seq<real>): (d: seq<real>)
    ensures |c| <= 1 ==> d == []
    ensures |c| > 1 ==> |d| == |c| - 1
    ensures forall i :: 0 <= i < |d| ==> d[i] == (i + 1) as real * c[i + 1]
  {
    if |c| <= 1 then [] else seq(|c| - 1, i requires 0 <= i < |c| - 1 => (i + 1) as real * c[i + 1])
  }

  /** The coefficients of the integral from zero: a zero constant term and
      `c[i] / (i + 1)` moved up to power `i + 1`. */
  function IntCoeffs(c: seq<real>): (d: seq<real>)
    ensures |d| == |c| + 1 && d[0] == 0.0
    ensures forall i :: 0 <= i < |c| ==> d[i + 1] == c[i] / (i + 1) as real
  {
    [0.0] + seq(|c|, i requires 0 <= i < |c| => c[i] / (i + 1) as real)
  }

  /** Differentiating the integral's coefficients gives back the original
      coefficients (for at least one coefficient; an empty sequence
      integrates to the single zero constant, whose derivative is empty). */
  lemma DiffOfIntCoeffs(c: seq<real>)
    ensures DiffCoeffs(IntCoeffs(c)) == c
  {
    var d := DiffCoeffs(IntCoeffs(c));
    assert |d| == |c|;
    forall i | 0 <= i < |c|
      ensures d[i] == c[i]
    {
      assert d[i] == (i + 1) as real * (c[i] / (i + 1) as real);
    }
  }

  /** The derivative does not depend on the constant term. */
  lemma DiffIgnoresConstant(c: seq<real>, k: real)
    requires |c| > 0
    ensures DiffCoeffs([k] + c[1..]) == DiffCoeffs(c)
  {
    var q := [k] + c[1..];
    forall i | 0 <= i < |DiffCoeffs(c)|
      ensures DiffCoeffs(q)[i] == DiffCoeffs(c)[i]
    {
      assert q[i + 1] == c[i + 1];
    }
  }

  /** `polynomial(x, *c)`: Horner evaluation from the last coefficient,
      stopping before the final multiplication. */
  method Evaluate(x: real, c: seq<real>) returns (r: real)
    ensures r == PowerSum(c, x)
  {
    r := 0.0;
    var j := |c|;
    while j > 0
      invariant 0 <= j <= |c|
      invariant |c| > 0 ==> j > 0
      invariant r == x * PowerSum(c[j..], x)
    {
      j := j - 1;
      HornerStep(c[j..], x, r);
      r := r + c[j];
      if j == 0 {
        assert c[0..] == c;
        return;
      }
      r := r * x;
    }
  }

  /** One step of a Horner loop: with `r` the value of the tail times `x`,
      adding the head gives the value of the whole sequence, and multiplying
      by `x` again gives that value times `x`. */
  lemma HornerStep(s: seq<real>, x: real, r: real)
    requires |s| > 0 && r == x * PowerSum(s[1..], x)
    ensures r + s[0] == PowerSum(s, x)
    ensures (r + s[0]) * x == x * PowerSum(s, x)
  {
    PowerSumCons(s, x);
  }

  /** A Horner step inside a coefficient sequence: with `r` the value of
      the coefficients after `k` times `x`, adding `c[k]` gives the value
      from `k` on, and multiplying by `x` once more gives that times `x`. */
  lemma HornerAt(c: seq<real>, k: nat, x: real, r: real, h: real)
    requires k < |c| && h == c[k] && r == x * PowerSum(c[k + 1..], x)
    ensures r + h == PowerSum(c[k..], x)
    ensures (r + h) * x == x * PowerSum(c[k..], x)
  {
    assert c[k..][1..] == c[k + 1..];
    HornerStep(c[k..], x, r);
  }

  /** `polynomial_differential(x, *c)`: the derivative's value, weighting
      each coefficient by its power; the loop stops at the linear term. */
  method Differential(x: real, c: seq<real>) returns (r: real)
    ensures r == PowerSum(DiffCoeffs(c), x)
  {
    ghost var d := DiffCoeffs(c);
    r := 0.0;
    var j := |c| - 1;
    if j >= 1 {
      HornerTailEmpty(d, x);
    }
    while j >= 1
      invariant j <= |c| - 1
      invariant j >= 1 ==> r == HornerTail(d, j, x)
      invariant j < 1 ==> |c| <= 1 && r == 0.0
    {
      if j == 1 {
        HornerTailStep(d, 0, x, r, c[j]);
        r := r + c[j];
        assert d[0..] == d;
        return;
      }
      var coeff := DiffCoeffAt(c, j);
      HornerTailStep(d, j - 1, x, r, coeff);
      r := (r + coeff) * x;
      j := j - 1;
    }
  }

  /** The derivative coefficient for power `j - 1`: `c[j] * j`. */
  function DiffCoeffAt(c: seq<real>, j: nat): (h: real)
    requires 1 <= j < |c|
    ensures h == DiffCoeffs(c)[j - 1]
  {
    c[j] * j as real
  }

  /** `polynomial_integral(x, *c)`: the integral from zero to `x`, dividing
      each coefficient by its power plus one and multiplying by `x` once
      more at the end. */
  method Integral(x: real, c: seq<real>) returns (r: real)
    ensures r == PowerSum(IntCoeffs(c), x)
  {
    ghost var d := IntCoeffs(c);
    r := 0.0;
    var j := |c|;
    HornerTailEmpty(d, x);
    while j > 0
      invariant 0 <= j <= |c|
      invariant r == HornerTail(d, j + 1, x)
    {
      j := j - 1;
      var coeff := IntCoeffAt(c, j);
      HornerTailStep(d, j + 1, x, r, coeff);
      r := (r + coeff) * x;
    }
    HornerTailStep(d, 0, x, r, 0.0);
    assert d[0..] == d;
  }

  /** The integral coefficient for power `j + 1`: `c[j] / (j + 1)`. */
  function IntCoeffAt(c: seq<real>, j: nat): (h: real)
    requires j < |c|
    ensures h == IntCoeffs(c)[j + 1]
  {
    c[j] / (j + 1) as real
  }

  /** `x` times the value of the coefficients from power `k` up: what a
      Horner loop holds once it has consumed `c[k..]`. */
  function HornerTail(c: seq<real>, k: nat, x: real): real
    requires k <= |c|
  {
    x * PowerSum(c[k..], x)
  }

  /** Before a Horner loop starts nothing has been consumed. */
  lemma HornerTailEmpty(c: seq<real>, x: real)
    ensures HornerTail(c, |c|, x) == 0.0
  {
    assert c[|c|..] == [];
  }

  /** One turn of a Horner loop, in terms of `HornerTail`. */
  lemma HornerTailStep(c: seq<real>, k: nat, x: real, r: real, h: real)
    requires k < |c| && h == c[k] && r == HornerTail(c, k + 1, x)
    ensures r + h == PowerSum(c[k..], x)
    ensures (r + h) * x == HornerTail(c, k, x)
  {
    HornerAt(c, k, x, r, h);
  }

  /** Every polynomial has the value of its constant term at zero. */
  lemma {:induction false} PowerSumAtZero(c: seq<real>)
    ensures PowerSum(c, 0.0) == if |c| == 0 then 0.0 else c[0]
  {
    if |c| > 0 {
      PowerSumCons(c, 0.0);
    }
  }

  /** The integral from zero to zero is zero, and the derivative of a
      polynomial with two coefficients is its linear coefficient. */
  lemma IntegralAndDifferentialEdgeCases(c: seq<real>, x: real)
    ensures PowerSum(IntCoeffs(c), 0.0) == 0.0
    ensures |c| == 2 ==> PowerSum(DiffCoeffs(c), x) == c[1]
  {
    PowerSumAtZero(IntCoeffs(c));
    if |c| == 2 {
      PowerSumAtZero(DiffCoeffs(c));
      assert DiffCoeffs(c) == [c[1]];
      assert Pow(x, 0) == 1.0;
    }
  }

  /** The expanded form of three coefficients. */
  lemma PowerSum3(a: real, b: real, c: real, x: real)
    ensures PowerSum([a, b, c], x) == a + b * x + c * x * x
  {
    var s := [a, b, c];
    PowerSumCons(s, x);
    PowerSumCons(s[1..], x);
    PowerSumCons(s[2..], x);
    assert s[2..][1..] == [];
    assert PowerSum(s, x) == a + x * (b + x * c);
  }

  /** The expanded form of four coefficients. */
  lemma PowerSum4(a: real, b: real, c: real, d: real, x: real)
    ensures PowerSum([a, b, c, d], x) == a + b * x + c * x * x + d * x * x * x
  {
    var s := [a, b, c, d];
    PowerSumCons(s, x);
    PowerSumCons(s[1..], x);
    PowerSumCons(s[2..], x);
    PowerSumCons(s[3..], x);
    assert s[3..][1..] == [];
    assert PowerSum(s, x) == a + x * (b + x * (c + x * d));
  }

  /** The expanded form of five coefficients. */
  lemma PowerSum5(a: real, b: real, c: real, d: real, e: real, x: real)
    ensures PowerSum([a, b, c, d, e], x) == a + b * x + c * x * x + d * x * x * x + e * x * x * x * x
  {
    var s := [a, b, c, d, e];
    PowerSumCons(s, x);
    assert s[1..] == [b, c, d, e];
    PowerSum4(b, c, d, e, x);
  }

  /** `polynomial_3`: the cubic `a + b x + c x^2 + d x^3`. */
  method Polynomial3(x: real, a: real, b: real, c: real, d: real) returns (r: real)
    ensures r == a + b * x + c * x * x + d * x * x * x
  {
    r := Evaluate(x, [a, b, c, d]);
    PowerSum4(a, b, c, d, x);
  }

  /** `polynomial_3_integral` (AN-24 form, one upper bound): the integral of
      the cubic from zero to `x`. */
  method Polynomial3Integral(x: real, a: real, b: real, c: real, d: real) returns (r: real)
    ensures r == a * x + b / 2.0 * x * x + c / 3.0 * x * x * x + d / 4.0 * x * x * x * x
  {
    r := Integral(x, [a, b, c, d]);
    var s := IntCoeffs([a, b, c, d]);
    assert s[1] == a && s[2] == b / 2.0 && s[3] == c / 3.0 && s[4] == d / 4.0;
    assert s == [0.0, a, b / 2.0, c / 3.0, d / 4.0];
    PowerSum5(0.0, a, b / 2.0, c / 3.0, d / 4.0, x);
  }

  /** `polynomial_3_differential`: `b + 2 c x + 3 d x^2`. */
  method Polynomial3Differential(x: real, a: real, b: real, c: real, d: real) returns (r: real)
    ensures r == b + 2.0 * c * x + 3.0 * d * x * x
  {
    r := Differential(x, [a, b, c, d]);
    var s := DiffCoeffs([a, b, c, d]);
    assert s[0] == b && s[1] == 2.0 * c && s[2] == 3.0 * d;
    assert s == [b, 2.0 * c, 3.0 * d];
    PowerSumCons(s, x);
    PowerSumCons(s[1..], x);
    PowerSumCons(s[2..], x);
    assert s[2..][1..] == [];
  }

  /** `polynomial_4`: the quartic `a + b x + c x^2 + d x^3 + e x^4`. */
  method Polynomial4(x: real, a: real, b: real, c: real, d: real, e: real) returns (r: real)
    ensures r == a + b * x + c * x * x + d * x * x * x + e * x * x * x * x
  {
    r := Evaluate(x, [a, b, c, d, e]);
    PowerSum5(a, b, c, d, e, x);
  }

  /** `polynomial_4_integral`: the integral of the quartic from zero to `x`. */
  method Polynomial4Integral(x: real, a: real, b: real, c: real, d: real, e: real) returns (r: real)
    ensures r == PowerSum([0.0, a, b / 2.0, c / 3.0, d / 4.0, e / 5.0], x)
    ensures x == 0.0 ==> r == 0.0
  {
    r := Integral(x, [a, b, c, d, e]);
    var s := IntCoeffs([a, b, c, d, e]);
    assert s[1] == a && s[2] == b / 2.0 && s[3] == c / 3.0 && s[4] == d / 4.0 && s[5] == e / 5.0;
    assert s == [0.0, a, b / 2.0, c / 3.0, d / 4.0, e / 5.0];
    IntegralAndDifferentialEdgeCases([a, b, c, d, e], x);
  }

  /** `polynomial_4_differential`: `b + 2 c x + 3 d x^2 + 4 e x^3`. */
  method Polynomial4Differential(x: real, a: real, b: real, c: real, d: real, e: real) returns (r: real)
    ensures r == b + 2.0 * c * x + 3.0 * d * x * x + 4.0 * e * x * x * x
  {
    r := Differential(x, [a, b, c, d, e]);
    var s := DiffCoeffs([a, b, c, d, e]);
    assert s[0] == b && s[1] == 2.0 * c && s[2] == 3.0 * d && s[3] == 4.0 * e;
    assert s == [b, 2.0 * c, 3.0 * d, 4.0 * e];
    PowerSum4(b, 2.0 * c, 3.0 * d, 4.0 * e, x);
  }

  /** `' '.join(parts)`. */
  function Join(parts: seq<string>): string
  {
    if |parts| == 0 then "" else if |parts| == 1 then parts[0] else parts[0] + " " + Join(parts[1..])
  }

  /** The text of term `i` with coefficient text `v`: a leading `+` after
      the first term, then the value, then `* x` or `* x**i`. */
  function Term(i: nat, v: string, x: string): string
  {
    Join((if i > 0 then ["+"] else []) + [v] +
         (if i == 1 then ["* " + x] else if i > 1 then ["* " + x + "**" + Decimal.Digits(i)] else []))
  }

  /** `polynomial_string(name, x, fmt, *c)`: the header `name(x) =`
      followed by every term, all separated by single spaces. The number
      formatting `fmt` is a parameter. */
  function PolynomialString(name: string, x: string, fmt: real -> string, c: seq<real>): (s: string)
    ensures |c| == 0 ==> s == name + "(" + x + ") ="
  {
    Join([name + "(" + x + ") ="] + seq(|c|, i requires 0 <= i < |c| => Term(i, fmt(c[i]), x)))
  }

  lemma {:induction false} JoinAppend(parts: seq<string>, p: string)
    requires |parts| > 0
    ensures Join(parts + [p]) == Join(parts) + " " + p
  {
    if |parts| > 1 {
      assert (parts + [p])[1..] == parts[1..] + [p];
      JoinAppend(parts[1..], p);
    } else {
      assert parts + [p] == [parts[0], p];
      assert [parts[0], p][1..] == [p];
    }
  }

  lemma JoinThree(p: string, q: string, r: string)
    ensures Join([p, q, r]) == p + " " + q + " " + r
  {
    assert [p, q, r][1..] == [q, r];
    assert [q, r][1..] == [r];
    assert Join([r]) == r;
    assert Join([q, r]) == q + " " + r;
  }

  /** Adding a coefficient appends one space-separated term to the text. */
  lemma PolynomialStringSnoc(name: string, x: string, fmt: real -> string, c: seq<real>, v: real)
    ensures PolynomialString(name, x, fmt, c + [v]) ==
            PolynomialString(name, x, fmt, c) + " " + Term(|c|, fmt(v), x)
  {
    var head := [name + "(" + x + ") ="];
    var terms := seq(|c|, i requires 0 <= i < |c| => Term(i, fmt(c[i]), x));
    var terms' := seq(|c| + 1, i requires 0 <= i < |c| + 1 => Term(i, fmt((c + [v])[i]), x));
    assert terms' == terms + [Term(|c|, fmt(v), x)];
    assert head + terms' == (head + terms) + [Term(|c|, fmt(v), x)];
    JoinAppend(head + terms, Term(|c|, fmt(v), x));
  }

  /** The text of a quadratic: `f(t) = A + B * t + C * t**2`. */
  lemma PolynomialStringQuadratic(name: string, x: string, fmt: real -> string, a: real, b: real, c: real)
    ensures PolynomialString(name, x, fmt, [a, b, c]) ==
            name + "(" + x + ") = " + fmt(a) + " + " + fmt(b) + " * " + x + " + " + fmt(c) + " * " + x + "**2"
  {
    var fa, fb, fc := fmt(a), fmt(b), fmt(c);
    TermsOfQuadratic(fa, fb, fc, x);
    PolynomialStringSnoc(name, x, fmt, [], a);
    assert [] + [a] == [a];
    var s1 := PolynomialString(name, x, fmt, [a]);
    assert s1 == name + "(" + x + ") =" + " " + fa;
    PolynomialStringSnoc(name, x, fmt, [a], b);
    assert [a] + [b] == [a, b];
    var s2 := PolynomialString(name, x, fmt, [a, b]);
    assert s2 == s1 + " " + ("+ " + fb + " * " + x);
    PolynomialStringSnoc(name, x, fmt, [a, b], c);
    assert [a, b] + [c] == [a, b, c];
    assert PolynomialString(name, x, fmt, [a, b, c]) == s2 + " " + ("+ " + fc + " * " + x + "**2");
  }

  lemma TermsOfQuadratic(a: string, b: string, c: string, x: string)
    ensures Term(0, a, x) == a
    ensures Term(1, b, x) == "+ " + b + " * " + x
    ensures Term(2, c, x) == "+ " + c + " * " + x + "**2"
  {
    assert [] + [a] + [] == [a];
    JoinThree("+", b, "* " + x);
    assert ["+"] + [b] + ["* " + x] == ["+", b, "* " + x];
    assert Decimal.Digits(2) == "2";
    assert "* " + x + "**" + "2" == "* " + x + "**2";
    JoinThree("+", c, "* " + x + "**2");
    assert ["+"] + [c] + ["* " + x + "**" + Decimal.Digits(2)] == ["+", c, "* " + x + "**2"];
  }
}

=== FILE: seqs.dfy ===
/** Sequence helpers shared by the numeric reductions: sums, extrema,
    sorting by a key and the pair enumeration of `itertools.combinations`. */
module Seqs {

  /** The sum of a sequence of reals (Python `sum`, exactly). */
  function Sum(s: seq<real>): real
  {
    if |s| == 0 then 0.0 else s[0] + Sum(s[1..])
  }

  /** Summing a concatenation sums the parts. */
  lemma {:induction false} SumAppend(a: seq<real>, b: seq<real>)
    ensures Sum(a + b) == Sum(a) + Sum(b)
  {
    if |a| == 0 {
      assert a + b == b;
    } else {
      assert (a + b)[1..] == a[1..] + b;
      SumAppend(a[1..], b);
    }
  }

  /** Removing the element at index `k` takes it out of the sum. */
  lemma SumRemove(s: seq<real>, k: nat)
    requires k < |s|
    ensures Sum(s) == s[k] + Sum(s[..k] + s[k + 1..])
  {
    var p, q := s[..k], s[k + 1..];
    var t := [s[k]] + q;
    SplitAt(s, k);
    SumAppend(p, t);
    SumAppend(p, q);
    SumCons(s[k], q);
  }

  lemma SumCons(x: real, q: seq<real>)
    ensures Sum([x] + q) == x + Sum(q)
  {
    assert ([x] + q)[1..] == q;
  }

  /** The sum depends only on the multiset of the elements, so reordering
      (for instance sorting) a column does not change its sum. */
  lemma {:induction false} SumPermutation(a: seq<real>, b: seq<real>)
    requires multiset(a) == multiset(b)
    ensures Sum(a) == Sum(b)
    decreases |a|
  {
    if |a| == 0 {
      assert |b| == |multiset(b)| == 0;
    } else {
      assert a[0] in multiset(b);
      var k :| 0 <= k < |b| && b[k] == a[0];
      MultisetRemove(a, b, k);
      SumPermutation(a[1..], b[..k] + b[k + 1..]);
      SumRemove(b, k);
    }
  }

  /** A sum of `n` values, each at least `lo` and at most `hi`, lies
      between `n * lo` and `n * hi`. */
  lemma {:induction false} SumBounds(s: seq<real>, lo: real, hi: real)
    requires forall i :: 0 <= i < |s| ==> lo <= s[i] <= hi
    ensures |s| as real * lo <= Sum(s) <= |s| as real * hi
  {
    if |s| > 0 {
      SumBounds(s[1..], lo, hi);
    }
  }

  /** `f` applied to every element, in order. */
  function MapSeq(s: seq<real>, f: real -> real): (r: seq<real>)
    ensures |r| == |s| && forall i :: 0 <= i < |s| ==> r[i] == f(s[i])
  {
    if |s| == 0 then [] else [f(s[0])] + MapSeq(s[1..], f)
  }

  /** Mapping a concatenation maps the parts. */
  lemma {:induction false} MapSeqAppend(a: seq<real>, b: seq<real>, f: real -> real)
    ensures MapSeq(a + b, f) == MapSeq(a, f) + MapSeq(b, f)
    decreases |a|
  {
    if |a| > 0 {
      assert (a + b)[1..] == a[1..] + b;
      MapSeqAppend(a[1..], b, f);
    } else {
      assert a + b == b;
    }
  }

  /** Taking out the element at `k` takes its image out of the mapped
      multiset. */
  lemma MapSeqRemove(b: seq<real>, k: nat, f: real -> real)
    requires k < |b|
    ensures multiset(MapSeq(b, f)) == multiset{f(b[k])} + multiset(MapSeq(b[..k] + b[k + 1..], f))
  {
    SplitAt(b, k);
    MapSeqMiddle(b[..k], b[k], b[k + 1..], f);
  }

  /** A sequence is its prefix, its element at `k` and its suffix. */
  lemma SplitAt<T>(b: seq<T>, k: nat)
    requires k < |b|
    ensures b == b[..k] + ([b[k]] + b[k + 1..])
  {
    assert b[k..] == [b[k]] + b[k + 1..];
    assert b == b[..k] + b[k..];
  }

  lemma MapSeqMiddle(lo: seq<real>, x: real, hi: seq<real>, f: real -> real)
    ensures multiset(MapSeq(lo + ([x] + hi), f)) == multiset{f(x)} + multiset(MapSeq(lo + hi, f))
  {
    MapSeqAppend(lo, [x] + hi, f);
    MapSeqCons(x, hi, f);
    MapSeqAppend(lo, hi, f);
    MultisetMiddle(MapSeq(lo, f), f(x), MapSeq(hi, f));
  }

  lemma MapSeqCons(x: real, q: seq<real>, f: real -> real)
    ensures MapSeq([x] + q, f) == [f(x)] + MapSeq(q, f)
  {
    assert ([x] + q)[1..] == q;
  }

  lemma MultisetMiddle(l: seq<real>, y: real, r: seq<real>)
    ensures multiset(l + ([y] + r)) == multiset{y} + multiset(l + r)
  {
  }

  /** Removing matching elements from equal multisets leaves equal
      multisets. */
  lemma MultisetRemove(a: seq<real>, b: seq<real>, k: nat)
    requires multiset(a) == multiset(b) && |a| > 0 && k < |b| && b[k] == a[0]
    ensures multiset(a[1..]) == multiset(b[..k] + b[k + 1..])
  {
    var lo, hi := b[..k], b[k + 1..];
    SplitAt(b, k);
    assert multiset(b) == multiset(lo) + multiset{b[k]} + multiset(hi);
    assert a == [a[0]] + a[1..];
    assert multiset(a[1..]) == multiset(a) - multiset{a[0]};
  }

  /** Mapping commutes with reordering: permuted inputs give permuted
      outputs. */
  lemma {:induction false} MapPermutation(a: seq<real>, b: seq<real>, f: real -> real)
    requires multiset(a) == multiset(b)
    ensures multiset(MapSeq(a, f)) == multiset(MapSeq(b, f))
    decreases |a|
  {
    if |a| == 0 {
      assert |b| == |multiset(b)| == 0;
    } else {
      assert a[0] in multiset(b);
      var k :| 0 <= k < |b| && b[k] == a[0];
      MultisetRemove(a, b, k);
      MapPermutation(a[1..], b[..k] + b[k + 1..], f);
      MapSeqRemove(b, k, f);
      MapSeqRemove(a, 0, f);
      assert a[..0] + a[1..] == a[1..];
    }
  }

  /** The least element of a non-empty sequence (Python `min`). */
  function Min(s: seq<real>): (m: real)
    requires |s| > 0
    ensures m in s
    ensures forall i :: 0 <= i < |s| ==> m <= s[i]
  {
    if |s| == 1 then s[0]
    else
      var m := Min(s[1..]);
      assert forall i :: 1 <= i < |s| ==> s[i] == s[1..][i - 1];
      if s[0] <= m then s[0] else m
  }

  /** The greatest element of a non-empty sequence (Python `max`). */
  function Max(s: seq<real>): (m: real)
    requires |s| > 0
    ensures m in s
    ensures forall i :: 0 <= i < |s| ==> s[i] <= m
  {
    if |s| == 1 then s[0]
    else
      var m := Max(s[1..]);
      assert forall i :: 1 <= i < |s| ==> s[i] == s[1..][i - 1];
      if s[0] >= m then s[0] else m
  }

  /** The arithmetic mean of a non-empty sequence (`sum(s) / len(s)`),
      which always lies between its least and greatest element. */
  function Mean(s: seq<real>): (m: real)
    requires |s| > 0
    ensures Min(s) <= m <= Max(s)
  {
    MeanBounds(s);
    Sum(s) / |s| as real
  }

  lemma MeanBounds(s: seq<real>)
    requires |s| > 0
    ensures Min(s) <= Sum(s) / |s| as real <= Max(s)
  {
    MeanBetween(s, Min(s), Max(s));
  }

  lemma MeanBetween(s: seq<real>, lo: real, hi: real)
    requires |s| > 0 && forall i :: 0 <= i < |s| ==> lo <= s[i] <= hi
    ensures lo <= Sum(s) / |s| as real <= hi
  {
    SumBounds(s, lo, hi);
    QuotientBounds(Sum(s), |s| as real, lo, hi);
  }

  /** Dividing a value between `n * lo` and `n * hi` by `n > 0`. */
  lemma QuotientBounds(x: real, n: real, lo: real, hi: real)
    requires n > 0.0
    requires n * lo <= x <= n * hi
    ensures lo <= x / n <= hi
  {
    assert (x / n) * n == x;
  }

  /** The squared deviation of `x` from `m`, never negative. */
  function SquaredDeviation(x: real, m: real): (r: real)
    ensures r >= 0.0
  {
    (x - m) * (x - m)
  }

  /** The population variance (`numpy.var`, `ddof=0`): the mean squared
      deviation from the mean. */
  function Variance(s: seq<real>): (v: real)
    requires |s| > 0
    ensures v >= 0.0
  {
    var m := Mean(s);
    var sq := MapSeq(s, x => SquaredDeviation(x, m));
    assert Min(sq) in sq;
    Mean(sq)
  }

  /** Values that are all the same have mean equal to that value and no
      spread. */
  lemma VarianceOfConstant(s: seq<real>)
    requires |s| > 0 && forall i :: 0 <= i < |s| ==> s[i] == s[0]
    ensures Mean(s) == s[0] && Variance(s) == 0.0
  {
    assert Min(s) in s && Max(s) in s;
    var m := Mean(s);
    var sq := MapSeq(s, x => SquaredDeviation(x, m));
    assert forall i :: 0 <= i < |sq| ==> sq[i] == 0.0;
    assert Min(sq) in sq && Max(sq) in sq;
  }

  /** Mean and variance depend only on the multiset of the values. */
  lemma MeanVariancePermutation(a: seq<real>, b: seq<real>)
    requires |a| > 0 && multiset(a) == multiset(b)
    ensures |b| == |a|
    ensures Mean(a) == Mean(b) && Variance(a) == Variance(b)
  {
    assert |a| == |multiset(a)| == |multiset(b)| == |b|;
    SumPermutation(a, b);
    var m := Mean(a);
    var f := x => SquaredDeviation(x, m);
    MapPermutation(a, b, f);
    SumPermutation(MapSeq(a, f), MapSeq(b, f));
  }

  /** The least and greatest element depend only on the multiset of the
      values. */
  lemma MinMaxPermutation(a: seq<real>, b: seq<real>)
    requires |a| > 0 && multiset(a) == multiset(b)
    ensures |b| > 0 && Min(a) == Min(b) && Max(a) == Max(b)
  {
    assert |a| == |multiset(a)| == |multiset(b)| == |b|;
    assert Min(a) in multiset(b) && Max(a) in multiset(b);
    assert Min(b) in multiset(a) && Max(b) in multiset(a);
  }

  /** Half the spread of a non-empty sequence, `(max - min) / 2`. */
  function HalfRange(s: seq<real>): (h: real)
    requires |s| > 0
    ensures h >= 0.0
    ensures forall i, j :: 0 <= i < |s| && 0 <= j < |s| ==> s[i] - s[j] <= 2.0 * h
  {
    (Max(s) - Min(s)) / 2.0
  }

  /** True when the keys of `s` never decrease. */
  ghost predicate SortedBy<T>(s: seq<T>, key: T -> real)
  {
    forall i, j :: 0 <= i < j < |s| ==> key(s[i]) <= key(s[j])
  }

  /** Inserts `x` into a sequence already sorted by `key`. */
  function Insert<T>(x: T, s: seq<T>, key: T -> real): (r: seq<T>)
    ensures multiset(r) == multiset(s) + multiset{x}
    ensures |r| == |s| + 1
  {
    if |s| == 0 then [x]
    else if key(x) <= key(s[0]) then [x] + s
    else
      assert s == [s[0]] + s[1..];
      [s[0]] + Insert(x, s[1..], key)
  }

  /** Inserting into a sorted sequence keeps it sorted. */
  lemma {:induction false} InsertSorted<T>(x: T, s: seq<T>, key: T -> real)
    requires SortedBy(s, key)
    ensures SortedBy(Insert(x, s, key), key)
  {
    if |s| > 0 && key(x) > key(s[0]) {
      var tail := Insert(x, s[1..], key);
      InsertSorted(x, s[1..], key);
      InsertLowerBound(x, s[1..], key, key(s[0]));
      assert Insert(x, s, key) == [s[0]] + tail;
      ConsSorted(s[0], tail, key);
    }
  }

  /** A head no larger than any element of a sorted tail gives a sorted
      sequence. */
  lemma ConsSorted<T>(h: T, tail: seq<T>, key: T -> real)
    requires SortedBy(tail, key) && forall i :: 0 <= i < |tail| ==> key(h) <= key(tail[i])
    ensures SortedBy([h] + tail, key)
  {
    var r := [h] + tail;
    forall i, j | 0 <= i < j < |r|
      ensures key(r[i]) <= key(r[j])
    {
      if i > 0 {
        assert r[i] == tail[i - 1] && r[j] == tail[j - 1];
      } else {
        assert r[j] == tail[j - 1];
      }
    }
  }

  /** A lower bound on the keys of `x` and of `s` bounds the keys after
      insertion. */
  lemma {:induction false} InsertLowerBound<T>(x: T, s: seq<T>, key: T -> real, b: real)
    requires key(x) >= b && forall i :: 0 <= i < |s| ==> key(s[i]) >= b
    ensures forall i :: 0 <= i < |Insert(x, s, key)| ==> key(Insert(x, s, key)[i]) >= b
  {
    var r := Insert(x, s, key);
    if |s| > 0 && key(x) > key(s[0]) {
      var tail := Insert(x, s[1..], key);
      InsertLowerBound(x, s[1..], key, b);
      assert r == [s[0]] + tail;
      forall i | 0 <= i < |r|
        ensures key(r[i]) >= b
      {
        if i > 0 {
          assert r[i] == tail[i - 1];
        }
      }
    } else {
      assert r == [x] + s;
      forall i | 0 <= i < |r|
        ensures key(r[i]) >= b
      {
        if i > 0 {
          assert r[i] == s[i - 1];
        }
      }
    }
  }

  /** Sorts by `key` (insertion sort): the result is ordered and is a
      permutation of the input. */
  function SortBy<T>(s: seq<T>, key: T -> real): (r: seq<T>)
    ensures SortedBy(r, key)
    ensures multiset(r) == multiset(s)
    ensures |r| == |s|
  {
    if |s| == 0 then []
    else
      assert s == [s[0]] + s[1..];
      InsertSorted(s[0], SortBy(s[1..], key), key);
      Insert(s[0], SortBy(s[1..], key), key)
  }

  function Identity(x: real): real { x }

  /** A column of reals sorted ascending (`numpy.sort` of one column). */
  function SortReals(s: seq<real>): (r: seq<real>)
    ensures forall i, j :: 0 <= i < j < |r| ==> r[i] <= r[j]
    ensures multiset(r) == multiset(s)
  {
    var r := SortBy(s, Identity);
    assert forall i, j :: 0 <= i < j < |r| ==> Identity(r[i]) <= Identity(r[j]);
    r
  }

  /** The index pairs `(i, j)`, `i < j < n`, for a fixed first index `i`,
      in the order `itertools.combinations` yields them. */
  function PairsWith(i: nat, j: nat, n: nat): (r: seq<(nat, nat)>)
    requires i < j <= n
    ensures |r| == n - j
    ensures forall k :: 0 <= k < |r| ==> r[k] == (i, j + k)
    decreases n - j
  {
    if j == n then [] else [(i, j)] + PairsWith(i, j + 1, n)
  }

  /** The pairs `(i, j)` with `start <= i < j < n` in lexicographic order. */
  function PairsFrom(start: nat, n: nat): seq<(nat, nat)>
    requires start <= n
    decreases n - start
  {
    if start + 1 >= n then []
    else PairsWith(start, start + 1, n) + PairsFrom(start + 1, n)
  }

  /** `itertools.combinations(range(n), 2)`. */
  function Pairs(n: nat): seq<(nat, nat)>
  {
    PairsFrom(0, n)
  }

  /** Exactly the ordered index pairs `start <= i < j < n` are enumerated,
      and there are `C(n - start, 2)` of them. */
  lemma PairsFromSpec(start: nat, n: nat)
    requires start <= n
    ensures 2 * |PairsFrom(start, n)| == (n - start) * (n - start - 1)
    ensures forall p :: p in PairsFrom(start, n) <==> start <= p.0 < p.1 < n
  {
    PairsFromLength(start, n);
    PairsFromMembers(start, n);
  }

  lemma {:induction false} PairsFromLength(start: nat, n: nat)
    requires start <= n
    ensures 2 * |PairsFrom(start, n)| == (n - start) * (n - start - 1)
    decreases n - start
  {
    if start + 1 < n {
      PairsFromLength(start + 1, n);
      var m := n - start;
      assert |PairsFrom(start, n)| == (m - 1) + |PairsFrom(start + 1, n)|;
      assert 2 * |PairsFrom(start + 1, n)| == (m - 1) * (m - 2);
      assert 2 * (m - 1) + (m - 1) * (m - 2) == m * (m - 1);
    } else if start < n {
      assert n - start - 1 == 0;
    }
  }

  lemma {:induction false} PairsFromMembers(start: nat, n: nat)
    requires start <= n
    ensures forall p :: p in PairsFrom(start, n) <==> start <= p.0 < p.1 < n
    decreases n - start
  {
    if start + 1 < n {
      PairsFromMembers(start + 1, n);
      var w := PairsWith(start, start + 1, n);
      assert PairsFrom(start, n) == w + PairsFrom(start + 1, n);
      forall p
        ensures p in PairsFrom(start, n) <==> start <= p.0 < p.1 < n
      {
        if p in w {
          var k :| 0 <= k < |w| && w[k] == p;
        }
        if start <= p.0 < p.1 < n && p.0 == start {
          assert w[p.1 - start - 1] == p;
        }
      }
    }
  }

  /** `combinations(range(n), 2)` yields `n (n - 1) / 2` pairs, each an
      ordered pair of distinct indices below `n`. */
  lemma PairsSpec(n: nat)
    ensures 2 * |Pairs(n)| == n * (n - 1)
    ensures forall p :: p in Pairs(n) <==> p.0 < p.1 < n
  {
    PairsFromSpec(0, n);
  }

  /** Every non-empty finite set of integers has a least element. */
  lemma {:induction false} MinExists(s: set<int>)
    requires s != {}
    ensures exists m :: m in s && forall x :: x in s ==> m <= x
    decreases |s|
  {
    var y := PickOne(s);
    var rest := s - {y};
    if rest == {} {
      forall x | x in s
        ensures y <= x
      {
        assert x !in rest;
      }
    } else {
      MinExists(rest);
      var m :| m in rest && forall x :: x in rest ==> m <= x;
      MinOfOneMore(s, y, rest, m);
    }
  }

  /** The least of `y` and the least element of the rest is least in the
      whole set. */
  lemma MinOfOneMore(s: set<int>, y: int, rest: set<int>, m: int)
    requires y in s && rest == s - {y}
    requires m in rest && forall x :: x in rest ==> m <= x
    ensures var least := if y < m then y else m;
            least in s && forall x :: x in s ==> least <= x
  {
    var least := if y < m then y else m;
    forall x | x in s
      ensures least <= x
    {
      if x != y {
        assert x in rest;
      }
    }
  }

  /** Some element of a non-empty set. */
  lemma PickOne(s: set<int>) returns (y: int)
    requires s != {}
    ensures y in s
  {
    assert (forall x :: x !in s) ==> s == {};
    y :| y in s;
  }

  /** The least element of a non-empty set of integers. */
  function SetMin(s: set<int>): (m: int)
    requires s != {}
    ensures m in s && forall x :: x in s ==> m <= x
  {
    MinExists(s);
    var m :| m in s && forall x :: x in s ==> m <= x;
    m
  }

  /** `sorted(keys)` for a set of integer keys: strictly ascending, and
      holding exactly the keys. */
  function SortedInts(s: set<int>): (r: seq<int>)
    ensures |r| == |s|
    ensures forall x :: x in r <==> x in s
    ensures forall i, j :: 0 <= i < j < |r| ==> r[i] < r[j]
    decreases |s|
  {
    if s == {} then []
    else
      var m := SetMin(s);
      var rest := SortedInts(s - {m});
      SortedIntsCons(s, m, rest);
      [m] + rest
  }

  lemma SortedIntsCons(s: set<int>, m: int, rest: seq<int>)
    requires m in s && forall x :: x in s ==> m <= x
    requires |rest| == |s - {m}|
    requires forall x :: x in rest <==> x in s - {m}
    requires forall i, j :: 0 <= i < j < |rest| ==> rest[i] < rest[j]
    ensures |[m] + rest| == |s|
    ensures forall x :: x in [m] + rest <==> x in s
    ensures forall i, j :: 0 <= i < j < |[m] + rest| ==> ([m] + rest)[i] < ([m] + rest)[j]
  {
    var r := [m] + rest;
    forall i, j | 0 <= i < j < |r|
      ensures r[i] < r[j]
    {
      if i == 0 {
        assert r[j] == rest[j - 1] && rest[j - 1] in rest;
        assert r[j] in s - {m};
      } else {
        assert r[i] == rest[i - 1] && r[j] == rest[j - 1];
      }
    }
  }

  /** The greatest element of a non-empty set of integers: the last of its
      sorted elements. */
  function SetMax(s: set<int>): (m: int)
    requires s != {}
    ensures m in s && forall x :: x in s ==> x <= m
  {
    var r := SortedInts(s);
    assert r != [] by {
      var y := PickOne(s);
      assert y in r;
    }
    forall x | x in s
      ensures x <= r[|r| - 1]
    {
      var j :| 0 <= j < |r| && r[j] == x;
      if j < |r| - 1 {
        assert r[j] < r[|r| - 1];
      }
    }
    r[|r| - 1]
  }
}

=== FILE: structs.dfy ===
/** The shared value-with-tolerance record (`common/structs.py`). */
module Structs {

  /** A mid estimate with the largest and smallest plausible values. */
  datatype MidPlusMinus = MidPlusMinus(mid: real, max: real, min: real)
  {
    /** How far the largest value is above the mid value. */
    function Plus(): (p: real)
      ensures mid + p == max
    {
      max - mid
    }

    /** How far the smallest value is from the mid value, signed: negative
        when the smallest value is below the mid value. */
    function Minus(): (m: real)
      ensures mid + m == min
    {
      min - mid
    }

    /** Half the spread between the largest and smallest values. */
    function Tolerance(): (t: real)
      ensures 2.0 * t == Plus() - Minus()
    {
      (max - min) / 2.0
    }

    ghost predicate Ordered()
    {
      min <= mid <= max
    }
  }

  /** For an ordered triple the plus part is not negative, the minus part
      not positive, and the tolerance not negative and no larger than the
      bigger of the two parts. */
  lemma OrderedSigns(m: MidPlusMinus)
    requires m.Ordered()
    ensures m.Plus() >= 0.0 && m.Minus() <= 0.0 && m.Tolerance() >= 0.0
    ensures m.Tolerance() <= m.Plus() || m.Tolerance() <= -m.Minus()
  {
  }

  /** `str(mid_plus_minus)`: `'{:f} +{:f}/-{:f}'` of mid, plus and minus,
      with the number formatting as a parameter. */
  function Str(m: MidPlusMinus, fmt: real -> string): (s: string)
    ensures |s| == |fmt(m.mid)| + 2 + |fmt(m.Plus())| + 2 + |fmt(m.Minus())|
    ensures s[..|fmt(m.mid)|] == fmt(m.mid)
    ensures var a := |fmt(m.mid)|; var b := a + 2 + |fmt(m.Plus())|;
            s[a..a + 2] == " +" && s[a + 2..b] == fmt(m.Plus()) && s[b..b + 2] == "/-"
    ensures s[|fmt(m.mid)| + 2 + |fmt(m.Plus())| + 2..] == fmt(m.Minus())
  {
    fmt(m.mid) + " +" + fmt(m.Plus()) + "/-" + fmt(m.Minus())
  }

  /** The minus part is already signed, so a negative minus part that
      formats with its sign shows up as `--`. */
  lemma StrDoubleMinus(m: MidPlusMinus, fmt: real -> string)
    requires |fmt(m.Minus())| > 0 && fmt(m.Minus())[0] == '-'
    ensures var k := |fmt(m.mid)| + 2 + |fmt(m.Plus())|;
            Str(m, fmt)[k..k + 3] == "/--"
  {
    var k := |fmt(m.mid)| + 2 + |fmt(m.Plus())|;
    var s := Str(m, fmt);
    assert s == (fmt(m.mid) + " +" + fmt(m.Plus())) + "/-" + fmt(m.Minus());
    assert s[k] == '/' && s[k + 1] == '-' && s[k + 2] == '-';
  }

  /** The evidently intended rendering: the magnitude of the minus part
      after the `-`. */
  function StrCorrected(m: MidPlusMinus, fmt: real -> string): (s: string)
    ensures |s| == |fmt(m.mid)| + 2 + |fmt(m.Plus())| + 2 + |fmt(-m.Minus())|
    ensures s[..|fmt(m.mid)|] == fmt(m.mid)
    ensures var a := |fmt(m.mid)|; var b := a + 2 + |fmt(m.Plus())|;
            s[a..a + 2] == " +" && s[a + 2..b] == fmt(m.Plus()) && s[b..b + 2] == "/-"
    ensures s[|fmt(m.mid)| + 2 + |fmt(m.Plus())| + 2..] == fmt(-m.Minus())
  {
    fmt(m.mid) + " +" + fmt(m.Plus()) + "/-" + fmt(-m.Minus())
  }

  /** When non-negative numbers format without a leading `-`, an ordered
      triple never renders a doubled `-`. */
  lemma StrCorrectedSingleMinus(m: MidPlusMinus, fmt: real -> string)
    requires m.Ordered()
    requires forall x :: x >= 0.0 ==> |fmt(x)| > 0 && fmt(x)[0] != '-'
    ensures var k := |fmt(m.mid)| + 2 + |fmt(m.Plus())|;
            StrCorrected(m, fmt)[k..k + 2] == "/-" && StrCorrected(m, fmt)[k + 2] != '-'
  {
    var k := |fmt(m.mid)| + 2 + |fmt(m.Plus())|;
    var s := StrCorrected(m, fmt);
    assert s == (fmt(m.mid) + " +" + fmt(m.Plus())) + "/-" + fmt(-m.Minus());
    OrderedSigns(m);
    assert s[k + 2] == fmt(-m.Minus())[0];
  }
}

=== FILE: tiles.dfy ===
/** The seven overlapping map tiles of the AN-24 analysis (`data/tiles.py`):
    the tie points seen on each pair of neighbouring tiles, the offsets
    derived from them, and the runway threshold carried onto every tile. */
module Tiles {
  import opened Outcomes
  import opened MapFuncs

  /** `TILE_FILES.keys()`: tiles 1 to 7. */
  predicate IsTile(k: int)
  {
    1 <= k <= 7
  }

  /** Under key `(k, k + 1)`: the pixel of one feature on tile `k` and
      its pixel on tile `k + 1`. */
  type TiePoints = map<(int, int), (Point, Point)>

  /** `TILE_TIE_POINTS`. */
  function TileTiePoints(): TiePoints
  {
    map[
      (1, 2) := (Point(141.0, 1217.0), Point(952.0, 179.0)),
      (2, 3) := (Point(532.0, 1171.0), Point(1220.0, 239.0)),
      (3, 4) := (Point(1189.0, 1212.0), Point(1854.0, 312.0)),
      (4, 5) := (Point(856.0, 1034.0), Point(1577.0, 182.0)),
      (5, 6) := (Point(1137.0, 1254.0), Point(1952.0, 245.0)),
      (6, 7) := (Point(1120.0, 1118.0), Point(1663.0, 375.0))
    ]
  }

  /** The tie points link exactly the consecutive tiles (k, k + 1) for k
      from 1 to 6. */
  lemma TileTiePointsKeys()
    ensures forall key :: key in TileTiePoints() <==> IsTile(key.0) && IsTile(key.1) && key.1 == key.0 + 1
  {
  }

  /** `init_tile_offsets()` over any tie points: each key's offset is the
      first pixel minus the second, componentwise. */
  function InitTileOffsets(ties: TiePoints): (offs: Offsets)
    ensures offs.Keys == ties.Keys
    ensures forall key :: key in ties ==>
              offs[key].x == ties[key].0.x - ties[key].1.x && offs[key].y == ties[key].0.y - ties[key].1.y
  {
    map key | key in ties :: Distance(ties[key].0.x - ties[key].1.x, ties[key].0.y - ties[key].1.y)
  }

  /** A tie point moved from its tile to the next one lands on its partner,
      and its partner moved back lands on it. */
  lemma TiePointMovesToPartner(ties: TiePoints, k: int)
    requires (k, k + 1) in ties
    ensures PointTileToTile(k, ties[(k, k + 1)].0, k + 1, InitTileOffsets(ties)) == Ok(ties[(k, k + 1)].1)
    ensures PointTileToTile(k + 1, ties[(k, k + 1)].1, k, InitTileOffsets(ties)) == Ok(ties[(k, k + 1)].0)
  {
    var offs := InitTileOffsets(ties);
    assert Chain(offs, k + 1, k + 1) == Ok(Zero);
    assert Chain(offs, k, k + 1) == Ok(offs[(k, k + 1)].Plus(Zero));
  }

  /** `TILE_OFFSETS`. */
  function TileOffsets(): Offsets
  {
    InitTileOffsets(TileTiePoints())
  }

  /** Any two tiles are connected through the offsets. */
  lemma TileOffsetsConnected(a: int, b: int)
    requires IsTile(a) && IsTile(b)
    ensures forall p :: PointTileToTile(a, p, b, TileOffsets()).Ok?
  {
    TileTiePointsKeys();
    forall k | Lo(a, b) <= k < Hi(a, b)
      ensures Linked(TileOffsets(), k)
    {
      assert (k, k + 1) in TileTiePoints();
    }
  }

  /** `RUNWAY_22_THRESHOLD_TILE_5`. */
  const Runway22ThresholdTile5: Point := Point(1597.0, 197.0)

  /** `THRESHOLD_ON_EACH_TILE`: the runway 22 threshold on every tile. */
  function ThresholdOnEachTile(): (m: map<int, Point>)
    ensures forall k :: k in m <==> IsTile(k)
    ensures 5 in m && m[5] == Runway22ThresholdTile5
    ensures forall k :: k in m ==> PointTileToTile(5, Runway22ThresholdTile5, k, TileOffsets()) == Ok(m[k])
  {
    forall k | IsTile(k)
      ensures PointTileToTile(5, Runway22ThresholdTile5, k, TileOffsets()).Ok?
    {
      TileOffsetsConnected(5, k);
    }
    map k | 1 <= k <= 7 :: PointTileToTile(5, Runway22ThresholdTile5, k, TileOffsets()).value
  }

  /** The thresholds on different tiles are images of each other. */
  lemma ThresholdsAgree(a: int, b: int)
    requires IsTile(a) && IsTile(b)
    ensures PointTileToTile(a, ThresholdOnEachTile()[a], b, TileOffsets()) == Ok(ThresholdOnEachTile()[b])
  {
    var m := ThresholdOnEachTile();
    TileOffsetsConnected(a, b);
    PointTileToTileRoundTrip(5, Runway22ThresholdTile5, a, TileOffsets());
    PointTileToTileComposes(a, m[a], 5, b, TileOffsets());
  }

  /** On tile 4 the threshold is 721 pixels left of and 852 pixels below
      where it is on tile 5. */
  lemma ThresholdOnTile4()
    ensures ThresholdOnEachTile()[4] == Point(876.0, 1049.0)
  {
    var offs := TileOffsets();
    assert offs[(4, 5)] == Distance(-721.0, 852.0);
    assert Chain(offs, 5, 5) == Ok(Zero);
    assert Chain(offs, 4, 5) == Ok(Distance(-721.0, 852.0));
  }
}

=== FILE: video_a.dfy ===
/** The AN-24 ground track from video A (`data/video_a.py`): speeds from
    counting runway slabs, the choice between the tile-position fit and the
    slab-speed fit at each frame, and the kinematics after the aircraft
    leaves the runway. Fitted coefficients are inputs; square roots are a
    parameter. */
module VideoA {
  import opened Outcomes
  import Seqs
  import Polynomial
  import MapFuncs

  /** `FRAME_RATE`. */
  const FrameRate: int := 30

  /** `FRAME_THRESHOLD`: the frame at which the aircraft crosses the
      runway threshold. */
  const FrameThreshold: int := 827

  /** `SLAB_LENGTH` in metres and `SLAB_MEASUREMENT_ERROR`, a tenth of it. */
  const SlabLength: real := 6.0
  const SlabMeasurementError: real := SlabLength * 0.1

  /** The frames of `POSITIONS_FROM_TILES`. */
  function TileFrames(): set<int>
  {
    {1, 87, 295, 483, 555, 593, 621, 652, 704, 749, 827, 880, 888, 932, 940}
  }

  /** `max(POSITIONS_FROM_TILES.keys())`: the last frame with a tile
      position. */
  function LastTileFrame(): (f: int)
    ensures f in TileFrames() && forall k :: k in TileFrames() ==> k <= f
    ensures f == 940
  {
    var f := Seqs.SetMax(TileFrames());
    TileFramesAtMost940();
    assert 940 in TileFrames();
    f
  }

  lemma TileFramesAtMost940()
    ensures forall k :: k in TileFrames() ==> k <= 940
  {
  }

  /** `SLAB_TRANSITS`: from a start frame, the number of frames taken and
      the number of slabs passed (the source writes most durations as an
      end frame less the start frame). */
  function SlabTransits(): map<int, (int, real)>
  {
    map[
      841 := (2, 1.0), 864 := (8, 3.9), 880 := (8, 4.0), 895 := (8, 4.0), 918 := (12, 5.9),
      964 := (15, 7.0), 1016 := (15, 7.0), 1053 := (11, 5.0), 1075 := (11, 5.0),
      1106 := (9, 4.0), 1119 := (9, 4.0), 1151 := (9, 4.0), 1198 := (7, 3.0), 1222 := (5, 2.0),
      1247 := (5, 2.0), 1262 := (5, 2.0), 1293 := (8, 3.0), 1323 := (6, 2.2), 1346 := (6, 2.1),
      1370 := (3, 1.0)
    ]
  }

  /** `LAST_MEASURED_FRAME`: the end of the last slab transit. */
  function LastMeasuredFrame(transits: map<int, (int, real)>): (f: int)
    requires transits != map[]
    ensures exists k :: k in transits && f == k + transits[k].0 && forall j :: j in transits ==> j <= k
  {
    var last := Seqs.SetMax(transits.Keys);
    last + transits[last].0
  }

  /** For the recorded transits the last measured frame is 1373. */
  lemma LastMeasuredFrameIs1373()
    ensures 1370 in SlabTransits() && LastMeasuredFrame(SlabTransits()) == 1373
  {
    var t := SlabTransits();
    assert 1370 in t;
    assert forall j :: j in t ==> j <= 1370;
    var last := Seqs.SetMax(t.Keys);
    assert last == 1370;
  }

  /** A row of `SLAB_SPEEDS`: frame, time, and speed with its upper and
      lower bounds. */
  datatype SlabSpeed = SlabSpeed(frame: int, t: real, v: real, vPlus: real, vMinus: real)

  /** One row of `init_slab_speeds()`: the time at the middle of the
      transit, and the distance over the duration widened by the
      measurement error either way. A transit of no frames divides by
      zero. */
  function SlabRow(frame: int, dFrame: int, dSlab: real): (r: Result<SlabSpeed>)
    ensures r.Err? <==> dFrame == 0
    ensures r.Err? ==> r.error == ZeroDivisionError
    ensures r.Ok? ==> r.value.frame == frame
    ensures r.Ok? ==> r.value.t * 30.0 == frame as real + dFrame as real / 2.0 - 1.0
    ensures r.Ok? ==> r.value.v * dFrame as real == 30.0 * SlabLength * dSlab
    ensures r.Ok? ==> (r.value.vPlus - r.value.v) * dFrame as real == 30.0 * SlabMeasurementError
    ensures r.Ok? ==> (r.value.v - r.value.vMinus) * dFrame as real == 30.0 * SlabMeasurementError
    ensures r.Ok? && dFrame > 0 ==> r.value.vMinus < r.value.v < r.value.vPlus
  {
    var dx := dSlab * SlabLength;
    var t := MapFuncs.FrameToTime(frame as real + dFrame as real / 2.0, FrameRate).value;
    var dt := MapFuncs.FramesToDtime(frame as real, (frame + dFrame) as real, FrameRate).value;
    if dt == 0.0 then Err(ZeroDivisionError)
    else
      var row := SlabSpeed(frame, t, dx / dt, (dx + SlabMeasurementError) / dt, (dx - SlabMeasurementError) / dt);
      SlabRowSpeeds(dx, dt, dFrame, row);
      Ok(row)
  }

  lemma SlabRowSpeeds(dx: real, dt: real, dFrame: int, row: SlabSpeed)
    requires dt * 30.0 == dFrame as real && dt != 0.0
    requires row.v == dx / dt && row.vPlus == (dx + SlabMeasurementError) / dt && row.vMinus == (dx - SlabMeasurementError) / dt
    ensures row.v * dFrame as real == 30.0 * dx
    ensures (row.vPlus - row.v) * dFrame as real == 30.0 * SlabMeasurementError
    ensures (row.v - row.vMinus) * dFrame as real == 30.0 * SlabMeasurementError
    ensures dFrame > 0 ==> row.vMinus < row.v < row.vPlus
  {
    assert row.v * dt == dx;
    assert row.vPlus * dt == dx + SlabMeasurementError;
    assert row.vMinus * dt == dx - SlabMeasurementError;
    assert (row.vPlus - row.v) * dt == SlabMeasurementError;
    assert (row.v - row.vMinus) * dt == SlabMeasurementError;
    if dFrame > 0 {
      assert dt > 0.0;
    }
  }

  /** The rows for the frames `frames`, in order. */
  function SlabRows(frames: seq<int>, transits: map<int, (int, real)>): (r: Result<seq<SlabSpeed>>)
    requires forall i :: 0 <= i < |frames| ==> frames[i] in transits
    ensures r.Ok? <==> forall i :: 0 <= i < |frames| ==> transits[frames[i]].0 != 0
    ensures r.Err? ==> r.error == ZeroDivisionError
    ensures r.Ok? ==> |r.value| == |frames|
    ensures r.Ok? ==> forall i :: 0 <= i < |frames| ==>
              SlabRow(frames[i], transits[frames[i]].0, transits[frames[i]].1) == Ok(r.value[i])
  {
    if frames == [] then Ok([])
    else
      var first :- SlabRow(frames[0], transits[frames[0]].0, transits[frames[0]].1);
      var rest :- SlabRows(frames[1..], transits);
      assert forall i :: 1 <= i < |frames| ==> frames[1..][i - 1] == frames[i];
      Ok([first] + rest)
  }

  /** `init_slab_speeds()`: one row per slab transit in ascending frame
      order; ZeroDivisionError when a transit takes no frames. */
  function InitSlabSpeeds(transits: map<int, (int, real)>): (r: Result<seq<SlabSpeed>>)
    ensures r.Ok? <==> forall f :: f in transits ==> transits[f].0 != 0
    ensures r.Err? ==> r.error == ZeroDivisionError
    ensures r.Ok? ==> |r.value| == |transits|
    ensures r.Ok? ==> forall i, j :: 0 <= i < j < |r.value| ==> r.value[i].frame < r.value[j].frame
    ensures r.Ok? ==> forall i :: 0 <= i < |r.value| ==>
              r.value[i].frame in transits &&
              SlabRow(r.value[i].frame, transits[r.value[i].frame].0, transits[r.value[i].frame].1) == Ok(r.value[i])
  {
    var frames := Seqs.SortedInts(transits.Keys);
    SlabRowsOfSortedFrames(frames, transits);
    SlabRows(frames, transits)
  }

  /** The rows of the sorted start frames meet the contract of
      `InitSlabSpeeds`. */
  lemma SlabRowsOfSortedFrames(frames: seq<int>, transits: map<int, (int, real)>)
    requires |frames| == |transits|
    requires forall x :: x in frames <==> x in transits
    requires forall i, j :: 0 <= i < j < |frames| ==> frames[i] < frames[j]
    ensures forall i :: 0 <= i < |frames| ==> frames[i] in transits
    ensures var r := SlabRows(frames, transits);
            (r.Ok? <==> forall f :: f in transits ==> transits[f].0 != 0) &&
            (r.Ok? ==> forall i :: 0 <= i < |r.value| ==> r.value[i].frame == frames[i])
  {
    assert forall i :: 0 <= i < |frames| ==> frames[i] in frames;
    var r := SlabRows(frames, transits);
    if r.Ok? {
      forall i | 0 <= i < |r.value|
        ensures r.value[i].frame == frames[i]
      {
        assert SlabRow(frames[i], transits[frames[i]].0, transits[frames[i]].1) == Ok(r.value[i]);
      }
    } else {
      var i :| 0 <= i < |frames| && transits[frames[i]].0 == 0;
    }
  }

  /** When every transit takes a positive number of frames the speeds
      exist and each lies strictly between its bounds. */
  lemma SlabSpeedsBracketed(transits: map<int, (int, real)>)
    requires forall f :: f in transits ==> transits[f].0 > 0
    ensures InitSlabSpeeds(transits).Ok?
    ensures var rows := InitSlabSpeeds(transits).value;
            forall i :: 0 <= i < |rows| ==> rows[i].vMinus < rows[i].v < rows[i].vPlus
  {
    var rows := InitSlabSpeeds(transits).value;
    forall i | 0 <= i < |rows|
      ensures rows[i].vMinus < rows[i].v < rows[i].vPlus
    {
      var f := rows[i].frame;
      assert SlabRow(f, transits[f].0, transits[f].1) == Ok(rows[i]);
    }
  }

  /** Every recorded transit takes at least one frame. */
  lemma RecordedTransitsPositive()
    ensures forall f :: f in SlabTransits() ==> SlabTransits()[f].0 > 0
  {
  }

  // ---------------------------------------------------------------------
  // Distance and speed from the fits

  /** A cubic fit: four coefficients from the constant term up. */
  type Cubic = c: seq<real> | |c| == 4 witness [0.0, 0.0, 0.0, 0.0]

  /** The fits for the mid value and the upper and lower bounds
      (`'d'`, `'d+'`, `'d-'` or `'v'`, `'v+'`, `'v-'`). */
  datatype Fits = Fits(mid: Cubic, plus: Cubic, minus: Cubic)

  /** A value with its upper and lower bounds. */
  datatype Triple = Triple(mid: real, plus: real, minus: real)

  /** `frame_to_time(frame)` of video A. */
  function Time(frame: int): (t: real)
    ensures t * 30.0 == frame as real - 1.0
  {
    MapFuncs.FrameToTime(frame as real, FrameRate).value
  }

  /** The time of the threshold crossing. */
  function ThresholdTime(): real
  {
    Time(FrameThreshold)
  }

  /** The tile fits are distances: distance is the fit, speed its
      derivative. */
  function TileDistance(t: real, fit: Cubic): real
  {
    Polynomial.PowerSum(fit, t)
  }

  function TileSpeed(t: real, fit: Cubic): real
  {
    Polynomial.PowerSum(Polynomial.DiffCoeffs(fit), t)
  }

  /** The slab fits are speeds: speed is the fit, distance its integral
      from the threshold time. */
  function SlabSpeedAt(t: real, fit: Cubic): real
  {
    Polynomial.PowerSum(fit, t)
  }

  function SlabDistance(t: real, fit: Cubic): (d: real)
    ensures t == ThresholdTime() ==> d == 0.0
  {
    Polynomial.PowerSum(Polynomial.IntCoeffs(fit), t) - Polynomial.PowerSum(Polynomial.IntCoeffs(fit), ThresholdTime())
  }

  /** The coefficients of the slab distance: the integral of the speed
      fit with the constant term chosen so that it vanishes at the
      threshold. */
  function SlabDistanceCoeffs(fit: Cubic): (q: seq<real>)
    ensures |q| == 5
  {
    var ic := Polynomial.IntCoeffs(fit);
    [-Polynomial.PowerSum(ic, ThresholdTime())] + ic[1..]
  }

  /** The slab distance is the quartic of its coefficients. */
  lemma SlabDistanceIsQuartic(fit: Cubic, t: real)
    ensures SlabDistance(t, fit) == Polynomial.PowerSum(SlabDistanceCoeffs(fit), t)
  {
    var ic := Polynomial.IntCoeffs(fit);
    var q := SlabDistanceCoeffs(fit);
    Polynomial.PowerSumCons(q, t);
    Polynomial.PowerSumCons(ic, t);
    assert q[1..] == ic[1..];
  }

  /** Differentiating the slab distance gives back the slab speed fit. */
  lemma SlabDistanceDifferentiates(fit: Cubic)
    ensures Polynomial.DiffCoeffs(SlabDistanceCoeffs(fit)) == fit
  {
    var ic := Polynomial.IntCoeffs(fit);
    Polynomial.DiffOfIntCoeffs(fit);
    Polynomial.DiffIgnoresConstant(ic, -Polynomial.PowerSum(ic, ThresholdTime()));
  }

  /** The branch choice shared by `_compute_distance` and
      `_compute_speed`: up to the threshold only the tile fits, after the
      last tile position only the slab fits, and in between the average
      of the two. */
  function Choose(frame: int, tile: Triple, slab: Triple): (r: Triple)
    ensures frame <= FrameThreshold ==> r == tile
    ensures frame > LastTileFrame() ==> r == slab
    ensures FrameThreshold < frame <= LastTileFrame() ==>
              r.mid - tile.mid == slab.mid - r.mid && r.plus - tile.plus == slab.plus - r.plus &&
              r.minus - tile.minus == slab.minus - r.minus
  {
    if frame <= FrameThreshold then tile
    else if frame > LastTileFrame() then slab
    else Triple((tile.mid + slab.mid) / 2.0, (tile.plus + slab.plus) / 2.0, (tile.minus + slab.minus) / 2.0)
  }

  /** `_compute_distance(frame, tile_d_fits, slab_v_fits)`. */
  function ComputeDistance(frame: int, tile: Fits, slab: Fits): (r: Triple)
    ensures var t := Time(frame);
            frame <= FrameThreshold ==>
              r == Triple(TileDistance(t, tile.mid), TileDistance(t, tile.plus), TileDistance(t, tile.minus))
    ensures var t := Time(frame);
            frame > LastTileFrame() ==>
              r == Triple(SlabDistance(t, slab.mid), SlabDistance(t, slab.plus), SlabDistance(t, slab.minus))
    ensures var t := Time(frame);
            FrameThreshold < frame <= LastTileFrame() ==>
              2.0 * r.mid == TileDistance(t, tile.mid) + SlabDistance(t, slab.mid) &&
              2.0 * r.plus == TileDistance(t, tile.plus) + SlabDistance(t, slab.plus) &&
              2.0 * r.minus == TileDistance(t, tile.minus) + SlabDistance(t, slab.minus)
  {
    var t := Time(frame);
    Choose(frame,
           Triple(TileDistance(t, tile.mid), TileDistance(t, tile.plus), TileDistance(t, tile.minus)),
           Triple(SlabDistance(t, slab.mid), SlabDistance(t, slab.plus), SlabDistance(t, slab.minus)))
  }

  /** `_compute_speed(frame, tile_d_fits, slab_v_fits)`. */
  function ComputeSpeed(frame: int, tile: Fits, slab: Fits): (r: Triple)
    ensures var t := Time(frame);
            frame <= FrameThreshold ==>
              r == Triple(TileSpeed(t, tile.mid), TileSpeed(t, tile.plus), TileSpeed(t, tile.minus))
    ensures var t := Time(frame);
            frame > LastTileFrame() ==>
              r == Triple(SlabSpeedAt(t, slab.mid), SlabSpeedAt(t, slab.plus), SlabSpeedAt(t, slab.minus))
    ensures var t := Time(frame);
            FrameThreshold < frame <= LastTileFrame() ==>
              2.0 * r.mid == TileSpeed(t, tile.mid) + SlabSpeedAt(t, slab.mid) &&
              2.0 * r.plus == TileSpeed(t, tile.plus) + SlabSpeedAt(t, slab.plus) &&
              2.0 * r.minus == TileSpeed(t, tile.minus) + SlabSpeedAt(t, slab.minus)
  {
    var t := Time(frame);
    Choose(frame,
           Triple(TileSpeed(t, tile.mid), TileSpeed(t, tile.plus), TileSpeed(t, tile.minus)),
           Triple(SlabSpeedAt(t, slab.mid), SlabSpeedAt(t, slab.plus), SlabSpeedAt(t, slab.minus)))
  }

  /** At the threshold frame the distance comes from the tiles, and the
      slab distance it hands over to is zero there. */
  lemma DistanceAtThreshold(tile: Fits, slab: Fits)
    ensures ComputeDistance(FrameThreshold, tile, slab).mid == TileDistance(ThresholdTime(), tile.mid)
    ensures SlabDistance(ThresholdTime(), slab.mid) == 0.0
  {
  }

  /** `_compute_acceleration(frame, ...)`: the central difference of the
      speeds one frame either side, over the two frames' duration. */
  function ComputeAcceleration(frame: int, tile: Fits, slab: Fits): (r: Triple)
    ensures var v0 := ComputeSpeed(frame - 1, tile, slab);
            var v1 := ComputeSpeed(frame + 1, tile, slab);
            r.mid * 2.0 == (v1.mid - v0.mid) * 30.0 &&
            r.plus * 2.0 == (v1.plus - v0.plus) * 30.0 &&
            r.minus * 2.0 == (v1.minus - v0.minus) * 30.0
  {
    var v0 := ComputeSpeed(frame - 1, tile, slab);
    var v1 := ComputeSpeed(frame + 1, tile, slab);
    Triple(CentralDifference(v0.mid, v1.mid), CentralDifference(v0.plus, v1.plus), CentralDifference(v0.minus, v1.minus))
  }

  /** The change from `x0` to `x1` over two frames, per second. */
  function CentralDifference(x0: real, x1: real): (r: real)
    ensures r * 2.0 == (x1 - x0) * 30.0
  {
    (x1 - x0) / (2.0 / FrameRate as real)
  }

  /** Well past the last tile position, a slab speed fit without a cubic
      term is differentiated exactly by the central difference. */
  lemma {:induction false} CentralDifferenceExact(frame: int, tile: Fits, slab: Fits)
    requires frame - 1 > LastTileFrame() && slab.mid[3] == 0.0
    ensures ComputeAcceleration(frame, tile, slab).mid ==
            Polynomial.PowerSum(Polynomial.DiffCoeffs(slab.mid), Time(frame))
  {
    TimeStep(frame);
    CentralDifferenceOfQuadratic(slab.mid, Time(frame - 1), Time(frame), Time(frame + 1),
                                 ComputeSpeed(frame - 1, tile, slab).mid, ComputeSpeed(frame + 1, tile, slab).mid,
                                 ComputeAcceleration(frame, tile, slab).mid);
  }

  /** With the speeds a thirtieth of a second either side of `t` taken from
      a fit without a cubic term, the central difference is the fit's
      derivative at `t`. */
  lemma CentralDifferenceOfQuadratic(c: Cubic, t0: real, t: real, t1: real, v0: real, v1: real, a: real)
    requires c[3] == 0.0
    requires t0 == t - 1.0 / 30.0 && t1 == t + 1.0 / 30.0
    requires v0 == Polynomial.PowerSum(c, t0) && v1 == Polynomial.PowerSum(c, t1)
    requires a * 2.0 == (v1 - v0) * 30.0
    ensures a == Polynomial.PowerSum(Polynomial.DiffCoeffs(c), t)
  {
    QuadraticCentralDifference(c, t, 1.0 / 30.0);
    SlopeOfQuadratic(c, t);
  }

  /** Neighbouring frames are a thirtieth of a second apart. */
  lemma TimeStep(frame: int)
    ensures Time(frame - 1) == Time(frame) - 1.0 / 30.0
    ensures Time(frame + 1) == Time(frame) + 1.0 / 30.0
  {
  }

  /** The derivative of a cubic fit without a cubic term. */
  lemma SlopeOfQuadratic(c: Cubic, t: real)
    requires c[3] == 0.0
    ensures Polynomial.PowerSum(Polynomial.DiffCoeffs(c), t) == c[1] + 2.0 * c[2] * t
  {
    var dc := Polynomial.DiffCoeffs(c);
    assert |dc| == 3 && dc[0] == 1.0 * c[1] && dc[1] == 2.0 * c[2] && dc[2] == 3.0 * c[3];
    assert dc == [c[1], 2.0 * c[2], 3.0 * c[3]];
    Polynomial.PowerSum3(c[1], 2.0 * c[2], 3.0 * c[3], t);
  }

  /** For a cubic fit without a cubic term, the difference of its values
      a step either side is twice the step times its slope. */
  lemma QuadraticCentralDifference(c: Cubic, t: real, h: real)
    requires c[3] == 0.0
    ensures Polynomial.PowerSum(c, t + h) - Polynomial.PowerSum(c, t - h) == 2.0 * h * (c[1] + 2.0 * c[2] * t)
  {
    assert c == [c[0], c[1], c[2], c[3]];
    Polynomial.PowerSum4(c[0], c[1], c[2], c[3], t - h);
    Polynomial.PowerSum4(c[0], c[1], c[2], c[3], t + h);
    assert (t + h) * (t + h) - (t - h) * (t - h) == 4.0 * h * t;
  }

  // ---------------------------------------------------------------------
  // After the runway

  /** `_quadratic_distance(d_0, v_0, a, t)`: position under constant
      acceleration. */
  function QuadraticDistance(d0: real, v0: real, a: real, t: real): (d: real)
    ensures d == Polynomial.PowerSum([d0, v0, a / 2.0], t)
  {
    Polynomial.PowerSum3(d0, v0, a / 2.0, t);
    d0 + v0 * t + a * t * t / 2.0
  }

  /** `_terminal_speed_and_mean_acceleration(v_initial, d_initial, dt,
      d_terminal)`: the speed after `dt` and the constant acceleration
      that cover the distance in that time; ValueError for a negative
      terminal speed. */
  function TerminalSpeedAndMeanAcceleration(vi: real, di: real, dt: real, dT: real): (r: Result<(real, real)>)
    ensures r == Err(ZeroDivisionError) <==> dt == 0.0
    ensures r == Err(ValueError) <==> dt != 0.0 && 2.0 * (dT - di) / dt < vi
    ensures r.Ok? ==> r.value.0 >= 0.0
    ensures r.Ok? ==> (vi + r.value.0) / 2.0 * dt == dT - di
    ensures r.Ok? ==> r.value.1 * dt == r.value.0 - vi
  {
    var vMean :- Divide(dT - di, dt);
    var vT := 2.0 * vMean - vi;
    if vT < 0.0 then Err(ValueError)
    else
      var accel := Divide(vT - vi, dt).value;
      Ok((vT, accel))
  }

  /** The terminal speed and acceleration reproduce the terminal
      distance under constant acceleration. */
  lemma TerminalSpeedCoversDistance(vi: real, di: real, dt: real, dT: real)
    requires TerminalSpeedAndMeanAcceleration(vi, di, dt, dT).Ok?
    ensures QuadraticDistance(di, vi, TerminalSpeedAndMeanAcceleration(vi, di, dt, dT).value.1, dt) == dT
  {
    var (vT, a) := TerminalSpeedAndMeanAcceleration(vi, di, dt, dT).value;
    assert a * dt == vT - vi;
    assert (vi + vT) / 2.0 * dt == dT - di;
    calc {
      di + vi * dt + a * dt * dt / 2.0;
      di + vi * dt + (vT - vi) * dt / 2.0;
      di + (vi + vT) / 2.0 * dt;
    }
  }

  /** `_quadratic_distance_solution(d_0, v_0, a, d)`: `v_0 / a` plus and
      minus `sqrt(v_0^2 - 2 a (d_0 - d)) / a`. A negative discriminant is
      a math domain error (ValueError) and a zero acceleration divides by
      zero. */
  function QuadraticDistanceSolution(d0: real, v0: real, a: real, d: real, sqrt: real -> real): (r: Result<(real, real)>)
    ensures r == Err(ValueError) <==> v0 * v0 - 2.0 * a * (d0 - d) < 0.0
    ensures r == Err(ZeroDivisionError) <==> v0 * v0 - 2.0 * a * (d0 - d) >= 0.0 && a == 0.0
    ensures r.Ok? ==> r.value.0 - r.value.1 == 2.0 * sqrt(v0 * v0 - 2.0 * a * (d0 - d)) / a
    ensures r.Ok? && sqrt(v0 * v0 - 2.0 * a * (d0 - d)) * sqrt(v0 * v0 - 2.0 * a * (d0 - d)) == v0 * v0 - 2.0 * a * (d0 - d) ==>
              QuadraticDistance(d0, v0, a, -r.value.0) == d && QuadraticDistance(d0, v0, a, -r.value.1) == d
  {
    var disc := v0 * v0 - 2.0 * a * (d0 - d);
    if disc < 0.0 then Err(ValueError)
    else
      var s := sqrt(disc);
      var partTwo :- Divide(s, a);
      var partOne := v0 / a;
      ExactRoots(d0, v0, a, d, s);
      Ok((partOne + partTwo, partOne - partTwo))
  }

  /** With an exact square root, both solutions, negated, are times at
      which the position is `d`. */
  lemma ExactRoots(d0: real, v0: real, a: real, d: real, s: real)
    requires a != 0.0
    ensures s * s == v0 * v0 - 2.0 * a * (d0 - d) ==>
              QuadraticDistance(d0, v0, a, -(v0 / a + s / a)) == d && QuadraticDistance(d0, v0, a, -(v0 / a - s / a)) == d
  {
    if s * s == v0 * v0 - 2.0 * a * (d0 - d) {
      NegatedRoot(d0, v0, a, d, s, 1.0);
      NegatedRoot(d0, v0, a, d, s, -1.0);
      assert v0 / a + -1.0 * (s / a) == v0 / a - s / a;
    }
  }

  /** `-(v_0 + sign * s) / a` is a time at which the position is `d`. */
  lemma NegatedRoot(d0: real, v0: real, a: real, d: real, s: real, sign: real)
    requires a != 0.0 && s * s == v0 * v0 - 2.0 * a * (d0 - d)
    requires sign == 1.0 || sign == -1.0
    ensures QuadraticDistance(d0, v0, a, -(v0 / a + sign * (s / a))) == d
  {
    var t := -(v0 / a + sign * (s / a));
    assert t * a == -(v0 + sign * s);
    assert sign * sign == 1.0;
    calc {
      2.0 * a * (QuadraticDistance(d0, v0, a, t) - d0);
      2.0 * a * v0 * t + (a * t) * (a * t);
      -2.0 * v0 * (v0 + sign * s) + (v0 + sign * s) * (v0 + sign * s);
      s * s - v0 * v0;
      2.0 * a * (d - d0);
    }
  }
}

=== FILE: video_ab.dfy ===
/** Tying the two AN-24 videos together (`data/video_ab.py`): events seen
    in both videos, by frame number, give the time of video A at which
    video B starts. */
module VideoAB {
  import opened Outcomes
  import Seqs
  import MapFuncs
  import opened Structs

  /** A time on a video with a comment. */
  datatype TimeComment = TimeComment(time: real, comment: string)

  /** `video_a.FRAME_RATE` and `video_b.FRAME_RATE`. */
  const FrameRateA: int := 30
  const FrameRateB: int := 25

  /** `frame_to_time` of a video at `rate` frames per second, for the
      positive rates of the two videos. */
  function FrameTime(frame: int, rate: int): (t: real)
    requires rate > 0
    ensures MapFuncs.FrameToTime(frame as real, rate) == Ok(t)
  {
    MapFuncs.FrameToTime(frame as real, rate).value
  }

  /** `row` pairs the video A time and event of frame `fa` with the
      video B time and event of the frame tied to it. */
  ghost predicate TieOfFrame(row: (TimeComment, TimeComment), fa: int,
                             ties: map<int, int>, eventsA: map<int, string>, eventsB: map<int, string>)
  {
    fa in ties && fa in eventsA && ties[fa] in eventsB &&
    row.0 == TimeComment(FrameTime(fa, FrameRateA), eventsA[fa]) &&
    row.1 == TimeComment(FrameTime(ties[fa], FrameRateB), eventsB[ties[fa]])
  }

  /** The tie of video A frame `fa` with its video B frame. */
  function Tie(fa: int, ties: map<int, int>, eventsA: map<int, string>, eventsB: map<int, string>)
    : (r: Result<(TimeComment, TimeComment)>)
    requires fa in ties
    ensures r.Ok? <==> fa in eventsA && ties[fa] in eventsB
    ensures r.Err? ==> r.error == KeyError
    ensures r.Ok? ==> TieOfFrame(r.value, fa, ties, eventsA, eventsB)
  {
    var ta := FrameTime(fa, FrameRateA);
    var tb := FrameTime(ties[fa], FrameRateB);
    if fa !in eventsA || ties[fa] !in eventsB then Err(KeyError)
    else Ok((TimeComment(ta, eventsA[fa]), TimeComment(tb, eventsB[ties[fa]])))
  }

  /** Every video A frame of the ties, and its video B frame, names an
      event of its video. */
  ghost predicate Resolvable(ties: map<int, int>, eventsA: map<int, string>, eventsB: map<int, string>)
  {
    forall fa :: fa in ties ==> fa in eventsA && ties[fa] in eventsB
  }

  /** The ties of the frames `frames`, in order. */
  function TiesOf(frames: seq<int>, ties: map<int, int>, eventsA: map<int, string>, eventsB: map<int, string>)
    : (r: Result<seq<(TimeComment, TimeComment)>>)
    requires forall f :: f in frames ==> f in ties
    ensures r.Ok? <==> forall f :: f in frames ==> f in eventsA && ties[f] in eventsB
    ensures r.Err? ==> r.error == KeyError
    ensures r.Ok? ==> |r.value| == |frames|
    ensures r.Ok? ==> forall i :: 0 <= i < |frames| ==> TieOfFrame(r.value[i], frames[i], ties, eventsA, eventsB)
  {
    if frames == [] then Ok([])
    else
      var first :- Tie(frames[0], ties, eventsA, eventsB);
      var rest :- TiesOf(frames[1..], ties, eventsA, eventsB);
      assert forall i :: 1 <= i < |frames| ==> frames[1..][i - 1] == frames[i];
      Ok([first] + rest)
  }

  /** `create_time_ties()`: one tie per entry of the tie dictionary, in
      ascending order of the video A frame, pairing the video A time
      `(fa - 1) / 30` and comment with the video B time `(fb - 1) / 25`
      and comment; KeyError when a frame is not a known event. */
  function CreateTimeTies(ties: map<int, int>, eventsA: map<int, string>, eventsB: map<int, string>)
    : (r: Result<seq<(TimeComment, TimeComment)>>)
    ensures r.Ok? <==> Resolvable(ties, eventsA, eventsB)
    ensures r.Err? ==> r.error == KeyError
    ensures r.Ok? ==> |r.value| == |ties|
  {
    var frames := Seqs.SortedInts(ties.Keys);
    var r := TiesOf(frames, ties, eventsA, eventsB);
    TiesResolvable(frames, ties, eventsA, eventsB, r);
    r
  }

  /** Ties of every video A frame, one per frame (as `TiesOf` returns
      them), exist exactly when every frame resolves. */
  lemma TiesResolvable(frames: seq<int>, ties: map<int, int>, eventsA: map<int, string>, eventsB: map<int, string>,
                       r: Result<seq<(TimeComment, TimeComment)>>)
    requires forall f :: f in frames ==> f in ties
    requires forall x :: x in ties ==> x in frames
    requires r.Ok? <==> forall f :: f in frames ==> f in eventsA && ties[f] in eventsB
    ensures r.Ok? <==> Resolvable(ties, eventsA, eventsB)
  {
    if r.Ok? {
      forall fa | fa in ties
        ensures fa in eventsA && ties[fa] in eventsB
      {
        assert fa in frames;
      }
    } else {
      var fa :| fa in frames && !(fa in eventsA && ties[fa] in eventsB);
      assert fa in ties;
    }
  }

  /** Row `i` is the tie of the `i`-th smallest video A frame. */
  lemma CreateTimeTiesRows(ties: map<int, int>, eventsA: map<int, string>, eventsB: map<int, string>)
    ensures var r := CreateTimeTies(ties, eventsA, eventsB);
            r.Ok? ==> |Seqs.SortedInts(ties.Keys)| == |r.value| &&
                      forall i :: 0 <= i < |r.value| ==> TieOfFrame(r.value[i], Seqs.SortedInts(ties.Keys)[i], ties, eventsA, eventsB)
  {
    var frames := Seqs.SortedInts(ties.Keys);
    assert CreateTimeTies(ties, eventsA, eventsB) == TiesOf(frames, ties, eventsA, eventsB);
  }

  /** The ties come in ascending order of video A time. */
  lemma CreateTimeTiesAscending(ties: map<int, int>, eventsA: map<int, string>, eventsB: map<int, string>)
    ensures var r := CreateTimeTies(ties, eventsA, eventsB);
            r.Ok? ==> forall i, j :: 0 <= i < j < |r.value| ==> r.value[i].0.time < r.value[j].0.time
  {
    var r := CreateTimeTies(ties, eventsA, eventsB);
    var frames := Seqs.SortedInts(ties.Keys);
    CreateTimeTiesRows(ties, eventsA, eventsB);
    if r.Ok? {
      forall i, j | 0 <= i < j < |r.value|
        ensures r.value[i].0.time < r.value[j].0.time
      {
        assert TieOfFrame(r.value[i], frames[i], ties, eventsA, eventsB);
        assert TieOfFrame(r.value[j], frames[j], ties, eventsA, eventsB);
        FrameTimeIncreasing(frames[i], frames[j], FrameRateA);
      }
    }
  }

  lemma FrameTimeIncreasing(f0: int, f1: int, rate: int)
    requires f0 < f1 && rate > 0
    ensures FrameTime(f0, rate) < FrameTime(f1, rate)
  {
    var t0 := FrameTime(f0, rate);
    var t1 := FrameTime(f1, rate);
    assert (t1 - t0) * rate as real == (f1 - f0) as real;
  }

  /** `time_differences()`: video A time minus video B time, tie by tie. */
  function TimeDifferences(ties: seq<(TimeComment, TimeComment)>): (ds: seq<real>)
    ensures |ds| == |ties|
    ensures forall i :: 0 <= i < |ties| ==> ds[i] + ties[i].1.time == ties[i].0.time
  {
    seq(|ties|, i requires 0 <= i < |ties| => ties[i].0.time - ties[i].1.time)
  }

  /** Each difference is the video A time of the tie's first frame less
      the video B time of its second, the ties taken in ascending order of
      the video A frame. */
  lemma TimeDifferencesOfTies(ties: map<int, int>, eventsA: map<int, string>, eventsB: map<int, string>, i: nat)
    requires Resolvable(ties, eventsA, eventsB)
    requires i < |ties|
    ensures CreateTimeTies(ties, eventsA, eventsB).Ok?
    ensures var fa := Seqs.SortedInts(ties.Keys)[i];
            fa in ties &&
            TimeDifferences(CreateTimeTies(ties, eventsA, eventsB).value)[i] == FrameTime(fa, FrameRateA) - FrameTime(ties[fa], FrameRateB)
  {
    var tt := CreateTimeTies(ties, eventsA, eventsB).value;
    var fa := Seqs.SortedInts(ties.Keys)[i];
    CreateTimeTiesRows(ties, eventsA, eventsB);
    assert TieOfFrame(tt[i], fa, ties, eventsA, eventsB);
    assert TimeDifferences(tt)[i] == tt[i].0.time - tt[i].1.time;
  }

  /** `time_difference_mid_max_min()`: the mean, largest and smallest
      difference; the mean divides by zero when there are no ties. */
  function TimeDifferenceMidMaxMin(ds: seq<real>): (r: Result<MidPlusMinus>)
    ensures r.Err? <==> ds == []
    ensures r.Err? ==> r.error == ZeroDivisionError
    ensures r.Ok? ==> r.value.mid == Seqs.Mean(ds)
    ensures r.Ok? ==> r.value.Ordered() && r.value.max in ds && r.value.min in ds
    ensures r.Ok? ==> forall i :: 0 <= i < |ds| ==> r.value.min <= ds[i] <= r.value.max
  {
    if ds == [] then Err(ZeroDivisionError)
    else Ok(MidPlusMinus(Seqs.Mean(ds), Seqs.Max(ds), Seqs.Min(ds)))
  }

  /** The summary depends only on which differences there are, not on the
      order of the ties: reordering the differences changes nothing. */
  lemma TimeDifferenceReordered(a: seq<real>, b: seq<real>)
    requires multiset(a) == multiset(b)
    ensures TimeDifferenceMidMaxMin(a) == TimeDifferenceMidMaxMin(b)
  {
    if a != [] {
      Seqs.MeanVariancePermutation(a, b);
      Seqs.MinMaxPermutation(a, b);
    } else {
      assert |b| == |multiset(b)| == 0;
    }
  }
}

=== FILE: video_analysis.dfy ===
/** Estimating the observer's position from the aircraft's ground track
    (`video_analysis.py`): distance along the runway from the ground-speed
    fit, bearings from the aspect observations, and triangulation of
    every sufficiently separated pair of sightings. The curve fits are
    inputs; trigonometry and the square root are parameters. */
module VideoAnalysis {
  import opened Outcomes
  import Seqs
  import VideoUtils
  import opened VideoData
  import Aspect

  /** `ground_speed_integral(t0, t1, fit)`: distance travelled between two
      times according to the cubic ground-speed fit. */
  function GroundSpeedIntegral(t0: real, t1: real, fit: Aspect.Cubic): (r: real)
    ensures r == VideoUtils.Poly3IntegralFromZero(t1, fit.a, fit.b, fit.c, fit.d)
                 - VideoUtils.Poly3IntegralFromZero(t0, fit.a, fit.b, fit.c, fit.d)
  {
    VideoUtils.Poly3Integral(t0, t1, fit.a, fit.b, fit.c, fit.d)
  }

  /** Distances from the start of the video: none at the start, and the
      distance over consecutive intervals adds up. */
  lemma GroundSpeedIntegralAdditive(t0: real, t1: real, t2: real, fit: Aspect.Cubic)
    ensures GroundSpeedIntegral(t0, t0, fit) == 0.0
    ensures GroundSpeedIntegral(t0, t1, fit) + GroundSpeedIntegral(t1, t2, fit) == GroundSpeedIntegral(t0, t2, fit)
  {
    VideoUtils.Poly3IntegralAdditive(t0, t1, t2, fit.a, fit.b, fit.c, fit.d);
  }

  /** A row of the (time, distance, bearing, bearing error) tables. */
  datatype Row = Row(t: real, d: real, bearing: real, err: real)

  /** `observer_time_distance_bearing_from_wing_tips(gs_fit, min_mid_max)`:
      for each wing-tip aspect observation its time, the distance
      travelled by then, the bearing pushed by the error in the given
      direction, and the error. */
  function WingTipRows(obs: seq<Aspect.Observation>, gsFit: Aspect.Cubic, d: ErrorDirection): (rows: seq<Row>)
    ensures |rows| == |obs|
    ensures forall i :: 0 <= i < |obs| ==>
              rows[i].t == obs[i].vt.Time() && rows[i].d == GroundSpeedIntegral(0.0, obs[i].vt.Time(), gsFit) &&
              rows[i].bearing == obs[i].angle + d.Value() as real * obs[i].error && rows[i].err == obs[i].error
  {
    seq(|obs|, i requires 0 <= i < |obs| =>
      var o := obs[i];
      var t := o.vt.Time();
      var dist := GroundSpeedIntegral(0.0, t, gsFit);
      match d
      case MIN => Row(t, dist, o.angle - o.error, o.error)
      case MID => Row(t, dist, o.angle, o.error)
      case MAX => Row(t, dist, o.angle + o.error, o.error))
  }

  /** The direction moves only the bearing column: time, distance and
      error agree across MIN, MID and MAX, and with non-negative errors the
      bearings are ordered. */
  lemma WingTipRowsDirections(obs: seq<Aspect.Observation>, gsFit: Aspect.Cubic, i: nat)
    requires i < |obs|
    ensures var lo, mid, hi := WingTipRows(obs, gsFit, MIN)[i], WingTipRows(obs, gsFit, MID)[i], WingTipRows(obs, gsFit, MAX)[i];
            lo.t == mid.t == hi.t && lo.d == mid.d == hi.d && lo.err == mid.err == hi.err &&
            mid.bearing == obs[i].angle &&
            (obs[i].error >= 0.0 ==> lo.bearing <= mid.bearing <= hi.bearing)
  {
  }

  /** One row of the fitted table: time, fitted distance, fitted bearing
      and the constant aspect error. */
  function FitRow(t: real, gsFit: Aspect.Cubic, aspectFit: Aspect.Cubic): (row: Row)
    ensures row.t == t && row.err == Aspect.ErrorAspect
    ensures row.d == GroundSpeedIntegral(0.0, t, gsFit)
    ensures row.bearing == Aspect.AspectFromFit(t, aspectFit)
  {
    Row(t, GroundSpeedIntegral(0.0, t, gsFit), Aspect.AspectFromFit(t, aspectFit), Aspect.ErrorAspect)
  }

  /** The distances of two sampled rows differ by the ground speed
      integrated between their times, and the distance at time zero is
      zero: the distance is measured from the start of the video. */
  lemma FitRowDistances(t0: real, t1: real, gsFit: Aspect.Cubic, aspectFit: Aspect.Cubic)
    ensures FitRow(0.0, gsFit, aspectFit).d == 0.0
    ensures FitRow(t1, gsFit, aspectFit).d - FitRow(t0, gsFit, aspectFit).d == GroundSpeedIntegral(t0, t1, gsFit)
  {
    GroundSpeedIntegralAdditive(0.0, t0, t1, gsFit);
  }

  /** After `n` rounds of the sampling loop: `n` rows, at the first `n`
      multiples of `dt`, all within `limit`, and `t` at the next multiple. */
  ghost predicate Sampled(rows: seq<Row>, row: real -> Row, dt: real, limit: real, n: nat, t: real)
  {
    n == |rows| && t == n as real * dt &&
    (forall k :: 0 <= k < |rows| ==> rows[k] == row(k as real * dt)) &&
    (forall k :: 0 <= k < |rows| ==> rows[k].t <= limit)
  }

  /** One round of the sampling loop keeps `Sampled`, and the loop has not
      yet run past the last multiple of `dt` within `limit`. */
  lemma SampleStep(rows: seq<Row>, row: real -> Row, dt: real, limit: real, n: nat, t: real)
    requires dt > 0.0 && forall u :: row(u).t == u
    requires Sampled(rows, row, dt, limit, n, t) && t <= limit
    ensures n <= (limit / dt).Floor
    ensures Sampled(rows + [row(t)], row, dt, limit, n + 1, t + dt)
  {
    StepsBound(n, dt, limit);
    assert (n + 1) as real * dt == n as real * dt + dt;
  }

  /** A whole number of steps that fits under `limit` is at most the
      floor of `limit / dt`. */
  lemma StepsBound(k: nat, dt: real, limit: real)
    requires dt > 0.0 && k as real * dt <= limit
    ensures k <= (limit / dt).Floor
  {
    var q := limit / dt;
    assert q * dt == limit;
    if k as real > q {
      PositiveProduct(k as real - q, dt);
    }
  }

  lemma PositiveProduct(a: real, b: real)
    requires a > 0.0 && b > 0.0
    ensures a * b > 0.0
  {
  }

  /** `time_distance_bearing_from_fits(time_interval)`: the fitted distance
      and bearing at `0, dt, 2 dt, ...` up to `TIME_VIDEO_MAX_AS_INT`, with
      the constant aspect error. */
  method TimeDistanceBearingFromFits(gsFit: Aspect.Cubic, aspectFit: Aspect.Cubic, dt: real) returns (rows: seq<Row>)
    requires dt > 0.0
    ensures |rows| > 0 && |rows| as real * dt > TimeVideoMaxAsInt() as real
    ensures forall k :: 0 <= k < |rows| ==> rows[k] == FitRow(k as real * dt, gsFit, aspectFit)
    ensures forall k :: 0 <= k < |rows| ==> rows[k].t <= TimeVideoMaxAsInt() as real
  {
    rows := Sample(t => FitRow(t, gsFit, aspectFit), dt);
  }

  /** The sampling loop of `time_distance_bearing_from_fits`: `row` at
      `t = 0, dt, 2 dt, ...` while `t <= TIME_VIDEO_MAX_AS_INT`. */
  method Sample(row: real -> Row, dt: real) returns (rows: seq<Row>)
    requires dt > 0.0 && forall t :: row(t).t == t
    ensures |rows| > 0 && |rows| as real * dt > TimeVideoMaxAsInt() as real
    ensures forall k :: 0 <= k < |rows| ==> rows[k] == row(k as real * dt)
    ensures forall k :: 0 <= k < |rows| ==> rows[k].t <= TimeVideoMaxAsInt() as real
  {
    var limit := TimeVideoMaxAsInt() as real;
    var bound := (limit / dt).Floor;
    var t := 0.0;
    var n := 0;
    rows := [];
    while t <= limit
      invariant Sampled(rows, row, dt, limit, n, t)
      decreases bound + 1 - n
    {
      SampleStep(rows, row, dt, limit, n, t);
      rows := rows + [row(t)];
      t := t + dt;
      n := n + 1;
    }
  }

  // ---------------------------------------------------------------------
  // Combinations of sightings

  /** `array[n:]` for any integer `n` (a negative `n` keeps the last `-n`
      rows): always a suffix, of the length Python slicing gives. */
  function DropFirst<T>(s: seq<T>, n: int): (r: seq<T>)
    ensures exists k :: 0 <= k <= |s| && r == s[k..]
    ensures n >= 0 ==> |r| == if n <= |s| then |s| - n else 0
    ensures n < 0 ==> |r| == if -n <= |s| then -n else |s|
  {
    var k := if n >= 0 then (if n <= |s| then n else |s|) else (if -n <= |s| then |s| + n else 0);
    s[k..]
  }

  /** Boolean-mask selection of the rows with `t0 <= t < t1`, in order. */
  function InWindow(rows: seq<Row>, t0: real, t1: real): (r: seq<Row>)
    ensures |r| <= |rows|
    ensures forall x :: x in r <==> x in rows && t0 <= x.t < t1
    ensures multiset(r) <= multiset(rows)
    ensures forall x :: multiset(r)[x] == if t0 <= x.t < t1 then multiset(rows)[x] else 0
  {
    if rows == [] then []
    else
      var tail := InWindow(rows[1..], t0, t1);
      assert rows == [rows[0]] + rows[1..];
      if t0 <= rows[0].t < t1 then [rows[0]] + tail else tail
  }

  /** The selection keeps the rows' order: selecting from two runs of rows
      one after the other gives the two selections one after the other. */
  lemma {:induction false} InWindowAppend(a: seq<Row>, b: seq<Row>, t0: real, t1: real)
    ensures InWindow(a + b, t0, t1) == InWindow(a, t0, t1) + InWindow(b, t0, t1)
    decreases |a|
  {
    if a == [] {
      assert a + b == b;
    } else {
      assert (a + b)[1..] == a[1..] + b;
      InWindowAppend(a[1..], b, t0, t1);
    }
  }

  /** The rows a triangulation uses: drop the first `ignoreFirstN`, then,
      only when the range is non-empty (`t0 < t1`), keep `t0 <= t < t1`. */
  function Selected(rows: seq<Row>, ignoreFirstN: int, t0: real, t1: real): (r: seq<Row>)
    ensures !(t0 < t1) ==> r == DropFirst(rows, ignoreFirstN)
    ensures t0 < t1 ==> forall x :: x in r <==> x in DropFirst(rows, ignoreFirstN) && t0 <= x.t < t1
    ensures t0 < t1 ==> forall x :: multiset(r)[x] == if t0 <= x.t < t1 then multiset(DropFirst(rows, ignoreFirstN))[x] else 0
  {
    var kept := DropFirst(rows, ignoreFirstN);
    if t0 < t1 then InWindow(kept, t0, t1) else kept
  }

  /** Python `abs` on a float. */
  function Abs(x: real): (r: real)
    ensures r >= 0.0 && (r == x || r == -x)
  {
    if x < 0.0 then -x else x
  }

  /** The index pairs (in `itertools.combinations` order) whose distances
      differ by strictly more than the baseline. */
  function Separated(rows: seq<Row>, pairs: seq<(nat, nat)>, baseline: real): (r: seq<(nat, nat)>)
    requires forall k :: 0 <= k < |pairs| ==> pairs[k].0 < |rows| && pairs[k].1 < |rows|
    ensures |r| <= |pairs|
    ensures forall p :: p in r <==> p in pairs && Abs(rows[p.0].d - rows[p.1].d) > baseline
    ensures forall k :: 0 <= k < |r| ==> r[k].0 < |rows| && r[k].1 < |rows|
  {
    if pairs == [] then []
    else
      var p := pairs[0];
      var tail := Separated(rows, pairs[1..], baseline);
      if Abs(rows[p.0].d - rows[p.1].d) > baseline then [p] + tail else tail
  }

  /** The triangulated position of each pair, in order; the first pair
      whose sightings cannot be triangulated raises its error. */
  function Intersections(rows: seq<Row>, pairs: seq<(nat, nat)>, sin: real -> real, cos: real -> real)
    : (r: Result<seq<(real, real)>>)
    requires forall k :: 0 <= k < |pairs| ==> pairs[k].0 < |rows| && pairs[k].1 < |rows|
    ensures r.Ok? <==> forall k :: 0 <= k < |pairs| ==> Meet(rows, pairs[k], sin, cos).Ok?
    ensures r.Ok? ==> |r.value| == |pairs|
    ensures r.Ok? ==> forall k :: 0 <= k < |pairs| ==> r.value[k] == Meet(rows, pairs[k], sin, cos).value
  {
    if pairs == [] then Ok([])
    else
      var first :- Meet(rows, pairs[0], sin, cos);
      var rest :- Intersections(rows, pairs[1..], sin, cos);
      Ok([first] + rest)
  }

  /** `aspect_intersection` of the sightings at the two rows of a pair. */
  function Meet(rows: seq<Row>, p: (nat, nat), sin: real -> real, cos: real -> real): Result<(real, real)>
    requires p.0 < |rows| && p.1 < |rows|
  {
    VideoUtils.AspectIntersection(rows[p.0].d, rows[p.0].bearing, rows[p.1].d, rows[p.1].bearing, sin, cos)
  }

  function Column0(pts: seq<(real, real)>): (xs: seq<real>)
    ensures |xs| == |pts| && forall i :: 0 <= i < |pts| ==> xs[i] == pts[i].0
  {
    seq(|pts|, i requires 0 <= i < |pts| => pts[i].0)
  }

  function Column1(pts: seq<(real, real)>): (ys: seq<real>)
    ensures |ys| == |pts| && forall i :: 0 <= i < |pts| ==> ys[i] == pts[i].1
  {
    seq(|pts|, i requires 0 <= i < |pts| => pts[i].1)
  }

  /** `array.sort(axis=0)`: each column sorted on its own, so each column
      keeps its values but the points are re-paired. */
  function SortColumns(pts: seq<(real, real)>): (r: seq<(real, real)>)
    ensures |r| == |pts|
    ensures multiset(Column0(r)) == multiset(Column0(pts)) && multiset(Column1(r)) == multiset(Column1(pts))
    ensures forall i, j :: 0 <= i < j < |r| ==> r[i].0 <= r[j].0 && r[i].1 <= r[j].1
  {
    var xs := Seqs.SortReals(Column0(pts));
    var ys := Seqs.SortReals(Column1(pts));
    assert |xs| == |multiset(xs)| == |pts| == |multiset(ys)| == |ys|;
    var r := seq(|pts|, i requires 0 <= i < |pts| => (xs[i], ys[i]));
    assert Column0(r) == xs && Column1(r) == ys;
    r
  }

  /** Sorting the columns separately breaks up points: `(a, b)` and
      `(b, a)` come back as `(a, a)` and `(b, b)`. */
  lemma SortColumnsRepairs(a: real, b: real)
    requires a < b
    ensures SortColumns([(a, b), (b, a)]) == [(a, a), (b, b)]
  {
    var pts := [(a, b), (b, a)];
    assert Column0(pts) == [a, b] && Column1(pts) == [b, a];
    SortedColumnsOfTwo(SortColumns(pts), a, b);
  }

  /** Two points whose columns are each ascending and each hold `a < b`
      are `(a, a)` and `(b, b)`. */
  lemma SortedColumnsOfTwo(r: seq<(real, real)>, a: real, b: real)
    requires a < b && |r| == 2 && r[0].0 <= r[1].0 && r[0].1 <= r[1].1
    requires multiset(Column0(r)) == multiset{a, b} && multiset(Column1(r)) == multiset{a, b}
    ensures r == [(a, a), (b, b)]
  {
    SortedTwo(Column0(r), a, b);
    SortedTwo(Column1(r), a, b);
    assert r == [(Column0(r)[0], Column1(r)[0]), (Column0(r)[1], Column1(r)[1])];
  }

  /** Two values in ascending order with the values `a < b` are `[a, b]`. */
  lemma SortedTwo(xs: seq<real>, a: real, b: real)
    requires a < b && |xs| == 2 && xs[0] <= xs[1] && multiset(xs) == multiset{a, b}
    ensures xs == [a, b]
  {
    assert xs == [xs[0], xs[1]];
    assert multiset(xs) == multiset{xs[0], xs[1]};
    assert a in multiset(xs) && b in multiset(xs);
  }

  /** `observer_position_combinations(min_mid_max, baseline, ignore_first_n,
      t_range)` over the wing-tip sightings: the column-sorted positions of
      all pairs of selected rows whose distances differ by more than the
      baseline, and the number of pairs considered. */
  function ObserverPositionCombinations(obs: seq<Aspect.Observation>, gsFit: Aspect.Cubic, d: ErrorDirection,
                                        baseline: real, ignoreFirstN: int, t0: real, t1: real,
                                        sin: real -> real, cos: real -> real)
    : (r: Result<(seq<(real, real)>, int)>)
    ensures var rows := Selected(WingTipRows(obs, gsFit, d), ignoreFirstN, t0, t1);
            r.Ok? ==> 2 * r.value.1 == |rows| * (|rows| - 1) && |r.value.0| <= r.value.1
  {
    var rows := Selected(WingTipRows(obs, gsFit, d), ignoreFirstN, t0, t1);
    var pairs := Seqs.Pairs(|rows|);
    Seqs.PairsSpec(|rows|);
    assert forall k :: 0 <= k < |pairs| ==> pairs[k] in pairs;
    var chosen := Separated(rows, pairs, baseline);
    var pts :- Intersections(rows, chosen, sin, cos);
    Ok((SortColumns(pts), |pairs|))
  }

  /** Rows `i < j` whose distances differ by strictly more than the
      baseline: the pairs that yield a position. */
  predicate IsSeparated(rows: seq<Row>, baseline: real, i: nat, j: nat)
  {
    i < j < |rows| && Abs(rows[i].d - rows[j].d) > baseline
  }

  /** The separated pairs, in `itertools.combinations` order. */
  function SeparatedOf(rows: seq<Row>, baseline: real): (chosen: seq<(nat, nat)>)
    ensures forall k :: 0 <= k < |chosen| ==> chosen[k].0 < |rows| && chosen[k].1 < |rows|
    ensures forall p :: p in chosen <==> IsSeparated(rows, baseline, p.0, p.1)
    ensures baseline < 0.0 ==> chosen == Seqs.Pairs(|rows|)
  {
    var pairs := Seqs.Pairs(|rows|);
    Seqs.PairsSpec(|rows|);
    assert forall k :: 0 <= k < |pairs| ==> pairs[k] in pairs;
    var chosen := Separated(rows, pairs, baseline);
    assert baseline < 0.0 ==> chosen == pairs by {
      if baseline < 0.0 {
        NegativeBaselineKeepsAll(rows, pairs, baseline);
      }
    }
    chosen
  }

  /** `observer_position_combinations_from_fits(baseline, time_interval)`
      over the sampled fit table `rows`: the positions of all pairs of rows
      whose distances differ by more than the baseline, unsorted, and the
      number of pairs considered. With a negative baseline every pair
      yields a position. */
  function ObserverPositionCombinationsFromFits(rows: seq<Row>, baseline: real, sin: real -> real, cos: real -> real)
    : (r: Result<(seq<(real, real)>, int)>)
    ensures r.Ok? ==> 2 * r.value.1 == |rows| * (|rows| - 1) && |r.value.0| <= r.value.1
    ensures r.Ok? && baseline < 0.0 ==> |r.value.0| == r.value.1
    ensures r.Ok? <==> forall i: nat, j: nat :: IsSeparated(rows, baseline, i, j) ==> Meet(rows, (i, j), sin, cos).Ok?
    ensures r.Ok? ==> forall i: nat, j: nat :: IsSeparated(rows, baseline, i, j) ==>
              Meet(rows, (i, j), sin, cos).value in r.value.0
    ensures r.Ok? ==> forall k :: 0 <= k < |r.value.0| ==>
              exists i: nat, j: nat :: IsSeparated(rows, baseline, i, j) && Meet(rows, (i, j), sin, cos) == Ok(r.value.0[k])
  {
    var pairs := Seqs.Pairs(|rows|);
    Seqs.PairsSpec(|rows|);
    var chosen := SeparatedOf(rows, baseline);
    MeetsOfChosenOk(rows, baseline, sin, cos, chosen);
    MeetsOfChosenAll(rows, baseline, sin, cos, chosen);
    MeetsOfChosenOnly(rows, baseline, sin, cos, chosen);
    var pts :- Intersections(rows, chosen, sin, cos);
    Ok((pts, |pairs|))
  }

  /** Triangulating exactly the separated pairs succeeds exactly when every
      separated pair meets. */
  lemma MeetsOfChosenOk(rows: seq<Row>, baseline: real, sin: real -> real, cos: real -> real, chosen: seq<(nat, nat)>)
    requires forall k :: 0 <= k < |chosen| ==> chosen[k].0 < |rows| && chosen[k].1 < |rows|
    requires forall p :: p in chosen <==> IsSeparated(rows, baseline, p.0, p.1)
    ensures Intersections(rows, chosen, sin, cos).Ok? <==>
              forall i: nat, j: nat :: IsSeparated(rows, baseline, i, j) ==> Meet(rows, (i, j), sin, cos).Ok?
  {
    forall i: nat, j: nat | IsSeparated(rows, baseline, i, j)
      ensures exists k :: 0 <= k < |chosen| && chosen[k] == (i, j)
    {
      assert (i, j) in chosen;
    }
    forall k | 0 <= k < |chosen|
      ensures IsSeparated(rows, baseline, chosen[k].0, chosen[k].1)
    {
      assert chosen[k] in chosen;
    }
  }

  /** Every separated pair's position is among the triangulated ones. */
  lemma MeetsOfChosenAll(rows: seq<Row>, baseline: real, sin: real -> real, cos: real -> real, chosen: seq<(nat, nat)>)
    requires forall k :: 0 <= k < |chosen| ==> chosen[k].0 < |rows| && chosen[k].1 < |rows|
    requires forall p :: p in chosen <==> IsSeparated(rows, baseline, p.0, p.1)
    ensures Intersections(rows, chosen, sin, cos).Ok? ==>
              forall i: nat, j: nat :: IsSeparated(rows, baseline, i, j) ==>
                Meet(rows, (i, j), sin, cos).value in Intersections(rows, chosen, sin, cos).value
  {
    var r := Intersections(rows, chosen, sin, cos);
    if r.Ok? {
      forall i: nat, j: nat | IsSeparated(rows, baseline, i, j)
        ensures Meet(rows, (i, j), sin, cos).value in r.value
      {
        assert (i, j) in chosen;
        var k :| 0 <= k < |chosen| && chosen[k] == (i, j);
        assert r.value[k] == Meet(rows, (i, j), sin, cos).value;
      }
    }
  }

  /** Every triangulated position is some separated pair's. */
  lemma MeetsOfChosenOnly(rows: seq<Row>, baseline: real, sin: real -> real, cos: real -> real, chosen: seq<(nat, nat)>)
    requires forall k :: 0 <= k < |chosen| ==> chosen[k].0 < |rows| && chosen[k].1 < |rows|
    requires forall p :: p in chosen <==> IsSeparated(rows, baseline, p.0, p.1)
    ensures Intersections(rows, chosen, sin, cos).Ok? ==>
              forall k :: 0 <= k < |Intersections(rows, chosen, sin, cos).value| ==>
                exists i: nat, j: nat :: IsSeparated(rows, baseline, i, j) &&
                                         Meet(rows, (i, j), sin, cos) == Ok(Intersections(rows, chosen, sin, cos).value[k])
  {
    var r := Intersections(rows, chosen, sin, cos);
    if r.Ok? {
      forall k | 0 <= k < |r.value|
        ensures exists i: nat, j: nat :: IsSeparated(rows, baseline, i, j) && Meet(rows, (i, j), sin, cos) == Ok(r.value[k])
      {
        var (i, j) := chosen[k];
        assert chosen[k] in chosen;
        assert Meet(rows, (i, j), sin, cos) == Ok(r.value[k]);
      }
    }
  }

  /** A pair of selected rows contributes a position exactly when it is a
      pair `i < j` whose distances differ by more than the baseline. */
  lemma SeparatedPairs(rows: seq<Row>, baseline: real, i: nat, j: nat)
    ensures (forall k :: 0 <= k < |Seqs.Pairs(|rows|)| ==> Seqs.Pairs(|rows|)[k].0 < |rows| && Seqs.Pairs(|rows|)[k].1 < |rows|)
    ensures (i, j) in Separated(rows, Seqs.Pairs(|rows|), baseline) <==>
              i < j < |rows| && Abs(rows[i].d - rows[j].d) > baseline
  {
    Seqs.PairsSpec(|rows|);
    var pairs := Seqs.Pairs(|rows|);
    assert forall k :: 0 <= k < |pairs| ==> pairs[k] in pairs;
  }

  /** With a negative baseline every pair is separated, so every pair
      yields a position. */
  lemma {:induction false} NegativeBaselineKeepsAll(rows: seq<Row>, pairs: seq<(nat, nat)>, baseline: real)
    requires forall k :: 0 <= k < |pairs| ==> pairs[k].0 < |rows| && pairs[k].1 < |rows|
    requires baseline < 0.0
    ensures Separated(rows, pairs, baseline) == pairs
  {
    if pairs != [] {
      var p := pairs[0];
      var rest := pairs[1..];
      assert forall k :: 0 <= k < |rest| ==> rest[k] == pairs[k + 1];
      NegativeBaselineKeepsAll(rows, rest, baseline);
      assert Abs(rows[p.0].d - rows[p.1].d) > baseline;
      assert pairs == [p] + rest;
    }
  }

  /** `observer_position_mean_std`: the mean and the population standard
      deviation of each column of the positions. With no positions numpy
      gives a single NaN, which cannot be unpacked into two: TypeError. */
  function MeanStd(pts: seq<(real, real)>, sqrt: real -> real): (r: Result<((real, real), (real, real))>)
    ensures r.Err? <==> pts == []
    ensures r.Ok? ==> r.value.0.0 == Seqs.Mean(Column0(pts)) && r.value.1.0 == Seqs.Mean(Column1(pts))
    ensures r.Ok? ==> r.value.0.1 == sqrt(Seqs.Variance(Column0(pts))) && r.value.1.1 == sqrt(Seqs.Variance(Column1(pts)))
    ensures r.Ok? ==> Seqs.Min(Column0(pts)) <= r.value.0.0 <= Seqs.Max(Column0(pts))
    ensures r.Ok? ==> Seqs.Min(Column1(pts)) <= r.value.1.0 <= Seqs.Max(Column1(pts))
  {
    if pts == [] then Err(TypeError)
    else
      var xs, ys := Column0(pts), Column1(pts);
      Ok(((Seqs.Mean(xs), sqrt(Seqs.Variance(xs))), (Seqs.Mean(ys), sqrt(Seqs.Variance(ys)))))
  }

  /** Because the statistics are per column, sorting the columns (and so
      re-pairing the points) does not change them. */
  lemma MeanStdIgnoresSort(pts: seq<(real, real)>, sqrt: real -> real)
    ensures MeanStd(SortColumns(pts), sqrt) == MeanStd(pts, sqrt)
  {
    if pts != [] {
      var s := SortColumns(pts);
      Seqs.MeanVariancePermutation(Column0(pts), Column0(s));
      Seqs.MeanVariancePermutation(Column1(pts), Column1(s));
    }
  }

  /** `observer_position_mean_std(baseline, ignore_first_n, t_range)`: the
      statistics of the MID combinations. */
  function ObserverPositionMeanStd(obs: seq<Aspect.Observation>, gsFit: Aspect.Cubic, baseline: real,
                                   ignoreFirstN: int, t0: real, t1: real,
                                   sin: real -> real, cos: real -> real, sqrt: real -> real)
    : (r: Result<((real, real), (real, real))>)
    ensures var c := ObserverPositionCombinations(obs, gsFit, MID, baseline, ignoreFirstN, t0, t1, sin, cos);
            r.Ok? <==> c.Ok? && c.value.0 != []
    ensures var c := ObserverPositionCombinations(obs, gsFit, MID, baseline, ignoreFirstN, t0, t1, sin, cos);
            r.Err? && c.Ok? ==> r.error == TypeError
    ensures var c := ObserverPositionCombinations(obs, gsFit, MID, baseline, ignoreFirstN, t0, t1, sin, cos);
            r.Ok? ==> r.value.0.0 == Seqs.Mean(Column0(c.value.0)) && r.value.1.0 == Seqs.Mean(Column1(c.value.0)) &&
                      r.value.0.1 == sqrt(Seqs.Variance(Column0(c.value.0))) &&
                      r.value.1.1 == sqrt(Seqs.Variance(Column1(c.value.0)))
  {
    var c :- ObserverPositionCombinations(obs, gsFit, MID, baseline, ignoreFirstN, t0, t1, sin, cos);
    MeanStd(c.0, sqrt)
  }

  // ---------------------------------------------------------------------
  // Transits along the x axis

  /** `transit_x_axis_distances(observer_x, observer_y)`: for each event
      (time, label), in order, where the line from the observer through the
      labelled landmark crosses the x axis. A label without a position is
      a KeyError. */
  function TransitXAxisDistances(events: seq<(real, string)>, positions: map<string, (real, real)>, ox: real, oy: real)
    : (r: Result<seq<(real, real, string)>>)
    ensures r.Ok? ==> |r.value| == |events|
    ensures r.Ok? ==> forall i :: 0 <= i < |events| ==>
              events[i].1 in positions &&
              r.value[i].0 == events[i].0 && r.value[i].2 == events[i].1 &&
              VideoUtils.TransitXAxisIntercept(positions[events[i].1].0, positions[events[i].1].1, ox, oy) == Ok(r.value[i].1)
    ensures (exists i :: 0 <= i < |events| && events[i].1 !in positions) ==> r.Err?
    ensures r.Ok? <==> forall i :: 0 <= i < |events| ==>
              events[i].1 in positions &&
              VideoUtils.TransitXAxisIntercept(positions[events[i].1].0, positions[events[i].1].1, ox, oy).Ok?
  {
    if events == [] then Ok([])
    else
      var (t, tag) := events[0];
      if tag !in positions then Err(KeyError)
      else
        var (x, y) := positions[tag];
        var xi :- VideoUtils.TransitXAxisIntercept(x, y, ox, oy);
        var rest :- TransitXAxisDistances(events[1..], positions, ox, oy);
        assert forall i :: 1 <= i < |events| ==> events[i] == events[1..][i - 1];
        Ok([(t, xi, tag)] + rest)
  }
}

=== FILE: video_data.dfy ===
/** The time base and error-direction machinery of the A340 analysis
    (`video_data.py`): the MIN/MID/MAX error direction and its operators,
    worst-case perturbation of a measured function, validated video times
    (minutes, seconds, frames at 30 frames per second), conversion between
    frame numbers, video times and ffmpeg image names, transit mid-points,
    and the lookup of simultaneous transit labels. */
module VideoData {
  import opened Outcomes
  import Decimal

  // ---------------------------------------------------------------------
  // Error direction

  /** `ErrorDirection`: use the error terms to make a value as small as
      possible (MIN, -1), not at all (MID, 0) or as large as possible
      (MAX, 1). */
  datatype ErrorDirection = MIN | MID | MAX
  {
    function Value(): int
    {
      match this
      case MIN => -1
      case MID => 0
      case MAX => 1
    }
  }

  /** A Python object as far as the operators compare them: an `int` or an
      enum member. An `int` never equals an enum member. */
  datatype PyObject = Int(i: int) | Member(d: ErrorDirection)

  predicate PyEquals(a: PyObject, b: PyObject)
  {
    match (a, b)
    case (Int(x), Int(y)) => x == y
    case (Member(x), Member(y)) => x == y
    case _ => false
  }

  /** `ErrorDirection(v)`: look up a member by value (or return a member
      given as itself); anything else raises ValueError. */
  function FromValue(v: PyObject): (r: Result<ErrorDirection>)
    ensures r.Ok? ==> PyEquals(Int(r.value.Value()), v) || v == Member(r.value)
    ensures v.Member? || v.i in {-1, 0, 1} <==> r.Ok?
  {
    match v
    case Member(d) => Ok(d)
    case Int(i) =>
      if i == -1 then Ok(MIN) else if i == 0 then Ok(MID) else if i == 1 then Ok(MAX) else Err(ValueError)
  }

  /** `__neg__`, as written: `ErrorDirection(ErrorDirection.MIN)`. */
  function Neg(d: ErrorDirection): ErrorDirection
  {
    FromValue(Member(MIN)).value
  }

  /** `__pos__`, as written: `ErrorDirection(ErrorDirection.MAX)`. */
  function Pos(d: ErrorDirection): ErrorDirection
  {
    FromValue(Member(MAX)).value
  }

  /** `__abs__`, as written: `ErrorDirection(ErrorDirection.MAX)`. */
  function Abs(d: ErrorDirection): ErrorDirection
  {
    FromValue(Member(MAX)).value
  }

  /** `__invert__`, as written: it compares `self.value`, an `int`, with
      enum members, so neither flipping branch can be taken. */
  function Invert(d: ErrorDirection): ErrorDirection
  {
    if PyEquals(Int(d.Value()), Member(MIN)) then FromValue(Member(MAX)).value
    else if PyEquals(Int(d.Value()), Member(MAX)) then FromValue(Member(MIN)).value
    else FromValue(Member(MID)).value
  }

  /** None of the operators depends on its operand: `-d` is always MIN,
      `+d` and `abs(d)` always MAX, and `~d` always MID. */
  lemma OperatorsAreConstant(d: ErrorDirection, e: ErrorDirection)
    ensures Neg(d) == Neg(e) == MIN
    ensures Pos(d) == Pos(e) == MAX
    ensures Abs(d) == Abs(e) == MAX
    ensures Invert(d) == Invert(e) == MID
  {
  }

  /** The evidently intended negation: MIN and MAX swap, MID stays. */
  function Flip(d: ErrorDirection): (r: ErrorDirection)
    ensures r.Value() == -d.Value()
  {
    match d
    case MIN => MAX
    case MID => MID
    case MAX => MIN
  }

  /** Flipping is an involution that fixes only MID, and it is what the
      unreachable branches of `__invert__` spell out. */
  lemma FlipInvolution(d: ErrorDirection)
    ensures Flip(Flip(d)) == d
    ensures Flip(d) == d <==> d == MID
    ensures Flip(d) == (if d.Value() == MIN.Value() then MAX else if d.Value() == MAX.Value() then MIN else MID)
  {
  }

  /** The operators as written disagree with flipping: `-MIN` is MIN and
      `~MIN` is MID where MAX is meant; `-MID` is MIN where MID is meant. */
  lemma OperatorsDoNotFlip()
    ensures Neg(MIN) != Flip(MIN) && Neg(MID) != Flip(MID)
    ensures Invert(MIN) != Flip(MIN) && Invert(MAX) != Flip(MAX)
  {
  }

  // ---------------------------------------------------------------------
  // Worst-case perturbation

  const FramesPerSecond: int := 30

  /** The +/- error of a time measurement: five frames. */
  const ErrorTimestamp: real := 5.0 / 30.0

  /** `apply_min_mid_max_error(func, t, d, err)`: MID evaluates `func(t)`.
      Otherwise `err` must be non-negative (an AssertionError if not), and
      the result is `func` five frames ahead or behind, whichever side
      moves the value in the wanted direction judged by comparing
      `func(t + dt)` with `func(t)`, pushed further by `err`. Errors raised
      by `func` propagate. */
  function ApplyMinMidMaxError(func: real -> Result<real>, t: real, d: ErrorDirection, err: real): (r: Result<real>)
    ensures d == MID ==> r == func(t)
    ensures d != MID && err < 0.0 ==> r == Err(AssertionError)
    ensures d != MID ==>
              (r.Ok? <==> err >= 0.0 && func(t + ErrorTimestamp).Ok? && func(t).Ok? &&
                          (AheadMoves(func(t + ErrorTimestamp).value, func(t).value, d) || func(t - ErrorTimestamp).Ok?))
    ensures r.Ok? && d != MID ==>
              func(t + ErrorTimestamp).Ok? && func(t).Ok? &&
              var from := if AheadMoves(func(t + ErrorTimestamp).value, func(t).value, d)
                          then t + ErrorTimestamp else t - ErrorTimestamp;
              func(from).Ok? && r.value == func(from).value + d.Value() as real * err
    ensures r.Err? && d != MID && err >= 0.0 ==>
              r == func(t + ErrorTimestamp) || r == func(t) || r == func(t - ErrorTimestamp)
  {
    if d == MID then func(t)
    else if !(err >= 0.0) then Err(AssertionError)
    else
      var ahead :- func(t + ErrorTimestamp);
      var now :- func(t);
      if d == MAX then
        if ahead > now then Ok(ahead + err)
        else
          var behind :- func(t - ErrorTimestamp);
          Ok(behind + err)
      else
        if ahead < now then Ok(ahead - err)
        else
          var behind :- func(t - ErrorTimestamp);
          Ok(behind - err)
  }

  /** Whether the value five frames ahead lies in direction `d` (above
      for MAX, below for MIN) of the value now. */
  predicate AheadMoves(ahead: real, now: real, d: ErrorDirection)
  {
    if d == MAX then ahead > now else ahead < now
  }

  /** The per-direction perturbation of one observation at time `t` with
      value `v` and error `err`: MIN moves the time back five frames and
      the value down by the error, MAX moves both forward, MID leaves the
      observation as it is. */
  function Perturb(t: real, v: real, err: real, d: ErrorDirection): (row: (real, real))
    ensures row.0 == t + d.Value() as real * ErrorTimestamp
    ensures row.1 == v + d.Value() as real * err
  {
    match d
    case MIN => (t - ErrorTimestamp, v - err)
    case MID => (t, v)
    case MAX => (t + ErrorTimestamp, v + err)
  }

  /** With a non-negative error the three directions keep the time and
      the value in MIN, MID, MAX order, strictly for the time and strictly
      for the value when the error is positive. */
  lemma PerturbOrdered(t: real, v: real, err: real)
    requires err >= 0.0
    ensures Perturb(t, v, err, MIN).0 < Perturb(t, v, err, MID).0 < Perturb(t, v, err, MAX).0
    ensures Perturb(t, v, err, MIN).1 <= Perturb(t, v, err, MID).1 <= Perturb(t, v, err, MAX).1
    ensures err > 0.0 ==> Perturb(t, v, err, MIN).1 < Perturb(t, v, err, MID).1 < Perturb(t, v, err, MAX).1
  {
  }

  ghost predicate Total(func: real -> Result<real>)
  {
    forall x :: func(x).Ok?
  }

  ghost predicate StrictlyMonotone(func: real -> Result<real>)
  {
    Total(func) &&
    ((forall x, y :: x < y ==> func(x).value < func(y).value) ||
     (forall x, y :: x < y ==> func(x).value > func(y).value))
  }

  /** For a strictly monotone (increasing or decreasing) function the
      three directions are ordered, and MIN and MAX lie at least `err`
      beyond the unperturbed value. */
  lemma ApplyMinMidMaxOrdered(func: real -> Result<real>, t: real, err: real)
    requires StrictlyMonotone(func) && err >= 0.0
    ensures var lo := ApplyMinMidMaxError(func, t, MIN, err);
            var mid := ApplyMinMidMaxError(func, t, MID, err);
            var hi := ApplyMinMidMaxError(func, t, MAX, err);
            lo.Ok? && mid.Ok? && hi.Ok? &&
            lo.value < mid.value - err && mid.value + err < hi.value
  {
    assert t - ErrorTimestamp < t < t + ErrorTimestamp;
    assert func(t).Ok? && func(t + ErrorTimestamp).Ok? && func(t - ErrorTimestamp).Ok?;
  }

  /** Monotone but not strictly: when `func` is flat just after `t` the
      MAX side falls back to `t - dt`, which can lie below MID. With
      `func(x) = min(x, 0)` at `t = 0` and no error term, MAX gives
      `-1/6` while MID gives `0`. */
  lemma ApplyMinMidMaxFlatRight()
    ensures var f := (x: real) => Ok(if x < 0.0 then x else 0.0);
            ApplyMinMidMaxError(f, 0.0, MAX, 0.0) == Ok(-ErrorTimestamp) &&
            ApplyMinMidMaxError(f, 0.0, MID, 0.0) == Ok(0.0)
  {
  }

  // ---------------------------------------------------------------------
  // Video times

  /** `VideoTime(min, sec, frame)`; frames may be fractional. */
  datatype VideoTime = VideoTime(min: real, sec: real, frame: real)
  {
    /** `.time`: seconds from the start of the video. */
    function Time(): real
    {
      min * 60.0 + sec + frame / 30.0
    }
  }

  predicate ValidVideoTime(vt: VideoTime)
  {
    0.0 <= vt.min < 60.0 && 0.0 <= vt.sec < 60.0 && 0.0 <= vt.frame < 30.0
  }

  /** `VideoTime(*args)`: exactly three arguments, minutes and seconds in
      `[0, 60)`, frames in `[0, 30)`; otherwise ValueError. */
  function MakeVideoTime(args: seq<real>): (r: Result<VideoTime>)
    ensures r.Ok? <==> |args| == 3 && ValidVideoTime(VideoTime(args[0], args[1], args[2]))
    ensures r.Err? ==> r.error == ValueError
    ensures r.Ok? ==> r.value == VideoTime(args[0], args[1], args[2]) && 0.0 <= r.value.Time() < 3661.0
  {
    if |args| != 3 then Err(ValueError)
    else if !(0.0 <= args[0] < 60.0) then Err(ValueError)
    else if !(0.0 <= args[1] < 60.0) then Err(ValueError)
    else if !(0.0 <= args[2] < 30.0) then Err(ValueError)
    else Ok(VideoTime(args[0], args[1], args[2]))
  }

  /** `__eq__`: equal times, whatever the fields. */
  predicate Eq(a: VideoTime, b: VideoTime)
  {
    a.Time() == b.Time()
  }

  /** `__lt__`. */
  predicate Lt(a: VideoTime, b: VideoTime)
  {
    a.Time() < b.Time()
  }

  /** The comparisons form a strict total order up to `Eq`: exactly one of
      `a < b`, `a == b`, `b < a` holds, and `<` is transitive. */
  lemma VideoTimeOrder(a: VideoTime, b: VideoTime, c: VideoTime)
    ensures (Lt(a, b) && !Eq(a, b) && !Lt(b, a)) || (!Lt(a, b) && Eq(a, b) && !Lt(b, a)) ||
            (!Lt(a, b) && !Eq(a, b) && Lt(b, a))
    ensures Lt(a, b) && Lt(b, c) ==> Lt(a, c)
    ensures Eq(a, b) && Eq(b, c) ==> Eq(a, c)
  {
  }

  /** For valid times with whole minutes and seconds, comparing times is
      comparing (minutes, seconds, frames) lexicographically. */
  lemma LtIsLexicographic(a: VideoTime, b: VideoTime)
    requires ValidVideoTime(a) && ValidVideoTime(b)
    requires a.min == a.min.Floor as real && a.sec == a.sec.Floor as real
    requires b.min == b.min.Floor as real && b.sec == b.sec.Floor as real
    ensures Lt(a, b) <==>
            a.min < b.min || (a.min == b.min && (a.sec < b.sec || (a.sec == b.sec && a.frame < b.frame)))
  {
    var am, as_, bm, bs := a.min.Floor, a.sec.Floor, b.min.Floor, b.sec.Floor;
    assert a.frame / 30.0 < 1.0 && b.frame / 30.0 < 1.0;
    if am < bm {
      assert am + 1 <= bm;
      assert a.Time() < (am + 1) as real * 60.0;
    } else if bm < am {
      assert bm + 1 <= am;
      assert b.Time() < (bm + 1) as real * 60.0;
    } else if as_ < bs {
      assert as_ + 1 <= bs;
    } else if bs < as_ {
      assert bs + 1 <= as_;
    }
  }

  const TimeVideoEnd: VideoTime := VideoTime(0.0, 35.0, 20.0)

  /** `TIME_VIDEO_MAX_AS_INT`: the whole second after the end of the
      video. */
  function TimeVideoMaxAsInt(): (n: int)
    ensures n == 36
  {
    Decimal.Truncate(TimeVideoEnd.Time() + 1.0)
  }

  /** `video_frame_to_time(f)`: floor division into minutes, seconds and
      frames. Frames outside the hour the time type can hold (negative, or
      108000 and beyond) make the constructor raise ValueError. */
  function VideoFrameToTime(f: int): (r: Result<VideoTime>)
    ensures r.Ok? <==> 0 <= f < 108000
    ensures r.Err? ==> r.error == ValueError
    ensures r.Ok? ==> r.value.Time() * 30.0 == f as real && ValidVideoTime(r.value)
  {
    var m := f / FramesPerSecond / 60;
    var s := (f / FramesPerSecond) % 60;
    var fr := f % FramesPerSecond;
    assert 0 <= f < 108000 ==> 0 <= m < 60;
    assert f < 0 ==> m < 0;
    assert f >= 108000 ==> m >= 60;
    assert f == (m * 60 + s) * 30 + fr;
    MakeVideoTime([m as real, s as real, fr as real])
  }

  /** The frame number and the video time determine each other, and the
      order of frames is the order of times. */
  lemma VideoFrameToTimeOrder(f: int, g: int)
    requires 0 <= f < g < 108000
    ensures Lt(VideoFrameToTime(f).value, VideoFrameToTime(g).value)
  {
  }

  /** The documented cases: frame 0, one second, one minute. */
  lemma VideoFrameToTimeExamples()
    ensures VideoFrameToTime(0) == Ok(VideoTime(0.0, 0.0, 0.0))
    ensures VideoFrameToTime(30) == Ok(VideoTime(0.0, 1.0, 0.0))
    ensures VideoFrameToTime(1800) == Ok(VideoTime(1.0, 0.0, 0.0))
  {
  }

  /** The ffmpeg frame index of a video time: ffmpeg numbers frames from
      one and repeats the first, so it runs two ahead. */
  function FfmpegFrame(vt: VideoTime): int
  {
    Decimal.Truncate(vt.Time() * 30.0 + 2.0)
  }

  /** `video_time_to_ffmepeg_time`. */
  function VideoTimeToFfmpegTime(vt: VideoTime): (r: Result<VideoTime>)
    requires ValidVideoTime(vt)
    ensures r.Ok? <==> 0 <= FfmpegFrame(vt) < 108000
    ensures r.Err? ==> r.error == ValueError
    ensures r.Ok? ==> r.value.Time() * 30.0 == FfmpegFrame(vt) as real
  {
    VideoFrameToTime(FfmpegFrame(vt))
  }

  /** `video_time_to_ffmpeg_name`: `image` and the ffmpeg frame index
      zero-padded to six digits, then `.png`. */
  function VideoTimeToFfmpegName(vt: VideoTime): (name: string)
    requires ValidVideoTime(vt)
    ensures |name| >= 15 && name[..5] == "image" && name[|name| - 4..] == ".png"
    ensures Decimal.AllDigits(name[5..|name| - 4])
    ensures Decimal.DigitsValue(name[5..|name| - 4]) == FfmpegFrame(vt)
  {
    var n := FfmpegFrame(vt);
    assert n >= 2;
    var pad := Decimal.ZeroPad(n, 6);
    Decimal.ZeroPadRoundTrip(n, 6);
    var name := "image" + pad + ".png";
    assert name[5..|name| - 4] == pad;
    name
  }

  /** `ffmpeg_time_to_video_time`: back two frames. */
  function FfmpegTimeToVideoTime(vt: VideoTime): (r: Result<VideoTime>)
    requires ValidVideoTime(vt)
    ensures r.Ok? <==> 0 <= Decimal.Truncate(vt.Time() * 30.0 - 2.0) < 108000
    ensures r.Err? ==> r.error == ValueError
    ensures r.Ok? ==> r.value.Time() * 30.0 == Decimal.Truncate(vt.Time() * 30.0 - 2.0) as real
  {
    VideoFrameToTime(Decimal.Truncate(vt.Time() * 30.0 - 2.0))
  }

  /** An ffmpeg time in the first frame, 00:00:00 among them, lies before
      the start of the video: converting it back raises ValueError. */
  lemma FfmpegTimeBeforeStart(vt: VideoTime)
    requires ValidVideoTime(vt) && vt.Time() * 30.0 < 1.0
    ensures FfmpegTimeToVideoTime(vt) == Err(ValueError)
  {
  }

  /** The last two frames of the hour, 59:59:29 among them, lie past the
      hour in ffmpeg time: converting them raises ValueError. */
  lemma FfmpegTimePastHour(vt: VideoTime)
    requires ValidVideoTime(vt) && vt.Time() * 30.0 >= 107998.0
    ensures VideoTimeToFfmpegTime(vt) == Err(ValueError)
  {
  }

  /** 00:00:00 is such a time for `FfmpegTimeBeforeStart`. */
  lemma FfmpegTimeStartOfVideo()
    ensures ValidVideoTime(VideoTime(0.0, 0.0, 0.0))
    ensures VideoTime(0.0, 0.0, 0.0).Time() * 30.0 < 1.0
  {
  }

  /** 59:59:29 is such a time for `FfmpegTimePastHour`. */
  lemma FfmpegTimeEndOfHour()
    ensures ValidVideoTime(VideoTime(59.0, 59.0, 29.0))
    ensures VideoTime(59.0, 59.0, 29.0).Time() * 30.0 == 107999.0
  {
  }

  /** `ffmpeg_name_to_video_time`: the six characters after `image` as a
      number, back two frames. */
  function FfmpegNameToVideoTime(name: string): (r: Result<VideoTime>)
    ensures r.Ok? ==> ValidVideoTime(r.value)
    ensures r.Ok? ==> Decimal.ParseInt(Decimal.Slice(name, 5, 11)).Ok? &&
                      r.value.Time() * 30.0 == (Decimal.ParseInt(Decimal.Slice(name, 5, 11)).value - 2) as real
  {
    var n :- Decimal.ParseInt(Decimal.Slice(name, 5, 11));
    VideoFrameToTime(n - 2)
  }

  /** A video time on a whole frame `f` (with `f + 2` still inside the
      hour) goes to ffmpeg time and back to the same time. */
  lemma FfmpegTimeRoundTrip(vt: VideoTime, f: nat)
    requires ValidVideoTime(vt) && vt.Time() * 30.0 == f as real && f + 2 < 108000
    ensures VideoTimeToFfmpegTime(vt).Ok?
    ensures ValidVideoTime(VideoTimeToFfmpegTime(vt).value)
    ensures FfmpegTimeToVideoTime(VideoTimeToFfmpegTime(vt).value).Ok?
    ensures Eq(FfmpegTimeToVideoTime(VideoTimeToFfmpegTime(vt).value).value, vt)
  {
    Decimal.TruncateWhole(f + 2);
    assert FfmpegFrame(vt) == f + 2;
    var w := VideoTimeToFfmpegTime(vt).value;
    assert w.Time() * 30.0 - 2.0 == f as real;
    Decimal.TruncateWhole(f);
  }

  /** A video time on a whole frame `f` goes to an ffmpeg image name and
      back to the same time. */
  lemma FfmpegNameRoundTrip(vt: VideoTime, f: nat)
    requires ValidVideoTime(vt) && vt.Time() * 30.0 == f as real && f < 108000
    ensures FfmpegNameToVideoTime(VideoTimeToFfmpegName(vt)).Ok?
    ensures Eq(FfmpegNameToVideoTime(VideoTimeToFfmpegName(vt)).value, vt)
  {
    Decimal.TruncateWhole(f + 2);
    assert FfmpegFrame(vt) == f + 2;
    var pad := Decimal.ZeroPad(f + 2, 6);
    Decimal.ZeroPadRoundTrip(f + 2, 6);
    assert Decimal.Pow10(6) == 1000000;
    var name := "image" + pad + ".png";
    assert Decimal.Slice(name, 5, 11) == pad;
  }

  /** The documented name: 8 seconds and 14 frames is frame 254, ffmpeg
      image 256. */
  lemma FfmpegNameExample()
    ensures VideoTimeToFfmpegName(VideoTime(0.0, 8.0, 14.0)) == "image000256.png"
  {
    FfmpegFrameExample();
    ZeroPadExample();
  }

  lemma FfmpegFrameExample()
    ensures FfmpegFrame(VideoTime(0.0, 8.0, 14.0)) == 256
  {
    assert VideoTime(0.0, 8.0, 14.0).Time() * 30.0 + 2.0 == 256.0;
    Decimal.TruncateWhole(256);
  }

  lemma ZeroPadExample()
    ensures Decimal.ZeroPad(256, 6) == "000256"
  {
    assert Decimal.Digits(256) == "256";
    assert Decimal.ZeroPad(256, 6) == "000" + "256";
  }

  // ---------------------------------------------------------------------
  // Transits

  /** `AircraftTransit(video_from, video_to)`. */
  datatype AircraftTransit = AircraftTransit(from: VideoTime, to: VideoTime)
  {
    /** `.time`: the mid-point. */
    function Time(): real
    {
      (to.Time() + from.Time()) / 2.0
    }

    /** `.dt`: the duration. */
    function Dt(): real
    {
      to.Time() - from.Time()
    }
  }

  /** The mid-point is half the duration from either end, so it lies
      between them whenever the transit does not run backwards. */
  lemma TransitMidPoint(tr: AircraftTransit)
    ensures tr.Time() - tr.Dt() / 2.0 == tr.from.Time()
    ensures tr.Time() + tr.Dt() / 2.0 == tr.to.Time()
    ensures tr.Dt() >= 0.0 ==> tr.from.Time() <= tr.Time() <= tr.to.Time()
  {
  }

  /** `transit_is_simultaneous(label)` over the given label pairs: whether
      the label `tag` is either member of some pair. */
  method TransitIsSimultaneous(pairs: seq<(string, string)>, tag: string) returns (found: bool)
    ensures found <==> exists i :: 0 <= i < |pairs| && (tag == pairs[i].0 || tag == pairs[i].1)
  {
    var i := 0;
    while i < |pairs|
      invariant 0 <= i <= |pairs|
      invariant forall j :: 0 <= j < i ==> tag != pairs[j].0 && tag != pairs[j].1
    {
      var (a, b) := pairs[i];
      if tag == a || tag == b {
        return true;
      }
      i := i + 1;
    }
    return false;
  }
}

=== FILE: video_utils.dfy ===
/** General calculation helpers of the A340 analysis (`video_utils.py`):
    speed units, combinations, linear interpolation with extrapolation,
    the closed-form cubic and quartic motion polynomials, the validation
    around the triangulation of two aspect sightings, and the x-axis
    intercept of a transit line. Floats are exact reals; trigonometry is a
    parameter taking degrees (the source's `math.radians` is folded in). */
module VideoUtils {
  import opened Outcomes
  import Polynomial

  // ---------------------------------------------------------------------
  // Speed units

  /** `m_p_s_to_knots`: a knot is 6080 feet of 0.3048 m per hour. */
  function MpsToKnots(v: real): (k: real)
    ensures k * 0.3048 * 6080.0 == 3600.0 * v
  {
    3600.0 * v / 0.3048 / 6080.0
  }

  /** `knots_to_m_p_s`. */
  function KnotsToMps(k: real): (v: real)
    ensures 3600.0 * v == k * 6080.0 * 0.3048
  {
    k * 6080.0 * 0.3048 / 3600.0
  }

  /** The two conversions are exact inverses of each other. */
  lemma KnotsRoundTrip(v: real)
    ensures KnotsToMps(MpsToKnots(v)) == v
    ensures MpsToKnots(KnotsToMps(v)) == v
  {
  }

  // ---------------------------------------------------------------------
  // Combinations

  function Factorial(n: nat): (f: nat)
    ensures f >= 1
  {
    if n == 0 then 1 else n * Factorial(n - 1)
  }

  /** Pascal's rule: the reference number of `k`-element subsets of an
      `n`-element set. */
  function Choose(n: nat, k: nat): nat
  {
    if k == 0 then 1 else if n == 0 then 0 else Choose(n - 1, k - 1) + Choose(n - 1, k)
  }

  /** `num_k_of_n(n, k)`: 0 when `k > n`, 1 when `k == n`, otherwise
      `n! // (k! (n-k)!)`, where `math.factorial` of a negative number
      raises ValueError. */
  function NumKOfN(n: int, k: int): (r: Result<int>)
    ensures k > n ==> r == Ok(0)
    ensures k == n ==> r == Ok(1)
    ensures r.Err? <==> k < n && k < 0
    ensures r.Err? ==> r.error == ValueError
  {
    if k > n then Ok(0)
    else if k == n then Ok(1)
    else if k < 0 then Err(ValueError)
    else Ok(Factorial(n) / (Factorial(k) * Factorial(n - k)))
  }

  /** For natural arguments the factorial quotient is exactly the number
      of `k`-element subsets given by Pascal's rule. */
  lemma NumKOfNIsChoose(n: nat, k: nat)
    ensures NumKOfN(n, k) == Ok(Choose(n, k))
  {
    if k > n {
      ChooseTooMany(n, k);
    } else if k == n {
      ChooseAll(n);
    } else {
      FactorialChoose(n, k);
      DivExact(Factorial(n), Factorial(k) * Factorial(n - k), Choose(n, k));
    }
  }

  lemma DivExact(a: nat, b: nat, q: nat)
    requires b > 0 && a == q * b
    ensures a / b == q
  {
    var d := a / b;
    var m := a % b;
    assert a == d * b + m && 0 <= m < b;
    assert (q - d) * b == m;
    if q - d > 0 {
      MulAtLeast(q - d, b);
    }
  }

  lemma MulAtLeast(x: int, b: int)
    requires x >= 1 && b > 0
    ensures x * b >= b
  {
  }

  lemma DistributeChoose(x: int, y: int, k: int, m: int, p: int, q: int, f: int)
    requires f == x * (p * (m * q)) && f == y * ((k * p) * q)
    ensures (x + y) * ((k * p) * (m * q)) == (k + m) * f
  {
    assert x * ((k * p) * (m * q)) == k * (x * (p * (m * q)));
    assert y * ((k * p) * (m * q)) == m * (y * ((k * p) * q));
  }

  /** `n! == C(n, k) k! (n-k)!` for `0 <= k <= n`. */
  lemma {:induction false} FactorialChoose(n: nat, k: nat)
    requires k <= n
    ensures Factorial(n) == Choose(n, k) * (Factorial(k) * Factorial(n - k))
  {
    if k == 0 {
      assert Choose(n, 0) == 1;
    } else if k == n {
      ChooseAll(n);
    } else {
      FactorialChoose(n - 1, k - 1);
      FactorialChoose(n - 1, k);
      assert n - 1 - (k - 1) == n - k;
      DistributeChoose(Choose(n - 1, k - 1), Choose(n - 1, k), k, n - k,
                       Factorial(k - 1), Factorial(n - 1 - k), Factorial(n - 1));
    }
  }

  lemma {:induction false} ChooseAll(n: nat)
    ensures Choose(n, n) == 1
  {
    if n > 0 {
      ChooseAll(n - 1);
      ChooseTooMany(n - 1, n);
    }
  }

  lemma {:induction false} ChooseTooMany(n: nat, k: nat)
    requires k > n
    ensures Choose(n, k) == 0
  {
    if n > 0 {
      ChooseTooMany(n - 1, k - 1);
      ChooseTooMany(n - 1, k);
    }
  }

  /** The absorption identity `k C(n, k) == n C(n-1, k-1)`. */
  lemma ChooseAbsorb(n: nat, k: nat)
    requires 1 <= k <= n
    ensures k * Choose(n, k) == n * Choose(n - 1, k - 1)
  {
    FactorialChoose(n, k);
    FactorialChoose(n - 1, k - 1);
    assert n - 1 - (k - 1) == n - k;
    Regroup(Choose(n, k), Choose(n - 1, k - 1), k, n, Factorial(k - 1), Factorial(n - k));
    Cancel(k * Choose(n, k), n * Choose(n - 1, k - 1), Factorial(k - 1) * Factorial(n - k));
  }

  lemma Regroup(c1: int, c0: int, k: int, n: int, f: int, g: int)
    requires c1 * ((k * f) * g) == n * (c0 * (f * g))
    ensures (k * c1) * (f * g) == (n * c0) * (f * g)
  {
    assert c1 * ((k * f) * g) == (k * c1) * (f * g);
    assert n * (c0 * (f * g)) == (n * c0) * (f * g);
  }

  lemma Cancel(a: int, b: int, p: int)
    requires p > 0 && a * p == b * p
    ensures a == b
  {
    if a < b {
      MulAtLeast(b - a, p);
    } else if a > b {
      MulAtLeast(a - b, p);
    }
  }

  /** The number of unordered pairs: `C(n, 2) == n (n - 1) / 2`. */
  lemma {:induction false} ChoosePairs(n: nat)
    ensures 2 * Choose(n, 2) == n * (n - 1)
  {
    if n > 0 {
      ChoosePairs(n - 1);
      assert Choose(n - 1, 1) == n - 1 by { ChooseOne(n - 1); }
    }
  }

  lemma {:induction false} ChooseOne(n: nat)
    ensures Choose(n, 1) == n
  {
    if n > 0 {
      ChooseOne(n - 1);
    }
  }

  /** Tabulated values whose factorials are small, and the edge cases. */
  lemma NumKOfNExamples()
    ensures NumKOfN(1, 1) == Ok(1) && NumKOfN(2, 2) == Ok(1)
    ensures NumKOfN(3, 2) == Ok(3)
    ensures NumKOfN(10, 10) == Ok(1) && NumKOfN(10, 11) == Ok(0)
  {
    NumKOfNIsChoose(3, 2);
    ChoosePairs(3);
  }

  /** Pairs out of `n`: `n (n - 1) / 2`; for 32 items, 496. */
  lemma NumKOfNPairs(n: nat)
    requires n > 2
    ensures NumKOfN(n, 2) == Ok(n * (n - 1) / 2)
  {
    NumKOfNIsChoose(n, 2);
    ChoosePairs(n);
  }

  /** Five out of `n`: `n (n - 1) (n - 2) (n - 3) (n - 4) / 120`; for the
      five-card hands of a 52-card deck, 2598960. */
  lemma NumKOfNFive(n: nat)
    requires n > 5
    ensures NumKOfN(n, 5) == Ok(n * (n - 1) * (n - 2) * (n - 3) * (n - 4) / 120)
  {
    NumKOfNIsChoose(n, 5);
    ChoosePairs(n - 3);
    ChooseAbsorb(n - 2, 3);
    ChooseAbsorb(n - 1, 4);
    ChooseAbsorb(n, 5);
    assert n - 1 - 1 == n - 2 && n - 2 - 1 == n - 3;
    FiveChain(n, Choose(n - 3, 2), Choose(n - 2, 3), Choose(n - 1, 4), Choose(n, 5));
  }

  lemma FiveChain(n: int, c2: int, c3: int, c4: int, c5: int)
    requires 2 * c2 == (n - 3) * (n - 4) && 3 * c3 == (n - 2) * c2
    requires 4 * c4 == (n - 1) * c3 && 5 * c5 == n * c4
    ensures 120 * c5 == n * (n - 1) * (n - 2) * (n - 3) * (n - 4)
  {
    calc {
      120 * c5;
      24 * (n * c4);
      n * (6 * ((n - 1) * c3));
      n * (n - 1) * (2 * ((n - 2) * c2));
      n * (n - 1) * (n - 2) * ((n - 3) * (n - 4));
    }
  }
  // ---------------------------------------------------------------------
  // Interpolation

  ghost predicate NonDecreasing(s: seq<real>)
  {
    forall i, j :: 0 <= i < j < |s| ==> s[i] <= s[j]
  }

  ghost predicate StrictlyIncreasing(s: seq<real>)
  {
    forall i, j :: 0 <= i < j < |s| ==> s[i] < s[j]
  }

  /** `bisect.bisect_left` on the half-open index range `[lo, hi)`. */
  function BisectFrom(xs: seq<real>, x: real, lo: nat, hi: nat): (i: nat)
    requires lo <= hi <= |xs|
    ensures lo <= i <= hi
    decreases hi - lo
  {
    if lo >= hi then lo
    else
      var mid := (lo + hi) / 2;
      if xs[mid] < x then BisectFrom(xs, x, mid + 1, hi) else BisectFrom(xs, x, lo, mid)
  }

  /** `bisect.bisect_left(xs, x)`. */
  function BisectLeft(xs: seq<real>, x: real): (i: nat)
    ensures i <= |xs|
  {
    BisectFrom(xs, x, 0, |xs|)
  }

  lemma {:induction false} BisectFromSpec(xs: seq<real>, x: real, lo: nat, hi: nat)
    requires lo <= hi <= |xs| && NonDecreasing(xs)
    requires forall j :: 0 <= j < lo ==> xs[j] < x
    requires forall j :: hi <= j < |xs| ==> xs[j] >= x
    ensures forall j :: 0 <= j < BisectFrom(xs, x, lo, hi) ==> xs[j] < x
    ensures forall j :: BisectFrom(xs, x, lo, hi) <= j < |xs| ==> xs[j] >= x
    decreases hi - lo
  {
    if lo < hi {
      var mid := (lo + hi) / 2;
      if xs[mid] < x {
        BisectFromSpec(xs, x, mid + 1, hi);
      } else {
        BisectFromSpec(xs, x, lo, mid);
      }
    }
  }

  /** On a non-decreasing sequence `bisect_left` returns the insertion
      point: every element before it is below `x`, every element from it
      on is at least `x`. */
  lemma BisectLeftSpec(xs: seq<real>, x: real)
    requires NonDecreasing(xs)
    ensures forall j :: 0 <= j < BisectLeft(xs, x) ==> xs[j] < x
    ensures forall j :: BisectLeft(xs, x) <= j < |xs| ==> xs[j] >= x
  {
    BisectFromSpec(xs, x, 0, |xs|);
  }

  /** The slope `dy_dx` of the segment from `(x0, y0)` to `(x1, y1)`. */
  function Slope(x0: real, y0: real, x1: real, y1: real): (m: real)
    requires x1 - x0 != 0.0
    ensures m * (x1 - x0) == y1 - y0
  {
    (y1 - y0) / (x1 - x0)
  }

  /** The fraction `frac` of the way from `x0` to `x1` at which `x` lies. */
  function Fraction(x0: real, x1: real, x: real): (f: real)
    requires x1 - x0 != 0.0
    ensures f * (x1 - x0) == x - x0
  {
    (x - x0) / (x1 - x0)
  }

  /** `y + k * d`: the value reached from `y` going `d` at rate `k`. */
  function Along(y: real, k: real, d: real): real
  {
    y + k * d
  }

  /** `interpolate(xS, yS, x)`: linear interpolation between the two
      neighbours of `x`, or extrapolation along the first or last segment.
      Mismatched lengths and extrapolation from fewer than two points raise
      ValueError; a zero-width segment raises ZeroDivisionError. */
  function Interpolate(xs: seq<real>, ys: seq<real>, x: real): (r: Result<real>)
    ensures |xs| != |ys| ==> r == Err(ValueError)
    ensures r.Ok? ==> |xs| > 0
  {
    if |xs| != |ys| then Err(ValueError)
    else
      var i := BisectLeft(xs, x);
      var n := |xs|;
      if i == n then
        if n < 2 then Err(ValueError)
        else if xs[n - 1] - xs[n - 2] == 0.0 then Err(ZeroDivisionError)
        else Ok(Along(ys[n - 1], Slope(xs[n - 2], ys[n - 2], xs[n - 1], ys[n - 1]), x - xs[n - 1]))
      else if xs[i] == x then Ok(ys[i])
      else if i == 0 then
        if n < 2 then Err(ValueError)
        else if xs[1] - xs[0] == 0.0 then Err(ZeroDivisionError)
        else Ok(Along(ys[0], Slope(xs[0], ys[0], xs[1], ys[1]), x - xs[0]))
      else
        if xs[i] - xs[i - 1] == 0.0 then Err(ZeroDivisionError)
        else Ok(Along(ys[i - 1], Fraction(xs[i - 1], xs[i], x), ys[i] - ys[i - 1]))
  }

  /** The insertion point in a strictly increasing sequence is the index
      of the first element not below `x`. */
  lemma BisectLeftAt(xs: seq<real>, x: real, k: nat)
    requires StrictlyIncreasing(xs) && k <= |xs|
    requires k > 0 ==> xs[k - 1] < x
    requires k < |xs| ==> x <= xs[k]
    ensures BisectLeft(xs, x) == k
  {
    BisectLeftSpec(xs, x);
    var i := BisectLeft(xs, x);
    StrictPair(xs, i, k - 1);
    StrictPair(xs, i, k);
  }

  lemma StrictPair(xs: seq<real>, a: int, b: int)
    requires StrictlyIncreasing(xs)
    ensures 0 <= a < b < |xs| ==> xs[a] < xs[b]
  {
  }

  /** Where `x` is one of the (strictly increasing) abscissae, the
      corresponding ordinate is returned exactly. */
  lemma InterpolateHit(xs: seq<real>, ys: seq<real>, k: nat, x: real)
    requires StrictlyIncreasing(xs) && |xs| == |ys| && k < |xs| && xs[k] == x
    ensures Interpolate(xs, ys, x) == Ok(ys[k])
  {
    StrictPair(xs, k - 1, k);
    BisectLeftAt(xs, x, k);
  }

  /** Strictly between two neighbouring abscissae the result is on the
      chord between their points. */
  lemma InterpolateInterior(xs: seq<real>, ys: seq<real>, k: nat, x: real)
    requires StrictlyIncreasing(xs) && |xs| == |ys|
    requires 0 < k < |xs| && xs[k - 1] < x < xs[k]
    ensures xs[k] - xs[k - 1] > 0.0
    ensures Interpolate(xs, ys, x) == Ok(Along(ys[k - 1], Fraction(xs[k - 1], xs[k], x), ys[k] - ys[k - 1]))
  {
    BisectLeftAt(xs, x, k);
    StrictPair(xs, k - 1, k);
    assert Interpolate(xs, ys, x).value == Along(ys[k - 1], Fraction(xs[k - 1], xs[k], x), ys[k] - ys[k - 1]);
  }

  /** Below the first abscissa the first segment is extended. */
  lemma InterpolateBelow(xs: seq<real>, ys: seq<real>, x: real)
    requires StrictlyIncreasing(xs) && |xs| == |ys| && |xs| >= 2 && x < xs[0]
    ensures xs[1] - xs[0] > 0.0
    ensures Interpolate(xs, ys, x) == Ok(Along(ys[0], Slope(xs[0], ys[0], xs[1], ys[1]), x - xs[0]))
  {
    BisectLeftAt(xs, x, 0);
    StrictPair(xs, 0, 1);
    assert Interpolate(xs, ys, x).value == Along(ys[0], Slope(xs[0], ys[0], xs[1], ys[1]), x - xs[0]);
  }

  /** Above the last abscissa the last segment is extended. */
  lemma InterpolateAbove(xs: seq<real>, ys: seq<real>, x: real)
    requires StrictlyIncreasing(xs) && |xs| == |ys| && |xs| >= 2 && x > xs[|xs| - 1]
    ensures xs[|xs| - 1] - xs[|xs| - 2] > 0.0
    ensures var n := |xs|;
            Interpolate(xs, ys, x) == Ok(Along(ys[n - 1], Slope(xs[n - 2], ys[n - 2], xs[n - 1], ys[n - 1]), x - xs[n - 1]))
  {
    var n := |xs|;
    BisectLeftAt(xs, x, n);
    StrictPair(xs, n - 2, n - 1);
    assert Interpolate(xs, ys, x).value == Along(ys[n - 1], Slope(xs[n - 2], ys[n - 2], xs[n - 1], ys[n - 1]), x - xs[n - 1]);
  }

  /** With fewer than two points, any `x` that is not one of them cannot be
      extrapolated: ValueError, whatever the order. */
  lemma InterpolateTooFew(xs: seq<real>, ys: seq<real>, x: real)
    requires |xs| == |ys| < 2 && x !in xs
    ensures Interpolate(xs, ys, x) == Err(ValueError)
  {
  }

  /** The slope of a segment of the line `m x + c` is `m`. */
  lemma SlopeOfLine(x0: real, y0: real, x1: real, y1: real, m: real, c: real)
    requires x1 - x0 != 0.0 && y0 == m * x0 + c && y1 == m * x1 + c
    ensures Slope(x0, y0, x1, y1) == m
  {
    var s := Slope(x0, y0, x1, y1);
    assert s * (x1 - x0) == m * (x1 - x0);
    Cancel'(s, m, x1 - x0);
  }

  lemma Cancel'(a: real, b: real, p: real)
    requires p != 0.0 && a * p == b * p
    ensures a == b
  {
    assert (a - b) * p == 0.0;
  }

  /** Points on a straight line are interpolated and extrapolated onto
      that same line everywhere, inside and outside their range. */
  lemma InterpolateLine(xs: seq<real>, ys: seq<real>, m: real, c: real, x: real)
    requires StrictlyIncreasing(xs) && |xs| == |ys| && |xs| >= 2
    requires forall i :: 0 <= i < |xs| ==> ys[i] == m * xs[i] + c
    ensures Interpolate(xs, ys, x) == Ok(m * x + c)
  {
    var n := |xs|;
    BisectLeftSpec(xs, x);
    var k := BisectLeft(xs, x);
    if k == n {
      LineAbove(xs, ys, m, c, x);
    } else if xs[k] == x {
      LineHit(xs, ys, m, c, x, k);
    } else if k == 0 {
      LineBelow(xs, ys, m, c, x);
    } else {
      LineInterior(xs, ys, m, c, x, k);
    }
  }

  lemma LineAbove(xs: seq<real>, ys: seq<real>, m: real, c: real, x: real)
    requires StrictlyIncreasing(xs) && |xs| == |ys| && |xs| >= 2 && x > xs[|xs| - 1]
    requires ys[|xs| - 2] == m * xs[|xs| - 2] + c && ys[|xs| - 1] == m * xs[|xs| - 1] + c
    ensures Interpolate(xs, ys, x) == Ok(m * x + c)
  {
    var n := |xs|;
    InterpolateAbove(xs, ys, x);
    ExtendLine(xs[n - 2], ys[n - 2], xs[n - 1], ys[n - 1], m, c, x);
  }

  lemma LineHit(xs: seq<real>, ys: seq<real>, m: real, c: real, x: real, k: nat)
    requires StrictlyIncreasing(xs) && |xs| == |ys| && k < |xs| && xs[k] == x
    requires ys[k] == m * xs[k] + c
    ensures Interpolate(xs, ys, x) == Ok(m * x + c)
  {
    InterpolateHit(xs, ys, k, x);
    assert ys[k] == m * x + c;
  }

  lemma LineBelow(xs: seq<real>, ys: seq<real>, m: real, c: real, x: real)
    requires StrictlyIncreasing(xs) && |xs| == |ys| && |xs| >= 2 && x < xs[0]
    requires ys[0] == m * xs[0] + c && ys[1] == m * xs[1] + c
    ensures Interpolate(xs, ys, x) == Ok(m * x + c)
  {
    InterpolateBelow(xs, ys, x);
    ExtendLine(xs[0], ys[0], xs[1], ys[1], m, c, x);
  }

  lemma LineInterior(xs: seq<real>, ys: seq<real>, m: real, c: real, x: real, k: nat)
    requires StrictlyIncreasing(xs) && |xs| == |ys| && 0 < k < |xs| && xs[k - 1] < x < xs[k]
    requires ys[k - 1] == m * xs[k - 1] + c && ys[k] == m * xs[k] + c
    ensures Interpolate(xs, ys, x) == Ok(m * x + c)
  {
    InterpolateInterior(xs, ys, k, x);
    SegmentOnLine(xs[k - 1], ys[k - 1], xs[k], ys[k], m, c, x);
  }

  /** Extending a segment of a line from either end stays on the line. */
  lemma ExtendLine(x0: real, y0: real, x1: real, y1: real, m: real, c: real, x: real)
    requires x1 - x0 != 0.0 && y0 == m * x0 + c && y1 == m * x1 + c
    ensures Along(y0, Slope(x0, y0, x1, y1), x - x0) == m * x + c
    ensures Along(y1, Slope(x0, y0, x1, y1), x - x1) == m * x + c
  {
    SlopeOfLine(x0, y0, x1, y1, m, c);
  }

  /** Interpolating along a segment of a line stays on the line. */
  lemma SegmentOnLine(x0: real, y0: real, x1: real, y1: real, m: real, c: real, x: real)
    requires x1 - x0 != 0.0 && y0 == m * x0 + c && y1 == m * x1 + c
    ensures Along(y0, Fraction(x0, x1, x), y1 - y0) == m * x + c
  {
    var f := Fraction(x0, x1, x);
    calc {
      f * (y1 - y0);
      f * (m * (x1 - x0));
      m * (f * (x1 - x0));
      m * (x - x0);
    }
  }

  /** The documented table `y = 2 x` on `x = 4, 8, 12, 16`. */
  lemma InterpolateExample(xs: seq<real>, ys: seq<real>)
    requires xs == [4.0, 8.0, 12.0, 16.0] && ys == [8.0, 16.0, 24.0, 32.0]
    ensures Interpolate(xs, ys, 0.0) == Ok(0.0)
    ensures Interpolate(xs, ys, 6.0) == Ok(12.0)
    ensures Interpolate(xs, ys, 20.0) == Ok(40.0)
  {
    InterpolateLine(xs, ys, 2.0, 0.0, 0.0);
    InterpolateLine(xs, ys, 2.0, 0.0, 6.0);
    InterpolateLine(xs, ys, 2.0, 0.0, 20.0);
  }

  // ---------------------------------------------------------------------
  // Closed-form polynomials (the A340 fits)

  /** `polynomial_3`: Horner form of `a + b x + c x^2 + d x^3`. */
  function Poly3(x: real, a: real, b: real, c: real, d: real): (r: real)
    ensures r == Polynomial.PowerSum([a, b, c, d], x)
  {
    Polynomial.PowerSum4(a, b, c, d, x);
    a + x * (b + x * (c + x * d))
  }

  /** `polynomial_3_integral_from_zero`. */
  function Poly3IntegralFromZero(x: real, a: real, b: real, c: real, d: real): (r: real)
    ensures r == Polynomial.PowerSum(Polynomial.IntCoeffs([a, b, c, d]), x)
  {
    var s := Polynomial.IntCoeffs([a, b, c, d]);
    assert s[1] == a && s[2] == b / 2.0 && s[3] == c / 3.0 && s[4] == d / 4.0;
    assert s == [0.0, a, b / 2.0, c / 3.0, d / 4.0];
    Polynomial.PowerSum5(0.0, a, b / 2.0, c / 3.0, d / 4.0, x);
    x * (a + x * (b / 2.0 + x * (c / 3.0 + x * d / 4.0)))
  }

  /** `polynomial_3_integral(x0, x1, ...)`: the definite integral, which is
      the difference of the integrals from zero. */
  function Poly3Integral(x0: real, x1: real, a: real, b: real, c: real, d: real): (r: real)
    ensures r == Poly3IntegralFromZero(x1, a, b, c, d) - Poly3IntegralFromZero(x0, a, b, c, d)
  {
    a * (x1 - x0)
      + b * (x1 * x1 - x0 * x0) / 2.0
      + c * (x1 * x1 * x1 - x0 * x0 * x0) / 3.0
      + d * (x1 * x1 * x1 * x1 - x0 * x0 * x0 * x0) / 4.0
  }

  /** `polynomial_3_differential`: its coefficients are those of the
      derivative of the cubic. */
  function Poly3Differential(x: real, a: real, b: real, c: real, d: real): (r: real)
    ensures r == Polynomial.PowerSum(Polynomial.DiffCoeffs([a, b, c, d]), x)
  {
    var s := Polynomial.DiffCoeffs([a, b, c, d]);
    assert s[0] == b && s[1] == 2.0 * c && s[2] == 3.0 * d;
    assert s == [b, 2.0 * c, 3.0 * d];
    Polynomial.PowerSumCons(s, x);
    Polynomial.PowerSumCons(s[1..], x);
    Polynomial.PowerSumCons(s[2..], x);
    assert s[2..][1..] == [];
    b + 2.0 * c * x + 3.0 * d * x * x
  }

  /** The definite integral over an empty interval is zero, swapping the
      bounds negates it, and integrals over adjacent intervals add up. */
  lemma Poly3IntegralAdditive(x0: real, x1: real, x2: real, a: real, b: real, c: real, d: real)
    ensures Poly3Integral(x0, x0, a, b, c, d) == 0.0
    ensures Poly3Integral(x1, x0, a, b, c, d) == -Poly3Integral(x0, x1, a, b, c, d)
    ensures Poly3Integral(x0, x1, a, b, c, d) + Poly3Integral(x1, x2, a, b, c, d)
            == Poly3Integral(x0, x2, a, b, c, d)
  {
  }

  /** `polynomial_4`: Horner form of the quartic. */
  function Poly4(x: real, a: real, b: real, c: real, d: real, e: real): (r: real)
    ensures r == Polynomial.PowerSum([a, b, c, d, e], x)
  {
    Polynomial.PowerSum5(a, b, c, d, e, x);
    a + x * (b + x * (c + x * (d + x * e)))
  }

  /** `polynomial_4_integral_from_zero`. */
  function Poly4IntegralFromZero(x: real, a: real, b: real, c: real, d: real, e: real): (r: real)
    ensures r == Polynomial.PowerSum(Polynomial.IntCoeffs([a, b, c, d, e]), x)
  {
    var s := Polynomial.IntCoeffs([a, b, c, d, e]);
    assert s[1] == a && s[2] == b / 2.0 && s[3] == c / 3.0 && s[4] == d / 4.0 && s[5] == e / 5.0;
    assert s == [0.0, a, b / 2.0, c / 3.0, d / 4.0, e / 5.0];
    Polynomial.PowerSumCons(s, x);
    assert s[1..] == [a, b / 2.0, c / 3.0, d / 4.0, e / 5.0];
    Polynomial.PowerSum5(a, b / 2.0, c / 3.0, d / 4.0, e / 5.0, x);
    x * (a + x * (b / 2.0 + x * (c / 3.0 + x * (d / 4.0 + x * e / 5.0))))
  }

  /** `polynomial_4_integral(x0, x1, ...)`. */
  function Poly4Integral(x0: real, x1: real, a: real, b: real, c: real, d: real, e: real): (r: real)
    ensures r == Poly4IntegralFromZero(x1, a, b, c, d, e) - Poly4IntegralFromZero(x0, a, b, c, d, e)
  {
    a * (x1 - x0)
      + b * (x1 * x1 - x0 * x0) / 2.0
      + c * (x1 * x1 * x1 - x0 * x0 * x0) / 3.0
      + d * (x1 * x1 * x1 * x1 - x0 * x0 * x0 * x0) / 4.0
      + e * (x1 * x1 * x1 * x1 * x1 - x0 * x0 * x0 * x0 * x0) / 5.0
  }

  /** `polynomial_4_differential`. */
  function Poly4Differential(x: real, a: real, b: real, c: real, d: real, e: real): (r: real)
    ensures r == Polynomial.PowerSum(Polynomial.DiffCoeffs([a, b, c, d, e]), x)
  {
    var s := Polynomial.DiffCoeffs([a, b, c, d, e]);
    assert s[0] == b && s[1] == 2.0 * c && s[2] == 3.0 * d && s[3] == 4.0 * e;
    assert s == [b, 2.0 * c, 3.0 * d, 4.0 * e];
    Polynomial.PowerSum4(b, 2.0 * c, 3.0 * d, 4.0 * e, x);
    b + 2.0 * c * x + 3.0 * d * x * x + 4.0 * e * x * x * x
  }

  /** The derivative of the integral from zero is the polynomial itself,
      at the level of coefficients, for both the cubic and the quartic. */
  lemma IntegralDifferentiatesBack(a: real, b: real, c: real, d: real, e: real)
    ensures Polynomial.DiffCoeffs(Polynomial.IntCoeffs([a, b, c, d])) == [a, b, c, d]
    ensures Polynomial.DiffCoeffs(Polynomial.IntCoeffs([a, b, c, d, e])) == [a, b, c, d, e]
  {
    Polynomial.DiffOfIntCoeffs([a, b, c, d]);
    Polynomial.DiffOfIntCoeffs([a, b, c, d, e]);
  }

  // ---------------------------------------------------------------------
  // Triangulation of two aspect sightings

  /** Python's `b % 360` for a float: the representative in `[0, 360)`. */
  function Mod360(b: real): (r: real)
    ensures 0.0 <= r < 360.0
    ensures 0.0 <= b < 360.0 ==> r == b
  {
    b - 360.0 * ((b / 360.0).Floor as real)
  }

  /** Bearings that differ by a whole turn normalise alike. */
  lemma Mod360Turn(b: real)
    ensures Mod360(b + 360.0) == Mod360(b)
  {
    assert (b + 360.0) / 360.0 == b / 360.0 + 1.0;
    assert ((b + 360.0) / 360.0).Floor == (b / 360.0).Floor + 1;
  }

  /** `triangle_ASA(alpha, c, beta)`: the side opposite each given angle
      by the law of sines, and the third angle. Angles here are measured
      in degrees, where Python's function takes radians: the straight
      angle is 180 rather than `math.pi`, `sin` takes degrees, and the
      third angle comes back in degrees. Non-positive inputs raise
      ValueError; a degenerate third angle whose sine is zero makes the
      division raise ZeroDivisionError. */
  function TriangleAsa(alpha: real, c: real, beta: real, sin: real -> real): (r: Result<(real, real, real)>)
    ensures r.Ok? <==> alpha > 0.0 && c > 0.0 && beta > 0.0 && sin(180.0 - alpha - beta) != 0.0
    ensures r.Err? && (alpha <= 0.0 || c <= 0.0 || beta <= 0.0) ==> r.error == ValueError
    ensures r.Ok? ==> r.value.1 + alpha + beta == 180.0
    ensures r.Ok? ==> r.value.2 * sin(r.value.1) == c * sin(alpha)
    ensures r.Ok? ==> r.value.0 * sin(r.value.1) == c * sin(beta)
  {
    if alpha <= 0.0 then Err(ValueError)
    else if c <= 0.0 then Err(ValueError)
    else if beta <= 0.0 then Err(ValueError)
    else
      var gamma := 180.0 - alpha - beta;
      if sin(gamma) == 0.0 then Err(ZeroDivisionError)
      else
        var factor := c / sin(gamma);
        Ok((factor * sin(beta), gamma, factor * sin(alpha)))
  }

  /** The normalised, ordered form of two sightings: bearings reduced to
      `[0, 360)` and the nearer sighting first. */
  function Normalise(d0: real, b0: real, d1: real, b1: real): (real, real, real, real)
  {
    var n0 := Mod360(b0);
    var n1 := Mod360(b1);
    if d1 < d0 then (d1, n1, d0, n0) else (d0, n0, d1, n1)
  }

  /** `aspect_intersection(d0, b0, d1, b1)`: the position `(d, y)` seen at
      bearing `b0` from distance `d0` and at `b1` from `d1` along the x
      axis. The two sightings must be on the same side of the axis with
      the farther one at the larger (or, below the axis, smaller) bearing;
      otherwise ValueError. */
  function AspectIntersection(d0: real, b0: real, d1: real, b1: real, sin: real -> real, cos: real -> real)
    : (r: Result<(real, real)>)
    ensures var (e0, f0, e1, f1) := Normalise(d0, b0, d1, b1);
            r.Err? && (e0 == e1 || !((0.0 < f0 <= f1 < 180.0) || (180.0 < f1 <= f0 < 360.0)))
            ==> r.error == ValueError
    ensures var (e0, f0, e1, f1) := Normalise(d0, b0, d1, b1);
            r.Ok? ==> e0 < e1 && ((0.0 < f0 <= f1 < 180.0) || (180.0 < f1 <= f0 < 360.0))
  {
    IntersectNormalised(Normalise(d0, b0, d1, b1), sin, cos)
  }

  /** The body of `aspect_intersection` after normalisation. */
  function IntersectNormalised(n: (real, real, real, real), sin: real -> real, cos: real -> real)
    : (r: Result<(real, real)>)
  {
    var (d0, b0, d1, b1) := n;
    var yPositive := b0 < 180.0;
    if yPositive && b1 < b0 then Err(ValueError)
    else if !yPositive && b1 > b0 then Err(ValueError)
    else
      var beta := if yPositive then b0 else 360.0 - b0;
      var alpha := if yPositive then 180.0 - b1 else b1 - 180.0;
      var (_, _, a) :- TriangleAsa(alpha, d1 - d0, beta, sin);
      var d := d0 + a * cos(beta);
      var y := a * sin(beta);
      Ok(if yPositive then (d, y) else (d, -y))
  }

  /** The two sightings can be given in either order. */
  lemma AspectIntersectionSymmetric(d0: real, b0: real, d1: real, b1: real, sin: real -> real, cos: real -> real)
    ensures AspectIntersection(d0, b0, d1, b1, sin, cos) == AspectIntersection(d1, b1, d0, b0, sin, cos)
  {
    if d0 == d1 {
      var r := AspectIntersection(d0, b0, d1, b1, sin, cos);
      var r' := AspectIntersection(d1, b1, d0, b0, sin, cos);
      assert r.Err? && r.error == ValueError;
      assert r'.Err? && r'.error == ValueError;
    } else {
      assert Normalise(d0, b0, d1, b1) == Normalise(d1, b1, d0, b0);
    }
  }

  /** Adding whole turns to either bearing changes nothing. */
  lemma AspectIntersectionTurn(d0: real, b0: real, d1: real, b1: real, sin: real -> real, cos: real -> real)
    ensures AspectIntersection(d0, b0 + 360.0, d1, b1, sin, cos) == AspectIntersection(d0, b0, d1, b1, sin, cos)
    ensures AspectIntersection(d0, b0, d1, b1 + 360.0, sin, cos) == AspectIntersection(d0, b0, d1, b1, sin, cos)
  {
    Mod360Turn(b0);
    Mod360Turn(b1);
    assert Normalise(d0, b0 + 360.0, d1, b1) == Normalise(d0, b0, d1, b1);
    assert Normalise(d0, b0, d1, b1 + 360.0) == Normalise(d0, b0, d1, b1);
  }

  // ---------------------------------------------------------------------
  // Transit lines

  /** `transit_x_axis_intercept(px, py, ox, oy)`: where the line from the
      object `(px, py)` through the observer `(ox, oy)` crosses the x axis.
      A line parallel to the axis divides by zero. */
  function TransitXAxisIntercept(px: real, py: real, ox: real, oy: real): (r: Result<real>)
    ensures r.Err? <==> py == oy
    ensures r.Err? ==> r.error == ZeroDivisionError
  {
    if py - oy == 0.0 then Err(ZeroDivisionError) else Ok(px + py * (ox - px) / (py - oy))
  }

  /** The intercept is the one point of the x axis collinear with the
      object and the observer. */
  lemma TransitXAxisInterceptCollinear(px: real, py: real, ox: real, oy: real, x: real)
    requires py != oy
    ensures TransitXAxisIntercept(px, py, ox, oy) == Ok(x) <==> (x - px) * (oy - py) == (0.0 - py) * (ox - px)
  {
    var q := py * (ox - px) / (py - oy);
    assert q * (py - oy) == py * (ox - px);
    if (x - px) * (oy - py) == (0.0 - py) * (ox - px) {
      assert (x - px) * (py - oy) == q * (py - oy);
      assert x - px == q;
    }
  }

  /** The documented cases: (2, 1) and (6, -1) seen from (8, -2) both
      cross the axis at 4. */
  lemma TransitXAxisInterceptExamples()
    ensures TransitXAxisIntercept(2.0, 1.0, 8.0, -2.0) == Ok(4.0)
    ensures TransitXAxisIntercept(6.0, -1.0, 8.0, -2.0) == Ok(4.0)
  {
  }
}
